=== FILE: README.md ===
# Backup dashboard core, modelled in Dafny

The backup dashboard tracks a nightly Plex backup job on one server. Four pieces of logic
hold it up, and this project models each one as immutable datatypes with pure functions.

- **Log reconciliation.** `log_parser.py` does four things:
  - It imports the tracking file, one `YYYY-MM-DD:success|failed` line per night, into `daily_mirror` rows started at 03:00.
  - On a successful Sunday it adds a companion `snapshot` row at 03:30 and a `cleanup` row at 04:00.
  - It scans the extracted marker lines of the main backup log with a one-slot accumulator.
  - It fills size, transfer and duration onto the matching nightly row, filling each only once.

  Two drivers gate these steps. `parse_full_log` runs at startup. `parse_incremental` runs on every poll.
- **Manual-backup supervisor.** `backup_runner.py` is a state machine over a process slot, the last trigger time and the record store. It covers the cooldown, triggering a run, and reconciling a run once its process exits.
- **Record display.** `models/backup.py` renders a duration as `h m s` and a byte count with a binary unit.
- **Crontab handling.** `cron_service.py` parses crontab text into backup entries. It renders an entry's schedule in English, labels the entry, and guards the textual replacement used to edit an entry.

## Modules

- `Wrappers` holds `Option`.
- `Text` holds Python's string primitives: `strip`, `splitlines`, `split`, `rsplit`, `replace`, substring tests, and whitespace splitting with a limit.
- `Decimal` covers Python's `int()` on text and integer rendering. It also holds `_parse_comma_int` and a thousands-grouping inverse used to state round trips.
- `Calendar` holds instants as integer seconds since 0001-01-01 00:00:00, the proleptic Gregorian calendar and weekdays. It models the `%Y-%m-%d` and `%Y-%m-%d %H:%M:%S` formats exactly. The ordered first-match date parser takes the three shell-`date` formats as parameters.
- `BackupModel` holds the `BackupRun` record and its three display properties.
- `RecordStore` models the database table as a sequence of rows. A query's `.first()` is the first row in sequence order.
- `TrackingImport` is the tracking-file importer.
- `Markers` holds the seven marker regexes, as a small matcher with lazy groups and greedy character runs.
- `StatsScan` is the accumulator scan over classified lines.
- `Enrich` is the fill-once enrichment pass.
- `Reconcile` holds the two drivers. The filesystem is a map from path to content. The stats extraction is an oracle that returns what it wrote.
- `Supervisor` is the manual-run state machine. The process is `Idle | Alive | Exited(code, output)`, time is a parameter `now`, and script existence is a set of paths.
- `Cron` covers crontab parsing, labels, schedule display and the update guard.

Two details of the importer are modelled as written:
- The database session does not autoflush. A lookup therefore sees only rows stored before the import began, so a date repeated in one file is imported twice (`RepeatedLineAddedTwice`).
- The snapshot duplicate lookup probes 03:00, but the snapshot row is stored at 03:30. A snapshot already stored for that Sunday is therefore added again when that Sunday's nightly row is not stored (`SnapshotProbeMissesStoredSnapshot`). When the nightly row is stored, the line is skipped before either companion is considered.

Two source defects are modelled both ways; see Findings:
- The supervisor's reconciliation of an exited manual run is modelled as intended (`CheckRunning`). As written it raises before committing, and that behaviour is modelled alongside (`CheckRunningAsWritten`).
- `_format_bytes` prints a PB value that is still in TB, because its loop stops after four divisions. `FormatBytes` models it as written, and `FormatBytesIntended` divides by 1024⁵ for PB. The two display properties use the corrected formatter, which agrees with `_format_bytes` on every value below one pebibyte.

## Model

| member | source | states |
|---|---|---|
| Decimal.ParseCommaIntOfGroups | app/services/log_parser.py:55-57 | On text of digits and commas, parsing fails exactly when no digit is present. Otherwise the result is the decimal value of the digits with every comma deleted. |
| Decimal.ParseCommaIntOfWithThousands | app/services/log_parser.py:55-57 | Parsing any natural number written with thousands separators, such as `24,265,611`, gives the number back. |
| Decimal.ParseCommaInt | app/services/log_parser.py:55-57 | Text without a comma reads exactly as `int()` reads it. |
| Decimal.ParseCommaIntSkipsComma | app/services/log_parser.py:55-57 | A comma anywhere in the text is ignored: the text with it removed parses to the same result. |
| Decimal.PyIntOfIntToString | app/services/cron_service.py:56 | `int()` on text, as it reads a crontab hour, reads back every integer rendered in decimal, as an f-string renders it (app/services/backup_runner.py:31), including negative ones. |
| Calendar.FirstParse | app/services/log_parser.py:44-52 | The ordered date parser fails exactly when every format fails. Otherwise it returns the result of the first format that succeeds, and every earlier format failed. |
| Calendar.ParseDate | app/services/log_parser.py:44-52 | Parsing fails exactly when every format rejects the stripped text. Otherwise the result is the first format, in order, that accepts the stripped text, and every earlier format rejected it. |
| Calendar.ParseDateOfStripped | app/services/log_parser.py:46 | Stripping happens once: already-stripped text parses to the same result as the original. |
| Calendar.ParseDateFallsThrough | app/services/log_parser.py:35-52 | When the three shell formats reject a `YYYY-MM-DD` text, the parser falls through the date-time format and returns that day at midnight. |
| Calendar.ParseIsoDateOfFormat | app/services/log_parser.py:78 | `%Y-%m-%d` parses every valid date's rendering back to midnight of that day. |
| TrackingImport.SplitTrackingLine | app/services/log_parser.py:72-76 | A line is skipped exactly when it strips to nothing or has no colon. Otherwise the split is at the last colon. |
| TrackingImport.ReadEntry | app/services/log_parser.py:77-84 | An entry exists exactly when the stripped date text parses. It starts at 03:00:00 that day, and it succeeded exactly when the stripped result word is `success`. |
| TrackingImport.ParseTrackingLine | app/services/log_parser.py:71-84 | A blank line or a line without a colon gives no entry. An entry starts at 03:00:00 on the day the text before the last colon parses to, and succeeded exactly when the text after that colon strips to `success`. |
| TrackingImport.ParseTrackingLineOfFormat | app/services/log_parser.py:71-84 | A well-formed line gives an entry at 03:00 of its date, with status success exactly for the word `success`. |
| TrackingImport.LineRuns | app/services/log_parser.py:87-148 | A line adds nothing exactly when a nightly row already starts at that time. Its first added row is the nightly row. It adds companions only on a successful Sunday, each a cron success. On such a Sunday a snapshot at 03:30 is added exactly when no snapshot starts at the backup's 03:00 start, and a cleanup at 04:00 exactly when no cleanup starts at 04:00. The snapshot comes second, the cleanup last, and the count is one plus the companions added. |
| TrackingImport.StoredCleanupNotAddedAgain | app/services/log_parser.py:131-147 | With a cleanup already stored at 04:00, a successful Sunday whose nightly row and 03:00 snapshot are missing adds only the nightly row and the 03:30 snapshot. |
| TrackingImport.SundaySuccessAddsThree | app/services/log_parser.py:111-148 | On a successful Sunday with none of the three rows stored, the line adds the nightly row at 03:00, the snapshot at 03:30 and the cleanup at 04:00. |
| TrackingImport.ImportSundaySuccessLine | app/services/log_parser.py:60-152 | Importing a one-line file for a successful Sunday with nothing stored returns 3. |
| TrackingImport.ImportFailedLine | app/services/log_parser.py:60-152 | Importing a one-line `failed` file adds exactly one nightly failure row started at 03:00 by cron. |
| TrackingImport.ImportFromTrackingFile | app/services/log_parser.py:60-152 | The count equals the number of rows appended. Earlier rows are untouched. A missing file gives `(0, store)`. |
| TrackingImport.ImportCovers | app/services/log_parser.py:91-109 | After an import, every accepted line's nightly row is in the store. |
| TrackingImport.ImportWhenCovered | app/services/log_parser.py:91-100 | When every line's nightly row is already stored, the import adds nothing, companions included. |
| TrackingImport.ImportIdempotent | app/services/log_parser.py:91-100 | Re-importing the same file over the store it produced adds nothing and returns 0. |
| TrackingImport.RepeatedLineAddedTwice | app/services/log_parser.py:91-109 | Lookups do not see rows added earlier in the same import, so a repeated line adds its rows twice. |
| TrackingImport.SnapshotProbeMissesStoredSnapshot | app/services/log_parser.py:113-129 | A snapshot already stored at 03:30 does not stop the import from adding a second one. |
| Markers.StartLineRecognised | app/services/log_parser.py:25 | The start pattern captures the date text of a start marker line. |
| Markers.SuccessLineRecognised | app/services/log_parser.py:26 | The success pattern captures the date text of a success marker line. |
| Markers.FailedLineRecognised | app/services/log_parser.py:27 | The FAILED pattern's second group captures the date text after the exit code. |
| Markers.SentLineRecognised | app/services/log_parser.py:30 | The sent pattern captures the comma-grouped sent count, whatever whitespace separates the two halves. |
| Markers.TotalLineRecognised | app/services/log_parser.py:31 | The total-size pattern captures the comma-grouped size before `speedup is`. |
| Markers.Classify | app/services/log_parser.py:25-31 | Each of the five marks is found exactly when its pattern matches somewhere in the line. A mark is found only in a line containing its pattern's leading literal, such as `=== Plex Backup Started: ` or `sent `. |
| StatsScan.Step | app/services/log_parser.py:204-234 | A start line always opens a fresh accumulator. With no accumulator the line is ignored. A line emits at most two entries. A success or FAILED line closes the accumulator. |
| StatsScan.ScanText | app/services/log_parser.py:200-234 | The scan emits at most two entries per line. An extract none of whose lines contains the start marker gives no entries and never raises. |
| StatsScan.RunEmitsAtMostTwoPerLine | app/services/log_parser.py:204-234 | From any state, a scan that completes emits at most two entries per line. |
| StatsScan.ClosedSkips | app/services/log_parser.py:210-211 | Without an open accumulator, lines that carry no start marker produce nothing. |
| StatsScan.CountsKeepLast | app/services/log_parser.py:213-220 | Across lines carrying only counts, the accumulator keeps the last sent count and the last total size. |
| StatsScan.SuccessBlock | app/services/log_parser.py:204-227 | A start line, count lines, then a success line emit one success entry. It holds the parsed start, the last counts and the parsed end. |
| StatsScan.FailureBlock | app/services/log_parser.py:204-234 | The same block closed by a FAILED line emits one failure entry. |
| StatsScan.RestartDiscards | app/services/log_parser.py:205-208 | A start line discards any unfinished accumulator: the rest of the scan is as if none were open. |
| StatsScan.OpenAtEndDropped | app/services/log_parser.py:204-234 | An accumulator still open at the end of the text emits no entry. |
| StatsScan.BadCountRaises | app/services/log_parser.py:213-220 | An unparseable count inside an open accumulator aborts the scan with an error. |
| StatsScan.SuccessThenFailureOnOneLine | app/services/log_parser.py:222-234 | A line matching both the success and FAILED patterns closes the accumulator as a success. It then emits a failure entry with no start. |
| StatsScan.RunAppend | app/services/log_parser.py:204 | Scanning two pieces of text in sequence equals scanning them joined. |
| Enrich.MatchingRow | app/services/log_parser.py:243-254 | The matched row is the first nightly row in the day's window. None means no row lies in the window. |
| Enrich.WindowBounds | app/services/log_parser.py:248-249 | The window runs from 00:00 to 23:59 of the start's day, keeping the start's seconds. |
| Enrich.NightlyRowInWindow | app/services/log_parser.py:244-252 | The 03:00 nightly row of the start's day is always in the window. |
| Enrich.OtherDayOutsideWindow | app/services/log_parser.py:244-252 | A row from another day is never in the window. |
| Enrich.MidnightRowMissed | app/services/log_parser.py:248 | A row at exactly midnight is outside the window when the start's seconds are nonzero. |
| Enrich.Fill | app/services/log_parser.py:256-272 | Each field is written only when the extracted value is nonzero and the row's value is missing or zero. Duration and finished time are written together as end minus start. The row changed exactly when some field was written. |
| Enrich.EnrichOne | app/services/log_parser.py:238-272 | Entries with no start, or with no matching row, change nothing. Otherwise only the matched row is refilled. Enrichment never changes a row's type or start. |
| Enrich.EnrichAll | app/services/log_parser.py:238-276 | The pass only refills rows: every row keeps its type and start, and filled fields stay. The count is at most the number of entries, and a count of 0 leaves the store unchanged. |
| Enrich.EnrichIdempotent | app/services/log_parser.py:256-276 | With nonzero durations, a second pass over the same entries changes nothing and counts 0. |
| Enrich.ZeroDurationRewritten | app/services/log_parser.py:267-270 | An entry whose end equals its start writes a zero duration. That zero counts as unset, so every later pass rewrites it and counts it again. |
| Enrich.EnrichFromStats | app/services/log_parser.py:186-276 | A missing or blank file changes nothing. The pass raises exactly when the scan of a non-blank file fails. Otherwise it only refills rows. |
| Reconcile.TrackingPath | app/services/log_parser.py:285 | A log path without `plex-backup.log` is its own tracking path. |
| Reconcile.TrackingPathInDirectory | app/services/log_parser.py:285 | `plex-backup.log` in any directory whose path does not itself contain that name is tracked by `plex-backup-tracking.log` in the same directory. |
| Reconcile.PlexDirectoryTrackingPath | app/services/log_parser.py:285 | A directory whose path holds other letters of the name, such as `/var/log/plex/`, still gets the tracking file next to the log. |
| Reconcile.EnrichAfter | app/services/log_parser.py:286-292 | A driver returns the import count when enrichment succeeds. On an enrichment error only the import's commit has happened. |
| Reconcile.ParseFullLog | app/services/log_parser.py:279-292 | The startup driver returns exactly when enrichment succeeds, and then reports the import count with a store that only refills the imported rows. On an enrichment error the store is the one the import committed. Either way the store grows by the rows imported. |
| Reconcile.ParseIncremental | app/services/log_parser.py:295-308 | A poll that imports nothing returns 0 and leaves the store. A poll that imports rows enriches only from a successful extraction. |
| Reconcile.DriversReportImportCount | app/services/log_parser.py:279-308 | Both drivers return the import count, and their stores grow by exactly the rows imported. |
| Reconcile.PollAfterStartupIsQuiet | app/services/log_parser.py:279-308 | After the startup import, a poll over the same tracking file returns 0 and never extracts. This holds whether enrichment succeeded or failed. |
| Supervisor.CanTrigger | app/services/backup_runner.py:18-33 | A live process refuses first. Otherwise a trigger is allowed exactly when the elapsed time reaches the cooldown. A refusal names a positive wait that ends the cooldown. |
| Supervisor.CooldownBoundary | app/services/backup_runner.py:28-33 | Elapsed exactly equal to the cooldown is allowed. One second earlier the message reads `1s`. |
| Supervisor.CooldownWaitReadsBack | app/services/backup_runner.py:28-31 | The wait in the message lies between 1 and the cooldown, and reads back with `int()`. |
| Supervisor.Trigger | app/services/backup_runner.py:36-78 | A refusal or a missing script returns a message and changes nothing. An accepted trigger appends one manual row started now. A spawn marks the row running and sets the slot and trigger time. A spawn failure marks the row failed and leaves the slot and trigger time. |
| Supervisor.AcceptedTriggerStoresOne | app/services/backup_runner.py:53-61 | An accepted trigger appends exactly one manual row started now, whatever the spawn does. |
| Supervisor.SecondTriggerRefused | app/services/backup_runner.py:24-25 | Right after a spawned trigger, any second trigger is refused as already running. |
| Supervisor.Reconciled | app/services/backup_runner.py:101-111 | The row ends now, with the output and a duration of now minus start. It succeeded exactly when the exit code is 0, and otherwise names the code. |
| Supervisor.CheckRunning | app/services/backup_runner.py:81-113 | The intended check. Nothing changes unless the process exited. An exit clears the slot even with no running manual row. Otherwise only the latest running manual row is reconciled. |
| Supervisor.ManualRunLifecycle | app/services/backup_runner.py:36-113 | Under the intended check, an accepted, spawned and exited run ends with the slot cleared. The row the trigger stored is the one reconciled, and no other row changes. |
| Supervisor.CheckRunningAsWritten | app/services/backup_runner.py:81-105 | The check as the source runs it never changes the store. An exit clears the slot, and the duration subtraction raises exactly when a running manual row exists. |
| Supervisor.ManualRunStaysRunningAsWritten | app/services/backup_runner.py:36-105 | As written, an accepted, spawned and exited manual run raises on the check and clears the slot. Its row stays `running` with no finish time, and no later check touches it. |
| BackupModel.DurationDisplay | app/models/backup.py:39-42 | The text is `-` exactly when there is no duration. |
| BackupModel.DurationDisplaySeconds | app/models/backup.py:43-45 | Under a minute renders as `{total}s`. |
| BackupModel.DurationDisplayMinutes | app/models/backup.py:46-48 | From a minute up to an hour renders as `{m}m {s}s`, for any m and s with 60m + s = total and s < 60. |
| BackupModel.DurationDisplayHours | app/models/backup.py:49-50 | From an hour renders as `{h}h {m}m {s}s`, for any h, m and s with 3600h + 60m + s = total and m, s < 60. |
| BackupModel.ByteUnit | app/models/backup.py:69-75 | The unit is bytes exactly when the magnitude is under 1024. Otherwise it is the unit whose power the magnitude reaches and, below PB, stays under the next power. |
| BackupModel.ByteUnitIsLeast | app/models/backup.py:71-75 | The unit chosen is the first one whose next power exceeds the magnitude. |
| BackupModel.FormatBytes | app/models/backup.py:67-75 | The text is `{n} B` exactly when the magnitude is under 1024. |
| BackupModel.FormatBytesScaled | app/models/backup.py:71-75 | Above 1023 the text is the magnitude over 1024 to the unit's rank, rounded to tenths within half a tenth, with the unit's name. For PB, printed after the loop ends, the divisor stays 1024⁴. |
| BackupModel.FormatBytesPetaAsWritten | app/models/backup.py:71-75 | As written, one pebibyte renders as `1024.0 PB`. |
| BackupModel.FormatBytesIntended | app/models/backup.py:67-75 | The corrected formatter gives `{n} B` exactly below 1024 in magnitude, and agrees with `_format_bytes` on every value below one pebibyte. |
| BackupModel.FormatBytesIntendedScaled | app/models/backup.py:71-75 | With the correction, every unit including PB shows the magnitude over 1024 to the unit's rank, within half a tenth. That power is at most the magnitude, and below PB the magnitude is under 1024 of it. |
| BackupModel.FormatBytesPetaIntended | app/models/backup.py:75 | With the correction, one pebibyte renders as `1.0 PB`. |
| BackupModel.FormatBytesTieToEven | app/models/backup.py:74 | 1280 bytes renders as `1.2 KB`, so an exact tie rounds to even. |
| BackupModel.SizeDisplay | app/models/backup.py:53-57 | The text is `-` exactly when the size is unknown. Otherwise it is the size as the corrected formatter renders it, which is `_format_bytes` of it below one pebibyte. |
| BackupModel.TransferredDisplay | app/models/backup.py:60-64 | The text is `-` exactly when the transfer is unknown. Otherwise it is the count as the corrected formatter renders it, which is `_format_bytes` of it below one pebibyte. |
| RecordStore.LatestWhere | app/services/backup_runner.py:92-97 | The result is the matching row with the latest start, the first such row among ties. None means no row matches. |
| Cron.ParseCronLine | app/services/cron_service.py:92-109 | A line gives an entry exactly when it is non-blank, is not a comment, has six whitespace-separated fields and a backup command. The fields are assigned in order, and the raw line is the stripped line. |
| Cron.ParseRendered | app/services/cron_service.py:92-109 | Parsing an entry's cron expression followed by its command gives the entry back. |
| Cron.CronExpression | app/services/cron_service.py:66-68 | Five non-empty fields without whitespace split back out of the expression on whitespace. |
| Cron.CronEntries | app/services/cron_service.py:85-111 | Every listed entry is what some line of the crontab parses to. Every line that parses gives a listed entry. There are no more entries than lines. |
| Cron.PresentAppend | app/services/cron_service.py:92-110 | Keeping the entries of two runs of lines gives the first run's entries followed by the second's, so nothing is reordered. |
| Cron.CronEntriesAround | app/services/cron_service.py:92-110 | The entries of a crontab are those of the lines before any line, then that line's entry if it parses to one, then those of the lines after. |
| Cron.DuplicateLineListedTwice | app/services/cron_service.py:92-110 | A crontab of one backup line written twice lists that entry twice. |
| Cron.ListedLineInText | app/services/cron_service.py:85-111 | Every listed entry's raw line is non-empty and occurs in the crontab text. |
| Cron.EditListedEntry | app/services/cron_service.py:85-127 | Editing a listed entry passes the guard. Every occurrence of its line is replaced. The result is the write's success. |
| Cron.Label | app/services/cron_service.py:28-34 | The label of the first table key found in the lower-cased command. Otherwise the text after the last `/`, or the whole command when it has none. |
| Cron.LabelOfPath | app/services/cron_service.py:34 | A command with no table key is labelled with its file name. |
| Cron.LabelOfPlexBackup | app/services/cron_service.py:28-33 | Any command containing `backup-plex`, in any case, is the daily Plex backup. |
| Cron.DayListShown | app/services/cron_service.py:40-46 | A comma-separated day list renders as its day names joined with `, `. |
| Cron.SundayEitherWay | app/services/cron_service.py:41-43 | Both `0` and `7` render as Sundays. |
| Cron.ScheduleDisplay | app/services/cron_service.py:37-64 | Rendering fails exactly when the hour is neither `*` nor an integer. The text starts with the day part, and with no hour it is the day part alone. |
| Cron.TwelveHourClock | app/services/cron_service.py:56-60 | Every hour of the day shows as 1 to 12. It is AM exactly before noon, and the 24-hour clock is recovered from the shown hour and its suffix. |
| Cron.NightlySchedule | app/services/cron_service.py:37-64 | `0 3 * * *` reads `Every day at 3:00 AM`. |
| Cron.WeeklySchedule | app/services/cron_service.py:37-64 | `5 14 * * 0` reads `Sundays at 2:05 PM`. |
| Cron.UpdateCronEntry | app/services/cron_service.py:114-134 | Nothing is written exactly when editing is disabled, the crontab is empty or the old line is absent, and the result is then false. Otherwise the result is the write's success, and the text is split on the old line and rejoined with the new one. |
| Cron.UpdateSingleOccurrence | app/services/cron_service.py:123-127 | When the old line occurs once, only that occurrence is replaced. |
| Cron.UpdateWithSameLine | app/services/cron_service.py:123-127 | Replacing a line by itself writes the crontab back unchanged. |
| Cron.EmptyOldLineInsertsEverywhere | app/services/cron_service.py:119-127 | An empty old line passes the guard on any non-empty crontab, and the crontab written is the replacement. In it, block `k` is the new line followed by the crontab's `k`-th character, and the new line also ends the text. |

## Findings

| source | as written | input that shows it | evidently intended | confidence | as-written member | corrected member |
|---|---|---|---|---|---|---|
| app/services/backup_runner.py:90-105 | The slot is cleared first. Then `finished_at`, timezone-aware, has the stored `started_at` subtracted from it. The column has no timezone (app/models/backup.py:22), so the poller's session reads the start back naive, and the subtraction raises `TypeError`. The poller logs the error and closes the session, so nothing is committed. | Trigger a manual backup that spawns, let its process exit, then run one poll. | The row is reconciled: finish time, output, duration, and a status from the exit code. | high, not executed | Supervisor.CheckRunningAsWritten, Supervisor.ManualRunStaysRunningAsWritten | Supervisor.CheckRunning, Supervisor.ManualRunLifecycle |
| app/models/backup.py:71-75 | The loop divides by 1024 once for each of KB, MB, GB and TB. When the value is still 1024 TB or more, line 75 prints it with the unit PB without a fifth division. | 1125899906842624 bytes, one pebibyte, renders as `1024.0 PB`. | The value in PB: `1.0 PB`. | high, not executed | BackupModel.FormatBytes, BackupModel.FormatBytesPetaAsWritten | BackupModel.FormatBytesIntended, BackupModel.FormatBytesIntendedScaled |

## Left out

- The three shell-`date` formats, such as `%a %b %d %I:%M:%S %p %Z %Y`, depend on locale and timezone. They are parameters: any partial parser can be passed in.
- `extract_stats_file` is a `bash`/`grep` subprocess with a timeout. It is an oracle: the text it wrote, or `None` when it failed. Its line filter is not modelled. That filter keeps a `total size is` line only when a literal space precedes `speedup`, which is narrower than the Python pattern.
- The cache directory creation and the fixed stats path are left out. `parse_full_log`'s stats path is a parameter.
- Python's `\d` accepts every Unicode decimal digit. The model accepts ASCII digits only. Whitespace, for `\s` and for `strip`, is the set of characters Python's `str.isspace` accepts.
- Python's `int()` accepts Unicode digits. The model accepts ASCII digits, underscores between digits, a sign and surrounding whitespace.
- Durations are integer seconds, so the `int()` truncation of a float duration is not modelled.
- The float `.1f` formatting of `_format_bytes` is modelled as exact decimal rounding of the true quotient to tenths, ties to even. Binary floating point is left out.
- Supervisor.CanTrigger: time is integer seconds, so the float subtraction and `int()` truncation of the remaining wait are not modelled. With integer time the wait shown is the exact remaining seconds, at least 1.
- Supervisor.Reconciled: the reconciliation the source intends, with both times as instants on one clock. As written the subtraction raises instead; see Findings.
- Subprocess, `Popen.poll`, reading the output pipe, `time.time()` and the wall clock are parameters: the process state, `now` and the spawn outcome. The existence of the script is a set of existing paths.
- `.first()` without an ordering is modelled as the first row in insertion order.
- RecordStore.LatestWhere: among rows with the same latest `started_at`, the model picks the first in insertion order. `ORDER BY started_at DESC LIMIT 1` leaves that tie order to SQLite, so this rule is the model's choice.
- BackupModel.SizeDisplay: at one pebibyte and above it shows the corrected PB value, not the source's value in TB units; see Findings.
- BackupModel.TransferredDisplay: at one pebibyte and above it shows the corrected PB value, not the source's value in TB units; see Findings.
- The enrichment scan keeps the last match of a greedy run and never backtracks into it. For these patterns this gives the same matches as Python's engine.
- Cron.ScheduleDisplay: the `raw_line` fallback is left out, because the list of parts is never empty.
- `Lower` maps ASCII capitals and the Kelvin sign only. Other Unicode case mappings are not modelled.
- `_read_crontab` and the `sudo crontab` write are I/O. The crontab text and the write's success are parameters.
- Concurrency between the poller and request handlers is left out. The source has no lock, and the model is sequential.
- Email delivery, metrics, authentication, security helpers, routers, the CLI, configuration and startup plumbing are outside this model.

=== FILE: backup_model.dfy ===
/** One backup run as the dashboard records it, and the way a run's duration and byte
    counts are shown. */
module BackupModel {
  import opened Wrappers
  import opened Decimal
  import opened Calendar

  /** `backup_type`: daily_mirror | snapshot | cleanup | script_backup | manual. */
  datatype BackupType = DailyMirror | Snapshot | Cleanup | ScriptBackup | Manual

  /** `status`: success | failure | running. */
  datatype Status = Success | Failure | Running

  /** `triggered_by`: cron (the column default) | manual. */
  datatype TriggeredBy = ByCron | ByUser

  /** A row of `backup_runs`. `id` is assigned when the row is stored; the nullable columns
      are options; durations are whole seconds. */
  datatype BackupRun = BackupRun(
    id: nat,
    backupType: BackupType,
    status: Status,
    startedAt: Instant,
    finishedAt: Option<Instant>,
    durationSeconds: Option<int>,
    totalSizeBytes: Option<int>,
    transferredBytes: Option<int>,
    filesTransferred: Option<int>,
    errorMessage: Option<string>,
    rawLog: Option<string>,
    triggeredBy: TriggeredBy,
    emailSent: bool)

  /** A new row with the column defaults (`triggered_by` and `email_sent` as given by the
      caller or the defaults) and every nullable column empty. */
  function NewRun(backupType: BackupType, status: Status, startedAt: Instant, triggeredBy: TriggeredBy): (r: BackupRun)
    ensures r.backupType == backupType && r.status == status && r.startedAt == startedAt
    ensures r.triggeredBy == triggeredBy && !r.emailSent
    ensures r.finishedAt.None? && r.durationSeconds.None? && r.errorMessage.None? && r.rawLog.None?
    ensures r.totalSizeBytes.None? && r.transferredBytes.None? && r.filesTransferred.None?
  {
    BackupRun(0, backupType, status, startedAt, None, None, None, None, None, None, None, triggeredBy, false)
  }

  // ---------------------------------------------------------------------------------
  // `duration_display`
  // ---------------------------------------------------------------------------------

  /** `duration_display`: "-" without a duration; otherwise seconds, minutes and seconds,
      or hours, minutes and seconds, whichever is the first to fit. */
  function DurationDisplay(duration: Option<int>): (r: string)
    ensures r == "-" <==> duration.None?
  {
    match duration
    case None => "-"
    case Some(total) =>
      if total < 60 then IntToString(total) + "s"
      else
        var minutes, seconds := total / 60, total % 60;
        if minutes < 60 then NatToString(minutes) + "m " + NatToString(seconds) + "s"
        else NatToString(minutes / 60) + "h " + NatToString(minutes % 60) + "m " + NatToString(seconds) + "s"
  }

  /** Under a minute the total is shown as it is. */
  lemma DurationDisplaySeconds(total: int)
    requires total < 60
    ensures DurationDisplay(Some(total)) == IntToString(total) + "s"
  {
  }

  /** From one minute to under an hour: any `m`, `s` with `m * 60 + s == total` and
      `0 <= s < 60` are the ones shown. */
  lemma DurationDisplayMinutes(total: int, m: nat, s: nat)
    requires 60 <= total < 3600
    requires total == m * 60 + s && s < 60
    ensures DurationDisplay(Some(total)) == NatToString(m) + "m " + NatToString(s) + "s"
  {
    DivModUnique(total, 60, m, s);
  }

  /** From one hour on: any `h`, `m`, `s` with `h * 3600 + m * 60 + s == total` and
      `0 <= m, s < 60` are the ones shown. */
  lemma DurationDisplayHours(total: int, h: nat, m: nat, s: nat)
    requires total >= 3600
    requires total == h * 3600 + m * 60 + s && m < 60 && s < 60
    ensures DurationDisplay(Some(total)) == NatToString(h) + "h " + NatToString(m) + "m " + NatToString(s) + "s"
  {
    var minutes := h * 60 + m;
    assert minutes * 60 == h * 3600 + m * 60;
    DivModUnique(total, 60, minutes, s);
    DivModUnique(minutes, 60, h, m);
    DurationDisplayHourParts(total);
  }

  /** From one hour on the display is built from the quotients and remainders by 60. */
  lemma DurationDisplayHourParts(total: int)
    requires total >= 3600
    ensures total / 60 >= 60
    ensures DurationDisplay(Some(total))
         == NatToString(total / 60 / 60) + "h " + NatToString(total / 60 % 60) + "m " + NatToString(total % 60) + "s"
  {
  }

  // ---------------------------------------------------------------------------------
  // `_format_bytes`, `size_display`, `transferred_display`
  // ---------------------------------------------------------------------------------

  function Abs(n: int): nat {
    if n < 0 then -n else n
  }

  function Pow1024(k: nat): (p: nat)
    ensures p >= 1
  {
    if k == 0 then 1 else 1024 * Pow1024(k - 1)
  }

  /** The unit names, indexed by rank: B, then one rank per power of 1024. */
  function UnitName(k: nat): string
    requires k <= 5
  {
    ["B", "KB", "MB", "GB", "TB", "PB"][k]
  }

  /** The source's loop over KB, MB, GB, TB from unit `k` on: stop at the first unit under
      which the magnitude is below 1024, and fall back to PB. */
  function UnitFrom(a: nat, k: nat): (u: nat)
    requires 1 <= k <= 5 && a >= Pow1024(k)
    decreases 5 - k
    ensures k <= u <= 5 && a >= Pow1024(u)
    ensures u < 5 ==> a < Pow1024(u + 1)
  {
    if k == 5 || a < Pow1024(k + 1) then k else UnitFrom(a, k + 1)
  }

  /** The unit `_format_bytes` picks: 0 (bytes) iff `|n| < 1024`, otherwise the least `k`
      from 1 to 4 with `|n| / 1024^k < 1024`, and 5 (PB) when there is none. */
  function ByteUnit(n: int): (k: nat)
    ensures k <= 5
    ensures k == 0 <==> Abs(n) < 1024
    ensures k >= 1 ==> Abs(n) >= Pow1024(k)
    ensures k < 5 ==> Abs(n) < Pow1024(k + 1)
  {
    if Abs(n) < 1024 then 0 else UnitFrom(Abs(n), 1)
  }

  /** The unit is the least one the value fits under: no smaller unit keeps the magnitude
      below 1024 of it. */
  lemma ByteUnitIsLeast(n: int, j: nat)
    requires j < 5 && Abs(n) < Pow1024(j + 1)
    ensures ByteUnit(n) <= j
  {
    var k := ByteUnit(n);
    if k > j {
      PowMonotone(j + 1, k);
    }
  }

  lemma {:induction false} PowMonotone(i: nat, k: nat)
    requires i <= k
    decreases k - i
    ensures Pow1024(i) <= Pow1024(k)
  {
    if i < k {
      PowMonotone(i, k - 1);
    }
  }

  /** `x / d` rounded to the nearest integer, ties to even: how `.1f` rounds the exactly
      represented quotient. */
  function RoundHalfEven(x: nat, d: int): (q: nat)
    requires d > 0
    ensures -d <= 2 * (x - q * d) <= d
    ensures 2 * (x - q * d) == d ==> q % 2 == 0
    ensures 2 * (q * d - x) == d ==> q % 2 == 0
  {
    var q, rem := x / d, x % d;
    assert x - q * d == rem;
    assert x - (q + 1) * d == rem - d by {
      assert (q + 1) * d == q * d + d;
    }
    if 2 * rem < d then q
    else if 2 * rem > d then q + 1
    else if q % 2 == 0 then q
    else q + 1
  }

  /** `f"{v:.1f}"` for a non-negative value given in tenths. */
  function Tenths(t: nat): (r: string)
    ensures |r| >= 3 && r[|r| - 2] == '.'
  {
    NatToString(t / 10) + "." + [DigitChar(t % 10)]
  }

  /** How many times the source's loop divides by 1024 before printing a unit of rank
      `k`: once per rank up to TB, and PB, printed after the loop ends, gets no fifth
      division. */
  function Divisions(k: nat): (d: nat)
    requires 1 <= k <= 5
    ensures d == (if k == 5 then 4 else k)
  {
    if k == 5 then 4 else k
  }

  /** The signed magnitude divided by `1024^d`, to one decimal, then the name of unit `k`. */
  function Scaled(n: int, k: nat, d: nat): (r: string)
    requires 1 <= k <= 5
    ensures |r| >= 3 && r[|r| - 1] == 'B' && r[|r| - 2] != ' '
  {
    var r := (if n < 0 then "-" else "") + Tenths(RoundHalfEven(10 * Abs(n), Pow1024(d))) + " " + UnitName(k);
    assert r[|r| - 1] == 'B' && r[|r| - 2] != ' ' by {
      assert UnitName(k)[1] == 'B';
    }
    r
  }

  /** `_format_bytes(n)` as written: the count itself with "B" below 1024 in magnitude,
      otherwise the quotient by 1024 per loop step to one decimal with the unit's name; PB
      shows the quotient the loop left, by `1024^4`. */
  function FormatBytes(n: int): (r: string)
    ensures |r| >= 3
    ensures Abs(n) < 1024 <==> r == IntToString(n) + " B"
  {
    var k := ByteUnit(n);
    if k == 0 then IntToString(n) + " B" else Scaled(n, k, Divisions(k))
  }

  /** Above the byte range the text is the signed quotient in tenths, within half a tenth
      of the magnitude over `1024^d`, then the unit's name; `d` is the rank up to TB and
      stays 4 for PB. */
  lemma FormatBytesScaled(n: int)
    requires Abs(n) >= 1024
    ensures var k := ByteUnit(n);
            var d := if k == 5 then 4 else k;
            var t := RoundHalfEven(10 * Abs(n), Pow1024(d));
            && 1 <= k <= 5
            && -(Pow1024(d) as int) <= 2 * (10 * Abs(n) - t * Pow1024(d)) <= Pow1024(d)
            && FormatBytes(n) == (if n < 0 then "-" else "") + Tenths(t) + " " + UnitName(k)
  {
  }

  /** The powers of 1024 up to the fifth. */
  lemma PowValues()
    ensures Pow1024(1) == 1024 && Pow1024(2) == 1048576 && Pow1024(3) == 1073741824
    ensures Pow1024(4) == 1099511627776 && Pow1024(5) == 1125899906842624
  {
    assert Pow1024(1) == 1024 * Pow1024(0);
    assert Pow1024(2) == 1024 * Pow1024(1);
    assert Pow1024(3) == 1024 * Pow1024(2);
    assert Pow1024(4) == 1024 * Pow1024(3);
    assert Pow1024(5) == 1024 * Pow1024(4);
  }

  /** From one pebibyte on, the unit is PB. */
  lemma ByteUnitPeta(n: int)
    requires Abs(n) >= Pow1024(5)
    ensures ByteUnit(n) == 5
  {
    var k := ByteUnit(n);
    if k < 5 {
      PowMonotone(k + 1, 5);
    }
  }

  /** A non-negative value has no sign. */
  lemma ScaledOfNonNegative(n: int, k: nat, d: nat)
    requires n >= 0 && 1 <= k <= 5
    ensures Scaled(n, k, d) == Tenths(RoundHalfEven(10 * n, Pow1024(d))) + " " + UnitName(k)
  {
    assert Abs(n) == n;
    assert (if n < 0 then "-" else "") == [];
  }

  /** One pebibyte in tenths of `1024^4`. */
  lemma PetaInTenthsOfTera(n: int)
    requires n == Pow1024(5)
    ensures RoundHalfEven(10 * n, Pow1024(4)) == 10240
  {
    PowValues();
    assert RoundHalfEven(11258999068426240, 1099511627776) == 10240;
  }

  /** 10240 tenths print as `1024.0`. */
  lemma TenthsOfThousand24()
    ensures Tenths(10240) == "1024.0"
  {
    assert NatToString(1024) == "1024" by {
      assert NatToString(102) == "102" by {
        assert NatToString(10) == "10";
      }
    }
  }

  /** As written, from one pebibyte on the text is the value in tenths of `1024^4`. */
  lemma FormatBytesOfPeta(n: int)
    requires n >= Pow1024(5)
    ensures FormatBytes(n) == Tenths(RoundHalfEven(10 * n, Pow1024(4))) + " " + "PB"
  {
    ByteUnitPeta(n);
    assert FormatBytes(n) == Scaled(n, 5, 4);
    ScaledOfNonNegative(n, 5, 4);
    assert UnitName(5) == "PB";
  }

  /** `1024.0` joined to the unit PB. */
  lemma PetaText(number: string)
    requires number == "1024.0"
    ensures number + " " + "PB" == "1024.0 PB"
  {
  }

  /** As written, one pebibyte is shown as 1024 of the unit PB. */
  lemma FormatBytesPetaAsWritten(n: int)
    requires n == Pow1024(5)
    ensures FormatBytes(n) == "1024.0 PB"
  {
    FormatBytesOfPeta(n);
    PetaInTenthsOfTera(n);
    TenthsOfThousand24();
    PetaText(Tenths(RoundHalfEven(10 * n, Pow1024(4))));
  }

  /** The size text the loop evidently means: the quotient by `1024^k` for every unit,
      PB included. It is `_format_bytes` itself below one pebibyte. */
  function FormatBytesIntended(n: int): (r: string)
    ensures Abs(n) < 1024 <==> r == IntToString(n) + " B"
    ensures Abs(n) < Pow1024(5) ==> r == FormatBytes(n)
  {
    var k := ByteUnit(n);
    if k == 0 then IntToString(n) + " B" else Scaled(n, k, k)
  }

  /** With the correction every unit, PB included, shows a value within half a tenth of
      the magnitude over that unit's power of 1024, below 1024 of it unless the unit is PB. */
  lemma FormatBytesIntendedScaled(n: int)
    requires Abs(n) >= 1024
    ensures var k := ByteUnit(n);
            var t := RoundHalfEven(10 * Abs(n), Pow1024(k));
            && 1 <= k <= 5
            && -(Pow1024(k) as int) <= 2 * (10 * Abs(n) - t * Pow1024(k)) <= Pow1024(k)
            && Pow1024(k) <= Abs(n) && (k < 5 ==> Abs(n) < 1024 * Pow1024(k))
            && FormatBytesIntended(n) == (if n < 0 then "-" else "") + Tenths(t) + " " + UnitName(k)
  {
  }

  /** With the correction, from one pebibyte on the text is the value in tenths of
      `1024^5`. */
  lemma FormatBytesIntendedOfPeta(n: int)
    requires n >= Pow1024(5)
    ensures FormatBytesIntended(n) == Tenths(RoundHalfEven(10 * n, Pow1024(5))) + " " + "PB"
  {
    ByteUnitPeta(n);
    assert FormatBytesIntended(n) == Scaled(n, 5, 5);
    ScaledOfNonNegative(n, 5, 5);
    assert UnitName(5) == "PB";
  }

  /** One pebibyte in tenths of itself. */
  lemma PetaInTenthsOfPeta(n: int)
    requires n == Pow1024(5)
    ensures Tenths(RoundHalfEven(10 * n, Pow1024(5))) == "1.0"
  {
    PowValues();
    assert RoundHalfEven(11258999068426240, 1125899906842624) == 10;
    assert NatToString(1) == "1";
  }

  /** With the correction, one pebibyte is shown as 1.0 PB. */
  lemma FormatBytesPetaIntended(n: int)
    requires n == Pow1024(5)
    ensures FormatBytesIntended(n) == "1.0 PB"
  {
    FormatBytesIntendedOfPeta(n);
    PetaInTenthsOfPeta(n);
    OneText(Tenths(RoundHalfEven(10 * n, Pow1024(5))));
  }

  /** `1.0` joined to the unit PB. */
  lemma OneText(number: string)
    requires number == "1.0"
    ensures number + " " + "PB" == "1.0 PB"
  {
  }

  /** Two values below 1024 in magnitude, as Python prints them. */
  lemma FormatBytesBelowKilo()
    ensures FormatBytes(1023) == "1023 B"
    ensures FormatBytes(-5) == "-5 B"
  {
    assert NatToString(1023) == "1023" by {
      assert NatToString(102) == "102" by {
        assert NatToString(10) == "10";
      }
    }
  }

  /** A non-negative count in the kilobyte range is shown in tenths of KB. */
  lemma FormatBytesKilo(n: int)
    requires 1024 <= n < 1024 * 1024
    ensures FormatBytes(n) == Tenths(RoundHalfEven(10 * n, 1024)) + " KB"
  {
    assert Pow1024(2) == 1024 * 1024;
    assert ByteUnit(n) == 1;
  }

  /** From one to under two units: the digit 1, the point, and the tenth. */
  lemma TenthsOneDigit(t: nat)
    requires 10 <= t < 20
    ensures Tenths(t) == ['1', '.', DigitChar(t % 10)]
  {
    assert NatToString(1) == "1";
  }

  /** A tenths text from one to under two, followed by the unit KB. */
  lemma KiloText(number: string, t: nat)
    requires 10 <= t < 20 && number == ['1', '.', DigitChar(t % 10)]
    ensures number + " KB" == ['1', '.', DigitChar(t % 10), ' ', 'K', 'B']
  {
  }

  /** 1536 bytes are 1.5 KB. */
  lemma FormatBytesOneAndAHalfKilo(n: int)
    requires n == 1536
    ensures FormatBytes(n) == "1.5 KB"
  {
    FormatBytesKilo(n);
    assert RoundHalfEven(10 * n, 1024) == 15;
    TenthsOneDigit(15);
    KiloText(Tenths(15), 15);
  }

  /** 1280 bytes are exactly 1.25 KB, and the tie goes to the even tenth: 1.2 KB. */
  lemma FormatBytesTieToEven(n: int)
    requires n == 1280
    ensures FormatBytes(n) == "1.2 KB"
  {
    FormatBytesKilo(n);
    assert RoundHalfEven(10 * n, 1024) == 12;
    TenthsOneDigit(12);
    KiloText(Tenths(12), 12);
  }

  /** `size_display`: "-" without a total size, otherwise the formatted size, which is
      `_format_bytes` of it below one pebibyte. */
  function SizeDisplay(run: BackupRun): (r: string)
    ensures r == "-" <==> run.totalSizeBytes.None?
    ensures run.totalSizeBytes.Some? ==> r == FormatBytesIntended(run.totalSizeBytes.value)
    ensures run.totalSizeBytes.Some? && Abs(run.totalSizeBytes.value) < Pow1024(5) ==>
              r == FormatBytes(run.totalSizeBytes.value)
  {
    match run.totalSizeBytes
    case None => "-"
    case Some(n) => FormatBytesIntended(n)
  }

  /** `transferred_display`: "-" without a transferred count, otherwise the formatted
      count, which is `_format_bytes` of it below one pebibyte. */
  function TransferredDisplay(run: BackupRun): (r: string)
    ensures r == "-" <==> run.transferredBytes.None?
    ensures run.transferredBytes.Some? ==> r == FormatBytesIntended(run.transferredBytes.value)
    ensures run.transferredBytes.Some? && Abs(run.transferredBytes.value) < Pow1024(5) ==>
              r == FormatBytes(run.transferredBytes.value)
  {
    match run.transferredBytes
    case None => "-"
    case Some(n) => FormatBytesIntended(n)
  }
}

=== FILE: calendar.dfy ===
/** Naive timestamps and the date parsing of the log parser.

    An `Instant` counts whole seconds from 0001-01-01 00:00:00 in the proleptic Gregorian
    calendar, the range of Python's `datetime`. Day number 0 (0001-01-01) was a Monday, so a
    day number modulo 7 is Python's `weekday()` (Monday = 0, Sunday = 6). */
module Calendar {
  import opened Wrappers
  import opened Text
  import opened Decimal

  type Instant = int

  const SecondsPerDay: int := 86400

  /** `datetime.weekday()` value of Sunday. */
  const Sunday: int := 6

  predicate IsLeap(y: int) {
    y % 4 == 0 && (y % 100 != 0 || y % 400 == 0)
  }

  function DaysInMonth(y: int, m: int): (n: int)
    requires 1 <= m <= 12
    ensures 28 <= n <= 31
  {
    if m == 2 then (if IsLeap(y) then 29 else 28)
    else if m == 4 || m == 6 || m == 9 || m == 11 then 30
    else 31
  }

  /** The dates `datetime` accepts: years 1 to 9999. */
  predicate ValidDate(y: int, m: int, d: int) {
    1 <= y <= 9999 && 1 <= m <= 12 && 1 <= d <= DaysInMonth(y, m)
  }

  function DaysBeforeYear(y: int): int
    requires y >= 1
  {
    var p := y - 1;
    p * 365 + p / 4 - p / 100 + p / 400
  }

  function DaysBeforeMonth(y: int, m: int): int
    requires 1 <= m <= 12
  {
    var table := [0, 31, 59, 90, 120, 151, 181, 212, 243, 273, 304, 334];
    table[m - 1] + (if m > 2 && IsLeap(y) then 1 else 0)
  }

  /** Days from 0001-01-01 to the given date (`date.toordinal() - 1`). */
  function DayNumber(y: int, m: int, d: int): int
    requires ValidDate(y, m, d)
  {
    DaysBeforeYear(y) + DaysBeforeMonth(y, m) + d - 1
  }

  /** The instant at 00:00:00 of a date. */
  function Midnight(y: int, m: int, d: int): Instant
    requires ValidDate(y, m, d)
  {
    DayNumber(y, m, d) * SecondsPerDay
  }

  function DayOf(t: Instant): int {
    t / SecondsPerDay
  }

  function Hour(t: Instant): int {
    t % SecondsPerDay / 3600
  }

  function Minute(t: Instant): int {
    t % 3600 / 60
  }

  function Second(t: Instant): int {
    t % 60
  }

  /** `datetime.weekday()`. */
  function Weekday(t: Instant): int {
    DayOf(t) % 7
  }

  /** The instant on day `day` at `h:m:s`. */
  function At(day: int, h: int, m: int, s: int): (t: Instant)
    requires 0 <= h < 24 && 0 <= m < 60 && 0 <= s < 60
    ensures DayOf(t) == day && Hour(t) == h && Minute(t) == m && Second(t) == s
  {
    var x := h * 3600 + m * 60 + s;
    var t := day * SecondsPerDay + x;
    DivModUnique(t, SecondsPerDay, day, x);
    DivModUnique(x, 3600, h, m * 60 + s);
    DivModUnique(t, 3600, day * 24 + h, m * 60 + s);
    DivModUnique(m * 60 + s, 60, m, s);
    DivModUnique(t, 60, day * 1440 + h * 60 + m, s);
    t
  }

  /** The components of an instant put back together give the instant. */
  lemma Decompose(t: Instant)
    ensures 0 <= Hour(t) < 24 && 0 <= Minute(t) < 60 && 0 <= Second(t) < 60
    ensures t == At(DayOf(t), Hour(t), Minute(t), Second(t))
  {
    var d, x := t / SecondsPerDay, t % SecondsPerDay;
    var h, y := x / 3600, x % 3600;
    var m, s := y / 60, y % 60;
    assert t == d * SecondsPerDay + x;
    assert x == h * 3600 + y;
    assert y == m * 60 + s;
    DivModUnique(t, 3600, d * 24 + h, y);
    DivModUnique(t, 60, d * 1440 + h * 60 + m, s);
  }

  /** `t.replace(hour=h, minute=m, second=s)`, each part optional: the date and every part
      not named stay as they are. */
  function Replace(t: Instant, hour: Option<int>, minute: Option<int>, second: Option<int>): (r: Instant)
    requires hour.Some? ==> 0 <= hour.value < 24
    requires minute.Some? ==> 0 <= minute.value < 60
    requires second.Some? ==> 0 <= second.value < 60
    ensures DayOf(r) == DayOf(t)
    ensures Hour(r) == hour.GetOr(Hour(t))
    ensures Minute(r) == minute.GetOr(Minute(t))
    ensures Second(r) == second.GetOr(Second(t))
  {
    Decompose(t);
    At(DayOf(t), hour.GetOr(Hour(t)), minute.GetOr(Minute(t)), second.GetOr(Second(t)))
  }

  /** Midnight of a date lies on that date's day, at 00:00:00. */
  lemma MidnightIsStartOfDay(y: int, m: int, d: int)
    requires ValidDate(y, m, d)
    ensures DayOf(Midnight(y, m, d)) == DayNumber(y, m, d)
    ensures Midnight(y, m, d) == At(DayNumber(y, m, d), 0, 0, 0)
  {
    DivModUnique(Midnight(y, m, d), SecondsPerDay, DayNumber(y, m, d), 0);
  }

  /** Replacing the hour (and perhaps the minute) of a known instant. */
  lemma ReplaceOfAt(day: int, h: int, m: int, s: int, h2: int, m2: Option<int>)
    requires 0 <= h < 24 && 0 <= m < 60 && 0 <= s < 60 && 0 <= h2 < 24
    requires m2.Some? ==> 0 <= m2.value < 60
    ensures Replace(At(day, h, m, s), Some(h2), m2, None) == At(day, h2, m2.GetOr(m), s)
  {
    Decompose(Replace(At(day, h, m, s), Some(h2), m2, None));
  }

  /** The Unix epoch, 1970-01-01 00:00:00, as an instant; `time.time()` is `now - UnixEpoch`. */
  const UnixEpoch: Instant := 719162 * SecondsPerDay

  lemma UnixEpochIsNewYear1970()
    ensures UnixEpoch == Midnight(1970, 1, 1)
    ensures Weekday(UnixEpoch) == 3
  {
  }

  /** The calendar facts the tracking-file rule depends on: 2024-06-02 was a Sunday and
      2024-06-03 a Monday. */
  lemma JuneSecondAndThird2024()
    ensures Weekday(Midnight(2024, 6, 2)) == Sunday
    ensures Weekday(Midnight(2024, 6, 3)) == 0
  {
    assert DaysBeforeYear(2024) == 738885;
    assert DaysBeforeMonth(2024, 6) == 152;
    assert Midnight(2024, 6, 2) == 739038 * SecondsPerDay;
    assert Midnight(2024, 6, 3) == 739039 * SecondsPerDay;
  }

  // ---------------------------------------------------------------------------------
  // `datetime.strptime` for the two numeric formats. CPython compiles a format into a
  // regular expression whose fields are
  //   %Y  \d\d\d\d          %m  1[0-2]|0[1-9]|[1-9]
  //   %d  3[01]|[12]\d|0[1-9]|[1-9]| [1-9]
  //   %H  2[0-3]|[0-1]\d|\d  %M  [0-5]\d|\d    %S  6[0-1]|[0-5]\d|\d
  // with each space of the format turned into `\s+`; the match must use the whole string,
  // and the fields must then form a valid `datetime`. Every field is followed by a fixed
  // separator or by the end of the string, where the two-character alternatives are tried
  // first, so a string parses exactly when it splits into tokens of these shapes.
  // ---------------------------------------------------------------------------------

  predicate IsNonZeroDigit(c: char) {
    '1' <= c <= '9'
  }

  predicate IsMonthToken(s: string) {
    || (|s| == 1 && IsNonZeroDigit(s[0]))
    || (|s| == 2 && s[0] == '1' && '0' <= s[1] <= '2')
    || (|s| == 2 && s[0] == '0' && IsNonZeroDigit(s[1]))
  }

  predicate IsDayToken(s: string) {
    || (|s| == 1 && IsNonZeroDigit(s[0]))
    || (|s| == 2 && s[0] == '3' && (s[1] == '0' || s[1] == '1'))
    || (|s| == 2 && (s[0] == '1' || s[0] == '2') && IsDigit(s[1]))
    || (|s| == 2 && s[0] == '0' && IsNonZeroDigit(s[1]))
    || (|s| == 2 && s[0] == ' ' && IsNonZeroDigit(s[1]))
  }

  predicate IsHourToken(s: string) {
    || (|s| == 1 && IsDigit(s[0]))
    || (|s| == 2 && s[0] == '2' && '0' <= s[1] <= '3')
    || (|s| == 2 && (s[0] == '0' || s[0] == '1') && IsDigit(s[1]))
  }

  predicate IsMinuteToken(s: string) {
    || (|s| == 1 && IsDigit(s[0]))
    || (|s| == 2 && '0' <= s[0] <= '5' && IsDigit(s[1]))
  }

  predicate IsSecondToken(s: string) {
    || IsMinuteToken(s)
    || (|s| == 2 && s[0] == '6' && (s[1] == '0' || s[1] == '1'))
  }

  /** The value of a one- or two-character numeric token (a leading space reads as 0). */
  function TokenValue(s: string): (v: nat)
    requires 1 <= |s| <= 2 && IsDigit(s[|s| - 1]) && (|s| == 2 ==> IsDigit(s[0]) || s[0] == ' ')
    ensures v < 100
  {
    if |s| == 1 || s[0] == ' ' then DigitValue(s[|s| - 1])
    else DigitValue(s[0]) * 10 + DigitValue(s[1])
  }

  /** The date part `%Y-%m-%d`: (year, month, day) when the whole string has that shape. */
  function ParseYmd(s: string): (r: Option<(int, int, int)>)
  {
    if |s| < 8 || !AllDigits(s[..4]) || s[4] != '-' then None
    else
      var rest := s[5..];
      match Find(rest, "-")
      case None => None
      case Some(i) =>
        var mt, dt := rest[..i], rest[i + 1..];
        if IsMonthToken(mt) && IsDayToken(dt) then
          Some((DigitsValue(s[..4]), TokenValue(mt), TokenValue(dt)))
        else None
  }

  /** `datetime.strptime(s, "%Y-%m-%d")`: midnight of the date, or `None` where Python
      raises `ValueError` (wrong shape, or no such date). */
  function ParseIsoDate(s: string): (r: Option<Instant>)
    ensures r.Some? ==> r.value % SecondsPerDay == 0
  {
    match ParseYmd(s)
    case None => None
    case Some((y, m, d)) => if ValidDate(y, m, d) then Some(Midnight(y, m, d)) else None
  }

  /** Splits the text after the second `-` into the day token and the clock text after
      the `\s+` that must follow it; `None` when there is no whitespace there. */
  function SplitDayField(tail: string): (r: Option<(string, string)>)
  {
    var lead := if |tail| > 0 && tail[0] == ' ' then 1 else 0;
    var k := lead + WordEnd(tail[lead..]);
    var after := tail[k..];
    var clock := TrimStart(after);
    if |clock| == |after| then None else Some((tail[..k], clock))
  }

  /** `%H:%M:%S` on the whole string: (hour, minute, second). */
  function ParseClock(clock: string): (r: Option<(nat, nat, nat)>)
    ensures r.Some? ==> r.value.0 < 24 && r.value.1 < 60 && r.value.2 < 62
  {
    var parts := Split(clock, ":");
    if |parts| == 3 && IsHourToken(parts[0]) && IsMinuteToken(parts[1]) && IsSecondToken(parts[2]) then
      Some((TokenValue(parts[0]), TokenValue(parts[1]), TokenValue(parts[2])))
    else None
  }

  /** The `%Y-%m-%d` text and the clock text of `%Y-%m-%d %H:%M:%S`: the date ends with the
      day token after the second `-`, and the `\s+` the format's space stands for must follow. */
  function SplitDateTime(s: string): (r: Option<(string, string)>)
  {
    if |s| < 6 then None
    else
      var rest := s[5..];
      match Find(rest, "-")
      case None => None
      case Some(i) =>
        match SplitDayField(rest[i + 1..])
        case None => None
        case Some((dt, clock)) => Some((s[..i + 6] + dt, clock))
  }

  /** `datetime.strptime(s, "%Y-%m-%d %H:%M:%S")`; a second of 60 or 61 passes the pattern
      but not `datetime`. */
  function ParseIsoDateTime(s: string): (r: Option<Instant>)
    ensures r.Some? ==> exists date, clock :: SplitDateTime(s) == Some((date, clock))
                                              && ParseIsoDate(date).Some?
  {
    match SplitDateTime(s)
    case None => None
    case Some((date, clock)) =>
      match ParseIsoDate(date)
      case None => None
      case Some(midnight) =>
        match ParseClock(clock)
        case None => None
        case Some((hh, mm, ss)) => if ss < 60 then Some(At(DayOf(midnight), hh, mm, ss)) else None
  }

  /** Zero-padded numerals, as `date` and `strftime` print them. */
  function Pad2(x: nat): (r: string)
    requires x < 100
    ensures |r| == 2 && AllDigits(r)
  {
    [DigitChar(x / 10), DigitChar(x % 10)]
  }

  function Pad4(x: nat): (r: string)
    requires x < 10000
    ensures |r| == 4 && AllDigits(r) && DigitsValue(r) == x
  {
    var r := [DigitChar(x / 1000)] + Pad3(x % 1000);
    DigitsValueAppend3([DigitChar(x / 1000)], Pad3(x % 1000));
    DigitsValueSnoc([], DigitChar(x / 1000));
    assert [] + [DigitChar(x / 1000)] == [DigitChar(x / 1000)];
    r
  }

  /** `YYYY-MM-DD`, the date text the tracking file holds. */
  function FormatIsoDate(y: int, m: int, d: int): (r: string)
    requires ValidDate(y, m, d)
    ensures |r| == 10
  {
    Pad4(y) + "-" + Pad2(m) + "-" + Pad2(d)
  }

  lemma Pad2Token(x: nat)
    requires x < 100
    ensures TokenValue(Pad2(x)) == x
  {
  }

  /** Round trip: `strptime(FormatIsoDate(y, m, d), "%Y-%m-%d")` is midnight of that date. */
  lemma ParseIsoDateOfFormat(y: int, m: int, d: int)
    requires ValidDate(y, m, d)
    ensures ParseIsoDate(FormatIsoDate(y, m, d)) == Some(Midnight(y, m, d))
  {
    var s := FormatIsoDate(y, m, d);
    var rest := s[5..];
    assert s[..4] == Pad4(y);
    assert s[4] == '-';
    assert rest == Pad2(m) + ['-'] + Pad2(d);
    FindSeparator(Pad2(m), '-', Pad2(d));
    assert rest[..2] == Pad2(m) && rest[3..] == Pad2(d);
    Pad2Token(m);
    Pad2Token(d);
    Pad2MonthToken(m);
    Pad2DayToken(d);
    assert ParseYmd(s) == Some((y, m, d));
  }

  lemma Pad2MonthToken(m: nat)
    requires 1 <= m <= 12
    ensures IsMonthToken(Pad2(m))
  {
  }

  lemma Pad2DayToken(d: nat)
    requires 1 <= d <= 31
    ensures IsDayToken(Pad2(d))
  {
  }

  /** `HH:MM:SS`. */
  function FormatClock(h: nat, m: nat, s: nat): string
    requires h < 24 && m < 60 && s < 60
  {
    Pad2(h) + ":" + Pad2(m) + ":" + Pad2(s)
  }

  lemma Pad2NoSpace(x: nat)
    requires x < 100
    ensures NoSpace(Pad2(x))
  {
  }

  /** The clock text `FormatClock` prints reads back as the same time of day. */
  lemma ParseClockOfFormat(h: nat, m: nat, s: nat)
    requires h < 24 && m < 60 && s < 60
    ensures ParseClock(FormatClock(h, m, s)) == Some((h, m, s))
  {
    assert FormatClock(h, m, s) == Pad2(h) + [':'] + (Pad2(m) + [':'] + Pad2(s));
    SplitAtSeparator(Pad2(h), ':', Pad2(m) + [':'] + Pad2(s));
    SplitAtSeparator(Pad2(m), ':', Pad2(s));
    SplitWithoutSeparator(Pad2(s), ':');
    assert Split(FormatClock(h, m, s), ":") == [Pad2(h), Pad2(m), Pad2(s)];
    Pad2ClockTokens(h, m, s);
    Pad2Token(h);
    Pad2Token(m);
    Pad2Token(s);
  }

  lemma Pad2ClockTokens(h: nat, m: nat, s: nat)
    requires h < 24 && m < 60 && s < 60
    ensures IsHourToken(Pad2(h)) && IsMinuteToken(Pad2(m)) && IsSecondToken(Pad2(s))
  {
  }

  /** `YYYY-MM-DD HH:MM:SS`. */
  function FormatIsoDateTime(y: int, mo: int, d: int, h: nat, mi: nat, s: nat): string
    requires ValidDate(y, mo, d) && h < 24 && mi < 60 && s < 60
  {
    FormatIsoDate(y, mo, d) + " " + FormatClock(h, mi, s)
  }

  /** The date text and the text after it, as the `%Y-%m-%d` field ends and `\s+` follows. */
  lemma SplitDateTimeOfFormat(y: int, mo: int, d: int, tail: string)
    requires ValidDate(y, mo, d)
    ensures tail == [] ==> SplitDateTime(FormatIsoDate(y, mo, d) + tail).None?
    ensures |tail| > 1 && tail[0] == ' ' && !IsSpace(tail[1])
            ==> SplitDateTime(FormatIsoDate(y, mo, d) + tail) == Some((FormatIsoDate(y, mo, d), tail[1..]))
  {
    var str := FormatIsoDate(y, mo, d) + tail;
    var rest := str[5..];
    assert rest == Pad2(mo) + ['-'] + (Pad2(d) + tail);
    FindSeparator(Pad2(mo), '-', Pad2(d) + tail);
    var after := rest[3..];
    assert after == Pad2(d) + tail;
    Pad2NoSpace(d);
    if tail == [] || (|tail| > 1 && tail[0] == ' ' && !IsSpace(tail[1])) {
      WordEndOf(Pad2(d), tail);
      assert after[2..] == tail;
      assert after[..2] == Pad2(d);
      assert str[..8] + Pad2(d) == FormatIsoDate(y, mo, d);
    }
  }

  /** Round trip: `strptime(FormatIsoDateTime(...), "%Y-%m-%d %H:%M:%S")` is that instant. */
  lemma ParseIsoDateTimeOfFormat(y: int, mo: int, d: int, h: nat, mi: nat, s: nat)
    requires ValidDate(y, mo, d) && h < 24 && mi < 60 && s < 60
    ensures ParseIsoDateTime(FormatIsoDateTime(y, mo, d, h, mi, s)) == Some(At(DayNumber(y, mo, d), h, mi, s))
  {
    var date, clock := FormatIsoDate(y, mo, d), FormatClock(h, mi, s);
    assert FormatIsoDateTime(y, mo, d, h, mi, s) == date + (" " + clock);
    assert SplitDateTime(date + (" " + clock)) == Some((date, clock)) by {
      SplitDateTimeOfFormat(y, mo, d, " " + clock);
      assert (" " + clock)[1..] == clock;
    }
    ParseIsoDateOfFormat(y, mo, d);
    ParseClockOfFormat(h, mi, s);
    MidnightIsStartOfDay(y, mo, d);
  }

  // ---------------------------------------------------------------------------------
  // `_parse_date`: try each format of `DATE_FORMATS` in order on the stripped text.
  // ---------------------------------------------------------------------------------

  /** A partial parser for one `strptime` format. */
  type Parser = string -> Option<Instant>

  /** The result of the first format, in order, that accepts `s`. */
  function FirstParse(formats: seq<Parser>, s: string): (r: Option<Instant>)
    ensures r.None? <==> forall i :: 0 <= i < |formats| ==> formats[i](s).None?
    ensures r.Some? ==> exists i :: 0 <= i < |formats| && formats[i](s) == r
                                     && forall j :: 0 <= j < i ==> formats[j](s).None?
  {
    if |formats| == 0 then None
    else if formats[0](s).Some? then formats[0](s)
    else
      var r := FirstParse(formats[1..], s);
      assert forall i :: 1 <= i < |formats| ==> formats[1..][i - 1] == formats[i];
      r
  }

  /** A format that rejects the text hands it on to the next. */
  lemma FirstParseSkips(formats: seq<Parser>, s: string)
    requires |formats| > 0 && formats[0](s).None?
    ensures FirstParse(formats, s) == FirstParse(formats[1..], s)
  {
  }

  /** `_parse_date(s)`: strip, then the first format that parses. */
  function ParseDate(formats: seq<Parser>, s: string): (r: Option<Instant>)
    ensures r.None? <==> forall i :: 0 <= i < |formats| ==> formats[i](Strip(s)).None?
    ensures r.Some? ==> exists i :: 0 <= i < |formats| && formats[i](Strip(s)) == r
                                     && forall j :: 0 <= j < i ==> formats[j](Strip(s)).None?
  {
    FirstParse(formats, Strip(s))
  }

  /** Stripping is done once: text already stripped parses as the original does. */
  lemma ParseDateOfStripped(formats: seq<Parser>, s: string)
    ensures ParseDate(formats, Strip(s)) == ParseDate(formats, s)
  {
    if Strip(s) != [] {
      StripOfTrimmed(Strip(s));
    }
  }

  /** `DATE_FORMATS` in its fixed order. The three `date`-command formats
      (`%a %b %d %I:%M:%S %p %Z %Y`, `%a %b %d %H:%M:%S %Z %Y`, `%a %b %d %I:%M:%S %p %Y`)
      depend on the locale's day and month names and on the host's time-zone names, so
      they are supplied by the caller. */
  function DateFormats(dateTz12: Parser, dateTz24: Parser, date12: Parser): seq<Parser> {
    [dateTz12, dateTz24, date12, ParseIsoDateTime, ParseIsoDate]
  }

  /** A text only the ISO date format accepts parses to that date. */
  lemma ParseDateFallsThrough(dateTz12: Parser, dateTz24: Parser, date12: Parser, y: int, m: int, d: int)
    requires ValidDate(y, m, d)
    requires dateTz12(FormatIsoDate(y, m, d)).None? && dateTz24(FormatIsoDate(y, m, d)).None?
    requires date12(FormatIsoDate(y, m, d)).None?
    ensures ParseDate(DateFormats(dateTz12, dateTz24, date12), FormatIsoDate(y, m, d)) == Some(Midnight(y, m, d))
  {
    var s := FormatIsoDate(y, m, d);
    IsoDateNoSpace(y, m, d);
    StripOfNoSpace(s);
    ParseIsoDateOfFormat(y, m, d);
    IsoDateIsNoDateTime(y, m, d);
    OnlyIsoDateParses(dateTz12, dateTz24, date12, s);
  }

  lemma IsoDateNoSpace(y: int, m: int, d: int)
    requires ValidDate(y, m, d)
    ensures NoSpace(FormatIsoDate(y, m, d))
  {
    assert FormatIsoDate(y, m, d) == Pad4(y) + "-" + Pad2(m) + "-" + Pad2(d);
  }

  /** A date without a clock is not a `%Y-%m-%d %H:%M:%S` text. */
  lemma IsoDateIsNoDateTime(y: int, m: int, d: int)
    requires ValidDate(y, m, d)
    ensures ParseIsoDateTime(FormatIsoDate(y, m, d)).None?
  {
    SplitDateTimeOfFormat(y, m, d, []);
    assert FormatIsoDate(y, m, d) + [] == FormatIsoDate(y, m, d);
  }

  /** When the first four formats all fail, the plain ISO date decides. */
  lemma OnlyIsoDateParses(dateTz12: Parser, dateTz24: Parser, date12: Parser, s: string)
    requires dateTz12(s).None? && dateTz24(s).None? && date12(s).None? && ParseIsoDateTime(s).None?
    ensures FirstParse(DateFormats(dateTz12, dateTz24, date12), s) == ParseIsoDate(s)
  {
    var fs := DateFormats(dateTz12, dateTz24, date12);
    FirstParseSkips(fs, s);
    FirstParseSkips(fs[1..], s);
    FirstParseSkips(fs[2..], s);
    FirstParseSkips(fs[3..], s);
    assert fs[4..] == [ParseIsoDate];
  }
}

=== FILE: cron.dfy ===
/** Crontab lines for the backup scripts: parsing the crontab's text into entries, the
    entries' friendly label, their schedule in words and their cron expression, and the
    guarded text replacement that edits one of them. Reading and writing the crontab
    (`sudo crontab`) are left to the caller: the text read is a parameter, and the write
    returns the text to be written. */
module Cron {
  import opened Wrappers
  import opened Text
  import opened Decimal

  /** A crontab line: five schedule fields, the command, and the line itself (stripped). */
  datatype CronEntry = CronEntry(minute: string, hour: string, dom: string, month: string, dow: string,
                                 command: string, rawLine: string)

  // ---------------------------------------------------------------------------------
  // `label`
  // ---------------------------------------------------------------------------------

  /** `SCRIPT_LABELS`, in its dict order: script name fragment, label. */
  const ScriptLabels: seq<(string, string)> := [
    ("backup-plex", "Daily Plex Backup"),
    ("cleanup-plex", "Weekly Snapshot Cleanup"),
    ("backup-scripts", "Monthly Config Backup")
  ]

  /** The index of the first key at or after `from` that occurs in `text`. */
  function FirstKey(text: string, table: seq<(string, string)>, from: nat): (r: Option<nat>)
    decreases |table| - from
    ensures r.Some? ==> from <= r.value < |table| && Contains(text, table[r.value].0)
    ensures r.Some? ==> forall k :: from <= k < r.value ==> !Contains(text, table[k].0)
    ensures r.None? ==> forall k :: from <= k < |table| ==> !Contains(text, table[k].0)
  {
    if from >= |table| then None
    else if Contains(text, table[from].0) then Some(from)
    else FirstKey(text, table, from + 1)
  }

  /** `label`: the label of the first script key found in the lower-cased command;
      otherwise the text after the command's last `/`, or the whole command without one. */
  function Label(e: CronEntry): (r: string)
    ensures FirstKey(Lower(e.command), ScriptLabels, 0).Some? ==>
              r == ScriptLabels[FirstKey(Lower(e.command), ScriptLabels, 0).value].1
    ensures FirstKey(Lower(e.command), ScriptLabels, 0).None? && '/' in e.command ==>
              r == RSplitOnce(e.command, '/').1
    ensures FirstKey(Lower(e.command), ScriptLabels, 0).None? && '/' !in e.command ==> r == e.command
  {
    match FirstKey(Lower(e.command), ScriptLabels, 0)
    case Some(k) => ScriptLabels[k].1
    case None =>
      if '/' in e.command then
        var pieces := Split(e.command, "/");
        var (before, after) := RSplitOnce(e.command, '/');
        SplitLastOf(before, '/', after);
        pieces[|pieces| - 1]
      else e.command
  }

  // ---------------------------------------------------------------------------------
  // `schedule_display`
  // ---------------------------------------------------------------------------------

  /** The `day_names` table; a token it does not know is shown as it is. */
  function DayName(token: string): (r: string)
    ensures token == "0" || token == "7" ==> r == "Sundays"
  {
    if token == "0" || token == "7" then "Sundays"
    else if token == "1" then "Mondays"
    else if token == "2" then "Tuesdays"
    else if token == "3" then "Wednesdays"
    else if token == "4" then "Thursdays"
    else if token == "5" then "Fridays"
    else if token == "6" then "Saturdays"
    else token
  }

  /** Each comma-separated day token, stripped and named. */
  function DayNames(tokens: seq<string>): (r: seq<string>)
    ensures |r| == |tokens| && forall k :: 0 <= k < |tokens| ==> r[k] == DayName(Strip(tokens[k]))
  {
    seq(|tokens|, k requires 0 <= k < |tokens| => DayName(Strip(tokens[k])))
  }

  /** The day part: the named weekdays, else the day of the month, else every day. */
  function DayText(dow: string, dom: string): string {
    if dow != "*" then Join(", ", DayNames(Split(dow, ",")))
    else if dom != "*" then
      if dom == "1" then "1st of each month" else "Day " + dom + " of each month"
    else "Every day"
  }

  /** The hour on a 12-hour clock: 0 is 12, hours after noon lose 12. */
  function DisplayHour(h: int): int {
    var d := if h <= 12 then h else h - 12;
    if d == 0 then 12 else d
  }

  function Meridiem(h: int): string {
    if h < 12 then "AM" else "PM"
  }

  /** `str.zfill(width)`: zeros in front up to `width`, after a leading sign if there is one. */
  function ZFill(s: string, width: nat): (r: string)
    ensures |s| >= width ==> r == s
    ensures |r| == if |s| >= width then |s| else width
  {
    if |s| >= width then s
    else
      var zeros := seq(width - |s|, _ => '0');
      if |s| > 0 && (s[0] == '+' || s[0] == '-') then [s[0]] + zeros + s[1..]
      else zeros + s
  }

  /** The time part for hour `h`: `{12-hour}:{minute, 2 digits} {AM|PM}`. */
  function ClockText(h: int, minute: string): string {
    IntToString(DisplayHour(h)) + ":" + (if minute != "*" then ZFill(minute, 2) else "00") + " " + Meridiem(h)
  }

  /** `schedule_display`: the day part, then ` at ` and the time when the hour is set.
      An hour that `int()` cannot read raises `ValueError`, modelled as `None`. */
  function ScheduleDisplay(e: CronEntry): (r: Option<string>)
    ensures r.None? <==> e.hour != "*" && PyInt(e.hour).None?
    ensures r.Some? ==> StartsWith(r.value, DayText(e.dow, e.dom))
    ensures e.hour == "*" ==> r == Some(DayText(e.dow, e.dom))
  {
    var day := DayText(e.dow, e.dom);
    if e.hour == "*" then Some(Join(" at ", [day]))
    else
      match PyInt(e.hour)
      case None => None
      case Some(h) =>
        var r := Join(" at ", [day, ClockText(h, e.minute)]);
        assert r[..|day|] == day;
        Some(r)
  }

  // ---------------------------------------------------------------------------------
  // `cron_expression` and parsing
  // ---------------------------------------------------------------------------------

  /** `cron_expression`: the five schedule fields, single-spaced. */
  function CronExpression(e: CronEntry): (r: string)
    ensures Field(e.minute) && Field(e.hour) && Field(e.dom) && Field(e.month) && Field(e.dow) ==>
              SplitWs(r, 4) == [e.minute, e.hour, e.dom, e.month, e.dow]
  {
    ExpressionSplits(e.minute, e.hour, e.dom, e.month, e.dow);
    e.minute + " " + e.hour + " " + e.dom + " " + e.month + " " + e.dow
  }

  /** Five fields, single-spaced, split back into the fields. */
  lemma ExpressionSplits(a: string, b: string, c: string, d: string, f: string)
    ensures Field(a) && Field(b) && Field(c) && Field(d) && Field(f) ==>
              SplitWs(a + " " + b + " " + c + " " + d + " " + f, 4) == [a, b, c, d, f]
  {
    if Field(a) && Field(b) && Field(c) && Field(d) && Field(f) {
      ExpressionSpaced(a, b, c, d, f);
      assert AllFields([a, b, c, d]);
      SplitSpaced([a, b, c, d], f);
      assert [a, b, c, d] + [f] == [a, b, c, d, f];
    }
  }

  /** The expression is four fields, each followed by a space, then the fifth. */
  lemma ExpressionSpaced(a: string, b: string, c: string, d: string, f: string)
    ensures a + " " + b + " " + c + " " + d + " " + f == Spaced([a, b, c, d], f)
  {
    assert Spaced([d], f) == d + " " + f by { assert [d][1..] == []; }
    assert Spaced([c, d], f) == c + " " + Spaced([d], f) by { assert [c, d][1..] == [d]; }
    assert Spaced([b, c, d], f) == b + " " + Spaced([c, d], f) by { assert [b, c, d][1..] == [c, d]; }
    assert Spaced([a, b, c, d], f) == a + " " + Spaced([b, c, d], f) by { assert [a, b, c, d][1..] == [b, c, d]; }
  }

  /** The keyword filter: the command mentions a backup, plex or a cleanup, in any case. */
  predicate IsBackupCommand(command: string) {
    var c := Lower(command);
    Contains(c, "backup") || Contains(c, "plex") || Contains(c, "cleanup")
  }

  /** One line of `get_backup_cron_entries`: blank and `#` lines, lines with fewer than six
      fields and commands without a keyword give nothing; otherwise the fields in order,
      the sixth being the rest of the line, and the stripped line. */
  function ParseCronLine(line: string): (r: Option<CronEntry>)
    ensures r.Some? <==>
              && Strip(line) != [] && Strip(line)[0] != '#'
              && |SplitWs(Strip(line), 5)| == 6 && IsBackupCommand(SplitWs(Strip(line), 5)[5])
    ensures r.Some? ==>
              && r.value.rawLine == Strip(line)
              && SplitWs(Strip(line), 5)
                 == [r.value.minute, r.value.hour, r.value.dom, r.value.month, r.value.dow, r.value.command]
  {
    var l := Strip(line);
    if l == [] || l[0] == '#' then None
    else
      var parts := SplitWs(l, 5);
      if |parts| < 6 then None
      else if !IsBackupCommand(parts[5]) then None
      else
        SixParts(parts);
        Some(CronEntry(parts[0], parts[1], parts[2], parts[3], parts[4], parts[5], l))
  }

  /** Six pieces are their own display. */
  lemma SixParts(parts: seq<string>)
    requires |parts| == 6
    ensures parts == [parts[0], parts[1], parts[2], parts[3], parts[4], parts[5]]
  {
  }

  /** The values present, in order. */
  function Present<T>(xs: seq<Option<T>>): (r: seq<T>)
    decreases |xs|
    ensures |r| <= |xs|
    ensures forall k :: 0 <= k < |r| ==> exists i :: 0 <= i < |xs| && xs[i] == Some(r[k])
    ensures forall i :: 0 <= i < |xs| && xs[i].Some? ==> xs[i].value in r
  {
    if |xs| == 0 then []
    else if xs[0].Some? then [xs[0].value] + Present(xs[1..])
    else Present(xs[1..])
  }

  /** `f` applied to every element, in order. */
  function Map<A, B>(f: A -> B, xs: seq<A>): (r: seq<B>)
    ensures |r| == |xs| && forall i :: 0 <= i < |xs| ==> r[i] == f(xs[i])
  {
    seq(|xs|, i requires 0 <= i < |xs| => f(xs[i]))
  }

  /** Mapping commutes with concatenation. */
  lemma MapAppend<A, B>(f: A -> B, a: seq<A>, b: seq<A>)
    ensures Map(f, a + b) == Map(f, a) + Map(f, b)
  {
    var l, r := Map(f, a + b), Map(f, a) + Map(f, b);
    forall i | 0 <= i < |l|
      ensures l[i] == r[i]
    {
      if i < |a| {
        assert (a + b)[i] == a[i];
      } else {
        assert (a + b)[i] == b[i - |a|];
      }
    }
  }

  /** Every line parsed. */
  function ParseCronLines(lines: seq<string>): (r: seq<Option<CronEntry>>)
    ensures |r| == |lines| && forall i :: 0 <= i < |lines| ==> r[i] == ParseCronLine(lines[i])
  {
    Map(ParseCronLine, lines)
  }

  /** `get_backup_cron_entries` over the crontab's text (empty when it could not be read):
      the entries of its lines, in order. */
  function CronEntries(text: string): (r: seq<CronEntry>)
    ensures |r| <= |SplitLines(text)|
    ensures forall k :: 0 <= k < |r| ==>
              exists i :: 0 <= i < |SplitLines(text)| && ParseCronLine(SplitLines(text)[i]) == Some(r[k])
    ensures forall i :: 0 <= i < |SplitLines(text)| && ParseCronLine(SplitLines(text)[i]).Some? ==>
              ParseCronLine(SplitLines(text)[i]).value in r
  {
    if text == [] then [] else Present(ParseCronLines(SplitLines(text)))
  }

  /** Keeping the present values commutes with concatenation: nothing is reordered across
      the cut. */
  lemma {:induction false} PresentAppend<T>(a: seq<Option<T>>, b: seq<Option<T>>)
    decreases |a|
    ensures Present(a + b) == Present(a) + Present(b)
  {
    if |a| == 0 {
      assert a + b == b;
    } else {
      assert (a + b)[0] == a[0];
      assert (a + b)[1..] == a[1..] + b;
      PresentAppend(a[1..], b);
    }
  }

  /** One value is kept exactly when it is present. */
  lemma PresentSingle<T>(x: Option<T>)
    ensures Present([x]) == (if x.Some? then [x.value] else [])
  {
    assert [x][1..] == [];
  }

  /** Lines are parsed one by one, so parsing commutes with concatenation. */
  lemma ParseCronLinesAppend(a: seq<string>, b: seq<string>)
    ensures ParseCronLines(a + b) == ParseCronLines(a) + ParseCronLines(b)
  {
    MapAppend(ParseCronLine, a, b);
  }

  /** The entries of a crontab are those of the lines before a line, then that line's own
      entry if it has one, then those of the lines after: the crontab's order, one entry per
      matching line. */
  lemma CronEntriesAround(text: string, before: seq<string>, line: string, after: seq<string>)
    requires SplitLines(text) == before + [line] + after
    ensures CronEntries(text)
         == Present(ParseCronLines(before))
          + (if ParseCronLine(line).Some? then [ParseCronLine(line).value] else [])
          + Present(ParseCronLines(after))
  {
    assert text != [];
    ParseCronLinesAppend(before + [line], after);
    ParseCronLinesAppend(before, [line]);
    assert ParseCronLines([line]) == [ParseCronLine(line)];
    PresentAppend(ParseCronLines(before) + [ParseCronLine(line)], ParseCronLines(after));
    PresentAppend(ParseCronLines(before), [ParseCronLine(line)]);
    PresentSingle(ParseCronLine(line));
  }

  /** A backup line written twice is listed twice. */
  lemma DuplicateLineListedTwice(text: string, line: string)
    requires SplitLines(text) == [line, line] && ParseCronLine(line).Some?
    ensures CronEntries(text) == [ParseCronLine(line).value, ParseCronLine(line).value]
  {
    assert text != [];
    MapTwice(ParseCronLine, line);
    PresentTwice(ParseCronLine(line));
  }

  /** A repeated element maps to its image repeated. */
  lemma MapTwice<A, B>(f: A -> B, x: A)
    ensures Map(f, [x, x]) == [f(x), f(x)]
  {
  }

  /** A present value repeated is kept twice. */
  lemma PresentTwice<T>(x: Option<T>)
    requires x.Some?
    ensures Present([x, x]) == [x.value, x.value]
  {
    assert [x, x][1..] == [x];
    PresentSingle(x);
  }

  // ---------------------------------------------------------------------------------
  // `update_cron_entry`
  // ---------------------------------------------------------------------------------

  /** `update_cron_entry` up to the write: with editing disabled, an empty crontab, or
      `oldLine` not in it, nothing is written and the answer is false; otherwise the text
      with every `oldLine` replaced is written, and the answer is whether the write
      (`writeSucceeds`) worked. An empty `oldLine` is in every text. */
  function UpdateCronEntry(enabled: bool, current: string, oldLine: string, newLine: string, writeSucceeds: bool)
    : (r: (bool, Option<string>))
    ensures r.1.None? <==> !enabled || current == [] || !Contains(current, oldLine)
    ensures r.1.None? ==> !r.0
    ensures r.1.Some? ==> r.0 == writeSucceeds
    ensures r.1.Some? && |oldLine| > 0 ==> r.1.value == Join(newLine, Split(current, oldLine))
  {
    if !enabled then (false, None)
    else if current == [] || !Contains(current, oldLine) then (false, None)
    else
      if |oldLine| > 0 then
        ReplaceIsSplitJoin(current, oldLine, newLine);
        (writeSucceeds, Some(ReplaceAll(current, oldLine, newLine)))
      else (writeSucceeds, Some(ReplaceAll(current, oldLine, newLine)))
  }

  // ---------------------------------------------------------------------------------
  // Properties
  // ---------------------------------------------------------------------------------

  /** 12-hour display: the shown hour is between 1 and 12, the suffix is AM exactly before
      noon, and the two give the 24-hour clock back. */
  lemma TwelveHourClock(h: int)
    requires 0 <= h < 24
    ensures 1 <= DisplayHour(h) <= 12
    ensures Meridiem(h) == "AM" <==> h < 12
    ensures h == DisplayHour(h) % 12 + (if Meridiem(h) == "PM" then 12 else 0)
  {
  }

  /** Both 0 and 7 are Sunday. */
  lemma SundayEitherWay(dom: string)
    ensures DayText("0", dom) == "Sundays" && DayText("7", dom) == "Sundays"
  {
    SplitWithoutSeparator("0", ',');
    SplitWithoutSeparator("7", ',');
    StripOfNoSpace("0");
    StripOfNoSpace("7");
  }

  /** A day-of-week list is shown token by token, named where the table knows the token,
      joined with `, `. */
  lemma DayListShown(tokens: seq<string>, dom: string)
    requires |tokens| >= 1 && forall k :: 0 <= k < |tokens| ==> ',' !in tokens[k]
    requires Join(",", tokens) != "*"
    ensures DayText(Join(",", tokens), dom) == Join(", ", DayNames(tokens))
  {
    SplitJoin(tokens, ',');
  }

  /** The label of a command that names no known script is its file name. */
  lemma LabelOfPath(dir: string, name: string, e: CronEntry)
    requires '/' !in name && e.command == dir + "/" + name
    requires forall k :: 0 <= k < |ScriptLabels| ==> !Contains(Lower(e.command), ScriptLabels[k].0)
    ensures Label(e) == name
  {
    assert e.command[|dir|] == '/';
    RSplitOnceOf(dir, '/', name);
  }

  /** A command naming `backup-plex`, in any case, is the daily Plex backup, whatever
      else it names. */
  lemma LabelOfPlexBackup(e: CronEntry)
    requires Contains(Lower(e.command), "backup-plex")
    ensures Label(e) == "Daily Plex Backup"
  {
    assert FirstKey(Lower(e.command), ScriptLabels, 0) == Some(0);
  }

  /** A schedule field: non-empty, without whitespace. */
  predicate Field(f: string) {
    |f| > 0 && NoSpace(f)
  }

  /** Words, each followed by one space, then the last piece. */
  function Spaced(words: seq<string>, last: string): string
    decreases |words|
  {
    if |words| == 0 then last else words[0] + " " + Spaced(words[1..], last)
  }

  /** One field more in front: one split more peels it off. */
  lemma SplitSpacedStep(words: seq<string>, last: string)
    requires |words| > 0 && Field(words[0])
    requires SplitWs(Spaced(words[1..], last), |words[1..]|) == words[1..] + [last]
    ensures SplitWs(Spaced(words, last), |words|) == words + [last]
  {
    SpacedCons(words, last);
    SplitWsPrefixed(Spaced(words, last), words[0], Spaced(words[1..], last), |words|);
    HeadThenRest(words, last);
  }

  lemma SpacedCons(words: seq<string>, last: string)
    requires |words| > 0
    ensures Spaced(words, last) == words[0] + " " + Spaced(words[1..], last)
  {
  }

  lemma HeadThenRest<T>(words: seq<T>, last: T)
    requires |words| > 0
    ensures words + [last] == [words[0]] + (words[1..] + [last])
  {
    assert words == [words[0]] + words[1..];
  }

  /** Splitting single-spaced fields with one split per field gives the fields back, the
      last piece whole. */
  lemma {:induction false} SplitSpaced(words: seq<string>, last: string)
    requires AllFields(words)
    requires |last| > 0 && !IsSpace(last[0])
    decreases |words|
    ensures SplitWs(Spaced(words, last), |words|) == words + [last]
  {
    if |words| == 0 {
      SplitWsLast(last);
    } else {
      AllFieldsTail(words);
      SplitSpaced(words[1..], last);
      SplitSpacedStep(words, last);
    }
  }

  predicate AllFields(words: seq<string>) {
    forall k :: 0 <= k < |words| ==> Field(words[k])
  }

  lemma AllFieldsTail(words: seq<string>)
    requires |words| > 0 && AllFields(words)
    ensures Field(words[0]) && AllFields(words[1..])
  {
    assert forall k :: 0 <= k < |words| - 1 ==> words[1..][k] == words[k + 1];
  }

  lemma FiveFields(a: string, b: string, c: string, d: string, f: string)
    requires Field(a) && Field(b) && Field(c) && Field(d) && Field(f)
    ensures AllFields([a, b, c, d, f])
  {
  }

  /** The rendered line is the five fields and the command, single-spaced. */
  lemma RenderedLine(e: CronEntry)
    ensures CronExpression(e) + " " + e.command == Spaced([e.minute, e.hour, e.dom, e.month, e.dow], e.command)
  {
    var c := e.command;
    assert Spaced([e.dow], c) == e.dow + " " + c by { assert [e.dow][1..] == []; }
    assert Spaced([e.month, e.dow], c) == e.month + " " + Spaced([e.dow], c) by {
      assert [e.month, e.dow][1..] == [e.dow];
    }
    assert Spaced([e.dom, e.month, e.dow], c) == e.dom + " " + Spaced([e.month, e.dow], c) by {
      assert [e.dom, e.month, e.dow][1..] == [e.month, e.dow];
    }
    assert Spaced([e.hour, e.dom, e.month, e.dow], c) == e.hour + " " + Spaced([e.dom, e.month, e.dow], c) by {
      assert [e.hour, e.dom, e.month, e.dow][1..] == [e.dom, e.month, e.dow];
    }
    assert Spaced([e.minute, e.hour, e.dom, e.month, e.dow], c)
        == e.minute + " " + Spaced([e.hour, e.dom, e.month, e.dow], c) by {
      assert [e.minute, e.hour, e.dom, e.month, e.dow][1..] == [e.hour, e.dom, e.month, e.dow];
    }
  }

  /** A rendered line parses back: the cron expression, a space and a backup command give
      the entry with those fields, the line itself as its raw line. */
  lemma ParseRendered(e: CronEntry)
    requires Field(e.minute) && Field(e.hour) && Field(e.dom) && Field(e.month) && Field(e.dow)
    requires e.minute[0] != '#'
    requires |e.command| > 0 && !IsSpace(e.command[0]) && !IsSpace(e.command[|e.command| - 1])
    requires IsBackupCommand(e.command)
    ensures var line := CronExpression(e) + " " + e.command;
            ParseCronLine(line) == Some(e.(rawLine := line))
  {
    var line := CronExpression(e) + " " + e.command;
    RenderedTrimmed(e);
    RenderedSplit(e);
    assert line[0] == e.minute[0];
  }

  /** A rendered line neither starts nor ends with whitespace. */
  lemma RenderedTrimmed(e: CronEntry)
    requires Field(e.minute) && |e.command| > 0 && !IsSpace(e.command[|e.command| - 1])
    ensures var line := CronExpression(e) + " " + e.command;
            Strip(line) == line
  {
    var line := CronExpression(e) + " " + e.command;
    assert line[0] == e.minute[0];
    assert line[|line| - 1] == e.command[|e.command| - 1];
    StripOfTrimmed(line);
  }

  /** A rendered line splits into the five fields and the command. */
  lemma RenderedSplit(e: CronEntry)
    requires Field(e.minute) && Field(e.hour) && Field(e.dom) && Field(e.month) && Field(e.dow)
    requires |e.command| > 0 && !IsSpace(e.command[0])
    ensures SplitWs(CronExpression(e) + " " + e.command, 5) == [e.minute, e.hour, e.dom, e.month, e.dow, e.command]
  {
    RenderedLine(e);
    var w := [e.minute, e.hour, e.dom, e.month, e.dow];
    FiveFields(e.minute, e.hour, e.dom, e.month, e.dow);
    SplitSpaced(w, e.command);
    FiveThenOne(e.minute, e.hour, e.dom, e.month, e.dow, e.command);
  }

  lemma FiveThenOne<T>(a: T, b: T, c: T, d: T, f: T, g: T)
    ensures [a, b, c, d, f] + [g] == [a, b, c, d, f, g]
  {
  }

  /** The line a listed entry was read from. */
  lemma ListedEntryOrigin(text: string, k: nat) returns (i: nat)
    requires k < |CronEntries(text)|
    ensures i < |SplitLines(text)| && ParseCronLine(SplitLines(text)[i]) == Some(CronEntries(text)[k])
  {
    i :| 0 <= i < |SplitLines(text)| && ParseCronLine(SplitLines(text)[i]) == Some(CronEntries(text)[k]);
  }

  /** A listed entry's raw line is a non-empty part of the text it was read from. */
  lemma ListedLineInText(text: string, k: nat)
    requires k < |CronEntries(text)|
    ensures Contains(text, CronEntries(text)[k].rawLine) && |CronEntries(text)[k].rawLine| > 0
  {
    var i := ListedEntryOrigin(text, k);
    var line := SplitLines(text)[i];
    var listed := CronEntries(text)[k].rawLine;
    assert listed == Strip(line);
    var at := SplitLinesInfix(text, i);
    var a := StripInfix(line);
    OccursWithin(text, line, at, listed, a);
    ContainsIff(text, listed);
  }

  /** An enabled edit of a non-empty line found in the crontab writes the crontab with the
      line replaced. */
  lemma GuardPasses(current: string, oldLine: string, newLine: string, writeSucceeds: bool)
    requires Contains(current, oldLine) && |oldLine| > 0
    ensures UpdateCronEntry(true, current, oldLine, newLine, writeSucceeds)
            == (writeSucceeds, Some(Join(newLine, Split(current, oldLine))))
  {
    assert OccursAt(current, oldLine, Find(current, oldLine).value);
  }

  /** Editing a listed entry always passes the guard: its raw line is part of the crontab
      it was read from, so the text written is that crontab with the line replaced. */
  lemma EditListedEntry(text: string, k: nat, newLine: string, writeSucceeds: bool)
    requires k < |CronEntries(text)|
    ensures var listed := CronEntries(text)[k].rawLine;
            && |listed| > 0
            && UpdateCronEntry(true, text, listed, newLine, writeSucceeds)
               == (writeSucceeds, Some(Join(newLine, Split(text, listed))))
  {
    var listed := CronEntries(text)[k].rawLine;
    ListedLineInText(text, k);
    GuardPasses(text, listed, newLine, writeSucceeds);
  }

  /** An occurrence of `pat` that is the only one is the one `find` reports, and nothing
      after it contains `pat`. */
  lemma OnlyOccurrence(s: string, pat: string, i: nat)
    requires |pat| > 0 && OccursAt(s, pat, i)
    requires forall j :: OccursAt(s, pat, j) ==> j == i
    ensures Find(s, pat) == Some(i)
    ensures !Contains(s[i + |pat|..], pat)
  {
    var rest := s[i + |pat|..];
    match Find(rest, pat)
    case None =>
    case Some(j) =>
      assert s[i + |pat| + j..i + |pat| + j + |pat|] == rest[j..j + |pat|];
      assert OccursAt(s, pat, i + |pat| + j);
  }

  lemma ReplaceOnly(s: string, pat: string, repl: string, i: nat)
    requires |pat| > 0 && OccursAt(s, pat, i)
    requires forall j :: OccursAt(s, pat, j) ==> j == i
    ensures Find(s, pat).Some?
    ensures ReplaceAll(s, pat, repl) == s[..i] + repl + s[i + |pat|..]
  {
    OnlyOccurrence(s, pat, i);
    ReplaceAtLast(s, pat, repl, i);
  }

  /** Replacing when the occurrence `find` reports is the last one. */
  lemma ReplaceAtLast(s: string, pat: string, repl: string, i: nat)
    requires |pat| > 0 && Find(s, pat) == Some(i) && !Contains(s[i + |pat|..], pat)
    ensures ReplaceAll(s, pat, repl) == s[..i] + repl + s[i + |pat|..]
  {
    var tail := s[i + |pat|..];
    ReplaceWithout(tail, pat, repl);
    ReplaceOfFind(s, pat, repl);
    assert ReplaceAll(s, pat, repl) == s[..i] + repl + ReplaceAll(tail, pat, repl);
  }

  lemma ReplaceWithout(s: string, pat: string, repl: string)
    requires |pat| > 0 && !Contains(s, pat)
    ensures ReplaceAll(s, pat, repl) == s
  {
  }

  /** Replacing a line that occurs once rewrites just that occurrence. */
  lemma UpdateSingleOccurrence(current: string, oldLine: string, newLine: string, i: nat, writeSucceeds: bool)
    requires |oldLine| > 0 && OccursAt(current, oldLine, i)
    requires forall j :: OccursAt(current, oldLine, j) ==> j == i
    ensures UpdateCronEntry(true, current, oldLine, newLine, writeSucceeds)
            == (writeSucceeds, Some(current[..i] + newLine + current[i + |oldLine|..]))
  {
    ReplaceOnly(current, oldLine, newLine, i);
    assert Find(current, oldLine).Some?;
  }

  /** Replacing a line by itself writes the crontab back unchanged. */
  lemma UpdateWithSameLine(current: string, line: string, writeSucceeds: bool)
    requires Contains(current, line) && current != [] && |line| > 0
    ensures UpdateCronEntry(true, current, line, line, writeSucceeds) == (writeSucceeds, Some(current))
  {
    JoinSplit(current, line);
  }

  /** With an empty old line the guard passes on any non-empty crontab, and the new line
      is put before every character and at the end: block `k` of the written text is the
      new line followed by the crontab's `k`-th character, and the text ends with the new
      line. */
  lemma EmptyOldLineInsertsEverywhere(current: string, newLine: string, writeSucceeds: bool)
    ensures current != [] ==>
              UpdateCronEntry(true, current, [], newLine, writeSucceeds) == (writeSucceeds, Some(ReplaceAll(current, [], newLine)))
    ensures var r := ReplaceAll(current, [], newLine);
            var w := |newLine| + 1;
            && |r| == |current| * w + |newLine|
            && (forall k :: 0 <= k < |current| ==>
                  r[k * w + |newLine|] == current[k] && r[k * w..k * w + |newLine|] == newLine)
            && r[|current| * w..] == newLine
  {
    InsertedLength(current, newLine);
    InsertedAtEnd(current, newLine);
    InsertedBlocks(current, newLine);
    EmptyLinePassesGuard(current, newLine, writeSucceeds);
  }

  /** Every block of an insertion everywhere. */
  lemma InsertedBlocks(s: string, repl: string)
    ensures var r := ReplaceAll(s, [], repl);
            var w := |repl| + 1;
            forall k :: 0 <= k < |s| ==>
              k * w + w <= |r| && r[k * w + |repl|] == s[k] && r[k * w..k * w + |repl|] == repl
  {
    var r := ReplaceAll(s, [], repl);
    var w := |repl| + 1;
    forall k | 0 <= k < |s|
      ensures k * w + w <= |r| && r[k * w + |repl|] == s[k] && r[k * w..k * w + |repl|] == repl
    {
      InsertedBlock(s, repl, k);
    }
  }

  /** The empty line is in every non-empty crontab. */
  lemma EmptyLinePassesGuard(current: string, newLine: string, writeSucceeds: bool)
    ensures current != [] ==>
              UpdateCronEntry(true, current, [], newLine, writeSucceeds) == (writeSucceeds, Some(ReplaceAll(current, [], newLine)))
  {
    assert OccursAt(current, [], 0);
  }

  /** Each character gains one copy of the inserted text, and one more comes at the end. */
  lemma {:induction false} InsertedLength(s: string, repl: string)
    decreases |s|
    ensures |ReplaceAll(s, [], repl)| == |s| * (|repl| + 1) + |repl|
  {
    if |s| > 0 {
      InsertedLength(s[1..], repl);
      var m := |s[1..]| * (|repl| + 1);
      assert |s| * (|repl| + 1) == m + |repl| + 1;
    }
  }

  /** Block `k` of an insertion everywhere: the inserted text, then character `k`. */
  lemma {:induction false} InsertedBlock(s: string, repl: string, k: nat)
    requires k < |s|
    decreases k
    ensures var r := ReplaceAll(s, [], repl);
            var w := |repl| + 1;
            k * w + w <= |r| && r[k * w + |repl|] == s[k] && r[k * w..k * w + |repl|] == repl
  {
    var w := |repl| + 1;
    var head := repl + [s[0]];
    var rest := ReplaceAll(s[1..], [], repl);
    assert ReplaceAll(s, [], repl) == head + rest;
    if k > 0 {
      InsertedBlock(s[1..], repl, k - 1);
      var m := (k - 1) * w;
      MulStep(k, w);
      Shifted(head, rest, m, |repl|);
    } else {
      assert (head + rest)[..|repl|] == repl;
    }
  }

  lemma MulStep(k: int, w: int)
    ensures k * w == (k - 1) * w + w
  {
  }

  /** Past a head, indices and slices are those of the rest. */
  lemma Shifted<T>(head: seq<T>, rest: seq<T>, x: nat, n: nat)
    requires x + n < |rest|
    ensures (head + rest)[|head| + x + n] == rest[x + n]
    ensures (head + rest)[|head| + x..|head| + x + n] == rest[x..x + n]
  {
  }

  /** The inserted text also closes the result. */
  lemma {:induction false} InsertedAtEnd(s: string, repl: string)
    decreases |s|
    ensures var r := ReplaceAll(s, [], repl);
            |s| * (|repl| + 1) <= |r| && r[|s| * (|repl| + 1)..] == repl
  {
    InsertedLength(s, repl);
    if |s| > 0 {
      var w := |repl| + 1;
      var rest := ReplaceAll(s[1..], [], repl);
      InsertedAtEnd(s[1..], repl);
      var m := |s[1..]| * w;
      assert |s| * w == m + w;
      assert ReplaceAll(s, [], repl)[m + w..] == rest[m..];
    }
  }

  /** Two parts joined. */
  lemma JoinTwo(sep: string, x: string, y: string)
    ensures Join(sep, [x, y]) == x + sep + y
  {
    assert [x, y][1..] == [y];
  }

  /** With a readable hour the schedule is the day part, ` at `, and the time. */
  lemma ScheduleWithHour(e: CronEntry, h: int)
    requires e.hour != "*" && PyInt(e.hour) == Some(h)
    ensures ScheduleDisplay(e) == Some(DayText(e.dow, e.dom) + " at " + ClockText(h, e.minute))
  {
    JoinTwo(" at ", DayText(e.dow, e.dom), ClockText(h, e.minute));
  }

  lemma ClockAtThree()
    ensures ClockText(3, "0") == "3:00 AM"
  {
    assert IntToString(3) == "3";
    assert ZFill("0", 2) == "00";
  }

  lemma ClockAtFourteenFive()
    ensures ClockText(14, "5") == "2:05 PM"
  {
    assert IntToString(2) == "2";
    assert ZFill("5", 2) == "05";
  }

  /** `0 3 * * *` reads as every day at 3:00 AM. */
  lemma NightlySchedule(e: CronEntry)
    requires e.minute == "0" && e.hour == "3" && e.dom == "*" && e.dow == "*"
    ensures ScheduleDisplay(e) == Some("Every day at 3:00 AM")
  {
    HourThree();
    ClockAtThree();
    EveryDay();
    ScheduleWithHour(e, 3);
    EveryDayAtThree();
  }

  lemma HourThree()
    ensures PyInt("3") == Some(3)
  {
    PyIntOfDigits("3");
    assert DigitsValue("3") == 3;
  }

  lemma EveryDay()
    ensures DayText("*", "*") == "Every day"
  {
  }

  lemma EveryDayAtThree()
    ensures "Every day" + " at " + "3:00 AM" == "Every day at 3:00 AM"
  {
  }

  lemma HourFourteen()
    ensures PyInt("14") == Some(14)
  {
    PyIntOfDigits("14");
    assert DigitsValue("14") == 14;
  }

  /** Minute 5 of hour 14 on Sundays reads as `Sundays at 2:05 PM`. */
  lemma WeeklySchedule(e: CronEntry)
    requires e.minute == "5" && e.hour == "14" && e.dow == "0"
    ensures ScheduleDisplay(e) == Some("Sundays at 2:05 PM")
  {
    SundayEitherWay(e.dom);
    HourFourteen();
    ClockAtFourteenFive();
    ScheduleWithHour(e, 14);
    SundaysAtTwoFive();
  }

  lemma SundaysAtTwoFive()
    ensures "Sundays" + " at " + "2:05 PM" == "Sundays at 2:05 PM"
  {
  }
}

=== FILE: decimal.dfy ===
/** Decimal text: Python's `str(int)`, `int(str)` for base 10, and the comma-grouped
    integers rsync prints ("24,265,611"), which the log parser reads back with
    `int(s.replace(",", ""))`. */
module Decimal {
  import opened Wrappers
  import opened Text

  predicate IsDigit(c: char) {
    '0' <= c <= '9'
  }

  predicate AllDigits(s: string) {
    forall i :: 0 <= i < |s| ==> IsDigit(s[i])
  }

  function DigitChar(d: nat): (c: char)
    requires d < 10
    ensures IsDigit(c) && c as int - '0' as int == d
  {
    ('0' as int + d) as char
  }

  function DigitValue(c: char): (d: nat)
    requires IsDigit(c)
    ensures d < 10 && DigitChar(d) == c
  {
    c as int - '0' as int
  }

  function Pow10(k: nat): (p: nat)
    ensures p >= 1
  {
    if k == 0 then 1 else 10 * Pow10(k - 1)
  }

  /** The value of a string of decimal digits, most significant digit first. */
  function DigitsValue(s: string): nat
    requires AllDigits(s)
  {
    if |s| == 0 then 0 else DigitsValue(s[..|s| - 1]) * 10 + DigitValue(s[|s| - 1])
  }

  lemma {:induction false} MulBound(k: int, n: int)
    requires n > 0
    decreases if k > 0 then k else -k
    ensures k > 0 ==> k * n >= n
    ensures k < 0 ==> k * n <= -n
  {
    if k > 0 {
      MulBound(k - 1, n);
    } else if k < 0 {
      MulBound(k + 1, n);
    }
  }

  /** Euclidean division is unique: `q` and `r` with `a == q * n + r`, `0 <= r < n` are
      `a / n` and `a % n`. */
  lemma DivModUnique(a: int, n: int, q: int, r: int)
    requires n > 0 && 0 <= r < n && a == q * n + r
    ensures a / n == q && a % n == r
  {
    var k := q - a / n;
    assert a == (a / n) * n + a % n;
    assert k * n == a % n - r by {
      assert q * n - (a / n) * n == (q - a / n) * n;
    }
    MulBound(k, n);
  }

  /** Appending one digit shifts the value by one place. */
  lemma DigitsValueSnoc(a: string, c: char)
    requires AllDigits(a) && IsDigit(c)
    ensures AllDigits(a + [c])
    ensures DigitsValue(a + [c]) == DigitsValue(a) * 10 + DigitValue(c)
  {
    assert (a + [c])[..|a|] == a;
  }

  /** Appending a three-digit group shifts the value by three places. */
  lemma DigitsValueAppend3(a: string, b: string)
    requires AllDigits(a) && AllDigits(b) && |b| == 3
    ensures AllDigits(a + b)
    ensures DigitsValue(a + b) == DigitsValue(a) * 1000 + DigitsValue(b)
  {
    DigitsValueSnoc(a, b[0]);
    DigitsValueSnoc(a + [b[0]], b[1]);
    DigitsValueSnoc(a + [b[0]] + [b[1]], b[2]);
    assert a + b == a + [b[0]] + [b[1]] + [b[2]];
    DigitsValueSnoc([], b[0]);
    DigitsValueSnoc([b[0]], b[1]);
    DigitsValueSnoc([b[0]] + [b[1]], b[2]);
    assert b == [] + [b[0]] + [b[1]] + [b[2]];
  }

  /** `str(n)` for a non-negative integer: the shortest decimal numeral of `n`, which
      reads back as `n`. */
  function NatToString(n: nat): (r: string)
    decreases n
    ensures |r| >= 1 && AllDigits(r)
    ensures DigitsValue(r) == n
    ensures r[0] == '0' ==> n == 0 && |r| == 1
  {
    if n < 10 then [DigitChar(n)]
    else
      var front := NatToString(n / 10);
      var r := front + [DigitChar(n % 10)];
      assert r[..|r| - 1] == front;
      r
  }

  /** `str(i)` for any integer: a minus sign in front of a negative value's numeral. */
  function IntToString(i: int): (r: string)
    ensures i >= 0 ==> r == NatToString(i)
    ensures i < 0 ==> r == "-" + NatToString(-i)
  {
    if i < 0 then "-" + NatToString(-i) else NatToString(i)
  }

  /** `s` with every `c` deleted (`s.replace(c, "")`). */
  function RemoveChar(s: string, c: char): (r: string)
    ensures c !in r && |r| <= |s|
    ensures forall x :: x in r ==> x in s
  {
    if |s| == 0 then ""
    else if s[0] == c then RemoveChar(s[1..], c)
    else [s[0]] + RemoveChar(s[1..], c)
  }

  lemma {:induction false} RemoveCharAppend(a: string, b: string, c: char)
    decreases |a|
    ensures RemoveChar(a + b, c) == RemoveChar(a, c) + RemoveChar(b, c)
  {
    if |a| > 0 {
      assert (a + b)[1..] == a[1..] + b;
      RemoveCharAppend(a[1..], b, c);
    } else {
      assert a + b == b;
    }
  }

  lemma {:induction false} RemoveAbsentChar(s: string, c: char)
    decreases |s|
    ensures c !in s ==> RemoveChar(s, c) == s
  {
    if |s| > 0 && c !in s {
      RemoveAbsentChar(s[1..], c);
      assert s == [s[0]] + s[1..];
    }
  }

  /** Python's digit grouping with underscores (PEP 515): digits, and each `_` sits
      between two digits. */
  predicate UnderscoredDigits(s: string) {
    && |s| > 0
    && IsDigit(s[0])
    && IsDigit(s[|s| - 1])
    && (forall i :: 0 <= i < |s| ==> IsDigit(s[i]) || s[i] == '_')
    && (forall i :: 0 < i < |s| ==> s[i - 1] != '_' || s[i] != '_')
  }

  /** Deleting the only non-digit character a string holds leaves digits. */
  lemma {:induction false} RemoveCharLeavesDigits(s: string, c: char)
    requires forall i :: 0 <= i < |s| ==> IsDigit(s[i]) || s[i] == c
    decreases |s|
    ensures AllDigits(RemoveChar(s, c))
  {
    if |s| > 0 {
      RemoveCharLeavesDigits(s[1..], c);
    }
  }

  lemma RemoveUnderscoresGivesDigits(s: string)
    requires UnderscoredDigits(s)
    ensures AllDigits(RemoveChar(s, '_'))
  {
    RemoveCharLeavesDigits(s, '_');
  }

  /** The digits of an underscore-grouped numeral, read as a number. */
  function ReadUnderscored(body: string): (r: Option<nat>)
    ensures r.Some? <==> UnderscoredDigits(body)
  {
    if UnderscoredDigits(body) then
      RemoveUnderscoresGivesDigits(body);
      Some(DigitsValue(RemoveChar(body, '_')))
    else None
  }

  lemma ReadPlainDigits(s: string)
    requires |s| > 0 && AllDigits(s)
    ensures ReadUnderscored(s) == Some(DigitsValue(s))
  {
    RemoveAbsentChar(s, '_');
  }

  /** Splits an optional leading sign off: (is negative, the rest). */
  function SplitSign(t: string): (r: (bool, string))
  {
    if |t| > 0 && t[0] == '-' then (true, t[1..])
    else if |t| > 0 && t[0] == '+' then (false, t[1..])
    else (false, t)
  }

  /** Python's `int(s)` (base 10): surrounding whitespace ignored, an optional sign, then
      digits with single underscores between them; anything else raises `ValueError`,
      modelled as `None`. */
  function PyInt(s: string): (r: Option<int>)
  {
    var (negative, body) := SplitSign(Strip(s));
    match ReadUnderscored(body)
    case None => None
    case Some(v) => Some(if negative then 0 - v else v)
  }

  lemma DigitsHaveNoSpace(s: string)
    requires AllDigits(s)
    ensures NoSpace(s)
  {
  }

  /** A plain decimal numeral reads back as its digit value. */
  lemma PyIntOfDigits(s: string)
    requires |s| > 0 && AllDigits(s)
    ensures PyInt(s) == Some(DigitsValue(s))
  {
    DigitsHaveNoSpace(s);
    StripOfNoSpace(s);
    assert SplitSign(s) == (false, s);
    ReadPlainDigits(s);
  }

  lemma PyIntOfNegative(n: nat)
    ensures PyInt("-" + NatToString(n)) == Some(0 - n)
  {
    var digits := NatToString(n);
    NegativeSign(digits);
    ReadPlainDigits(digits);
    MinusDigitsRead(digits, n);
  }

  lemma MinusDigitsRead(digits: string, v: nat)
    requires SplitSign(Strip("-" + digits)) == (true, digits) && ReadUnderscored(digits) == Some(v)
    ensures PyInt("-" + digits) == Some(0 - v)
  {
    NegativeOfParts("-" + digits, digits, v);
  }

  /** A minus sign in front of digits is the sign `int()` reads. */
  lemma NegativeSign(digits: string)
    requires AllDigits(digits)
    ensures SplitSign(Strip("-" + digits)) == (true, digits)
  {
    MinusDigitsNoSpace(digits);
    StripOfNoSpace("-" + digits);
    SignOfMinus(digits);
  }

  /** `int()` of a stripped text with a minus sign negates what the digits read as. */
  lemma NegativeOfParts(s: string, body: string, v: nat)
    requires SplitSign(Strip(s)) == (true, body) && ReadUnderscored(body) == Some(v)
    ensures PyInt(s) == Some(0 - v)
  {
  }

  lemma MinusDigitsNoSpace(digits: string)
    requires AllDigits(digits)
    ensures NoSpace("-" + digits)
  {
    DigitsHaveNoSpace(digits);
    assert forall k :: 0 < k < |"-" + digits| ==> ("-" + digits)[k] == digits[k - 1];
  }

  lemma SignOfMinus(t: string)
    ensures SplitSign("-" + t) == (true, t)
  {
    assert ("-" + t)[1..] == t;
  }

  /** `str` and `int` are inverse on every integer. */
  lemma PyIntOfIntToString(i: int)
    ensures PyInt(IntToString(i)) == Some(i)
  {
    if i >= 0 {
      PyIntOfNonNegativeInt(i);
    } else {
      PyIntOfNegativeInt(i);
    }
  }

  lemma PyIntOfNonNegativeInt(i: int)
    requires i >= 0
    ensures PyInt(IntToString(i)) == Some(i)
  {
    PyIntOfDigits(NatToString(i));
  }

  lemma PyIntOfNegativeInt(i: int)
    requires i < 0
    ensures PyInt(IntToString(i)) == Some(i)
  {
    PyIntOfNegative(-i);
  }

  /** `_parse_comma_int`: delete every comma, then `int()`. Text without a comma reads as
      `int()` reads it. */
  function ParseCommaInt(s: string): (r: Option<int>)
    ensures ',' !in s ==> r == PyInt(s)
  {
    RemoveAbsentChar(s, ',');
    PyInt(RemoveChar(s, ','))
  }

  /** A comma anywhere in the text is ignored. */
  lemma ParseCommaIntSkipsComma(a: string, b: string)
    ensures ParseCommaInt(a + [','] + b) == ParseCommaInt(a + b)
  {
    var s := a + [','] + b;
    RemoveCharAppend(a + [','], b, ',');
    RemoveCharAppend(a, [','], ',');
    RemoveCharAppend(a, b, ',');
    assert RemoveChar([','], ',') == "";
    assert RemoveChar(s, ',') == RemoveChar(a + b, ',');
    assert s[|a|] == ',';
  }

  predicate DigitsAndCommas(s: string) {
    forall i :: 0 <= i < |s| ==> IsDigit(s[i]) || s[i] == ','
  }

  /** On the strings the rsync patterns capture (`[\d,]+`), `_parse_comma_int` yields the
      value of the digits left after deleting the commas, and raises exactly when there
      is no digit at all. */
  lemma ParseCommaIntOfGroups(s: string)
    requires DigitsAndCommas(s)
    ensures AllDigits(RemoveChar(s, ','))
    ensures ParseCommaInt(s).None? <==> RemoveChar(s, ',') == ""
    ensures ParseCommaInt(s).Some? ==> ParseCommaInt(s) == Some(DigitsValue(RemoveChar(s, ',')))
  {
    var d := RemoveChar(s, ',');
    RemoveCharLeavesDigits(s, ',');
    if |d| > 0 {
      PyIntOfDigits(d);
    } else {
      assert Strip(d) == "";
    }
  }

  /** A three-digit, zero-padded numeral for `0 <= x < 1000`. */
  function Pad3(x: nat): (r: string)
    requires x < 1000
    ensures |r| == 3 && AllDigits(r) && DigitsValue(r) == x
  {
    var a, b, c := x / 100, x / 10 % 10, x % 10;
    DecimalPlaces(x);
    ThreeDigits(a, b, c);
    [DigitChar(a), DigitChar(b), DigitChar(c)]
  }

  /** The hundreds, tens and units of a number below 1000. */
  lemma DecimalPlaces(x: nat)
    requires x < 1000
    ensures x / 100 < 10 && x / 10 % 10 < 10
    ensures x == x / 100 * 100 + x / 10 % 10 * 10 + x % 10
  {
    var t := x / 10;
    assert x == t * 10 + x % 10;
    assert t == t / 10 * 10 + t % 10;
    DivModUnique(x, 100, t / 10, t % 10 * 10 + x % 10);
  }

  /** Three digit characters read back as the number they spell. */
  lemma ThreeDigits(a: nat, b: nat, c: nat)
    requires a < 10 && b < 10 && c < 10
    ensures var r := [DigitChar(a), DigitChar(b), DigitChar(c)];
            AllDigits(r) && DigitsValue(r) == a * 100 + b * 10 + c
  {
    var r := [DigitChar(a), DigitChar(b), DigitChar(c)];
    DigitsValueSnoc([], r[0]);
    DigitsValueSnoc([r[0]], r[1]);
    DigitsValueSnoc([r[0]] + [r[1]], r[2]);
    assert r == [] + [r[0]] + [r[1]] + [r[2]];
  }

  /** The comma-grouped numeral rsync prints: groups of three digits from the right. */
  function WithThousands(n: nat): (r: string)
    decreases n
    ensures DigitsAndCommas(r)
  {
    if n < 1000 then NatToString(n) else WithThousands(n / 1000) + "," + Pad3(n % 1000)
  }

  /** Deleting the commas of a grouped numeral leaves a numeral of the same value. */
  lemma {:induction false} UngroupWithThousands(n: nat)
    decreases n
    ensures |RemoveChar(WithThousands(n), ',')| > 0
    ensures AllDigits(RemoveChar(WithThousands(n), ','))
    ensures DigitsValue(RemoveChar(WithThousands(n), ',')) == n
  {
    if n < 1000 {
      assert ',' !in NatToString(n);
      RemoveAbsentChar(NatToString(n), ',');
    } else {
      UngroupWithThousands(n / 1000);
      var grouped := WithThousands(n / 1000);
      var front := RemoveChar(grouped, ',');
      var group := Pad3(n % 1000);
      assert WithThousands(n) == grouped + "," + group;
      RemoveCharAppend(grouped + ",", group, ',');
      RemoveCharAppend(grouped, ",", ',');
      assert RemoveChar(",", ',') == "";
      assert ',' !in group;
      RemoveAbsentChar(group, ',');
      assert RemoveChar(WithThousands(n), ',') == front + group;
      DigitsValueAppend3(front, group);
      assert front + group == RemoveChar(WithThousands(n), ',');
    }
  }

  /** Round trip: `_parse_comma_int` reads every rsync-grouped numeral back exactly. */
  lemma ParseCommaIntOfWithThousands(n: nat)
    ensures ParseCommaInt(WithThousands(n)) == Some(n)
  {
    UngroupWithThousands(n);
    PyIntOfDigits(RemoveChar(WithThousands(n), ','));
  }
}

=== FILE: enrich.dfy ===
/** The second half of `enrich_from_stats`: each scanned entry with a start fills the
    empty detail columns of the first nightly mirror row on its calendar day, and the
    whole function over a stats extract. */
module Enrich {
  import opened Wrappers
  import opened Text
  import opened Calendar
  import opened BackupModel
  import opened RecordStore
  import opened StatsScan

  /** Python truthiness of a nullable numeric column: `None` and zero are false. */
  predicate Filled(v: Option<int>) {
    v.Some? && v.value != 0
  }

  /** `start.replace(hour=0, minute=0)`: the seconds of `start` are kept. */
  function WindowStart(start: Instant): Instant {
    Replace(start, Some(0), Some(0), None)
  }

  /** `start.replace(hour=23, minute=59)`: the seconds of `start` are kept. */
  function WindowEnd(start: Instant): Instant {
    Replace(start, Some(23), Some(59), None)
  }

  /** The query's filter: a nightly mirror row inside the entry's window. */
  predicate InWindow(run: BackupRun, start: Instant) {
    run.backupType == DailyMirror && WindowStart(start) <= run.startedAt <= WindowEnd(start)
  }

  /** The row the entry enriches: the first one the filter admits. */
  function MatchingRow(store: Store, start: Instant): (r: Option<nat>)
    ensures r.None? <==> forall i :: 0 <= i < |store| ==> !InWindow(store[i], start)
    ensures r.Some? ==> r.value < |store| && InWindow(store[r.value], start)
    ensures r.Some? ==> forall i :: 0 <= i < r.value ==> !InWindow(store[i], start)
  {
    FindFirst(store, (run: BackupRun) => InWindow(run, start))
  }

  /** The detail columns of `run` filled from an entry that started at `start`, and
      whether any was filled: the total size and the transferred count when the entry
      has a non-zero one and the row's is empty, and the duration (`end - start`) with
      the finish time when the entry has an end and the row's duration is empty. */
  function Fill(run: BackupRun, e: StatsEntry, start: Instant): (r: (bool, BackupRun))
    ensures r.0 <==> (Filled(e.total) && !Filled(run.totalSizeBytes))
                     || (Filled(e.sent) && !Filled(run.transferredBytes))
                     || (e.end.Some? && !Filled(run.durationSeconds))
    ensures r.1.totalSizeBytes == if Filled(e.total) && !Filled(run.totalSizeBytes) then e.total else run.totalSizeBytes
    ensures r.1.transferredBytes == if Filled(e.sent) && !Filled(run.transferredBytes) then e.sent else run.transferredBytes
    ensures e.end.Some? && !Filled(run.durationSeconds) ==>
              r.1.durationSeconds == Some(e.end.value - start) && r.1.finishedAt == e.end
    ensures e.end.None? || Filled(run.durationSeconds) ==>
              r.1.durationSeconds == run.durationSeconds && r.1.finishedAt == run.finishedAt
    ensures r.1 == run.(totalSizeBytes := r.1.totalSizeBytes, transferredBytes := r.1.transferredBytes,
                        durationSeconds := r.1.durationSeconds, finishedAt := r.1.finishedAt)
    ensures !r.0 ==> r.1 == run
  {
    var fillTotal := Filled(e.total) && !Filled(run.totalSizeBytes);
    var fillSent := Filled(e.sent) && !Filled(run.transferredBytes);
    var fillDuration := e.end.Some? && !Filled(run.durationSeconds);
    var run1 := if fillTotal then run.(totalSizeBytes := e.total) else run;
    var run2 := if fillSent then run1.(transferredBytes := e.sent) else run1;
    var run3 := if fillDuration then run2.(durationSeconds := Some(e.end.value - start), finishedAt := e.end) else run2;
    (fillTotal || fillSent || fillDuration, run3)
  }

  /** How the rows may differ after enrichment: the same rows in the same order, only the
      detail columns of nightly mirror rows changed, and a column that was filled (with
      the finish time that came with a filled duration) left as it was. */
  predicate Grows(a: Store, b: Store) {
    |a| == |b|
    && forall i :: 0 <= i < |a| ==>
      && b[i] == a[i].(totalSizeBytes := b[i].totalSizeBytes, transferredBytes := b[i].transferredBytes,
                       durationSeconds := b[i].durationSeconds, finishedAt := b[i].finishedAt)
      && (a[i].backupType != DailyMirror ==> b[i] == a[i])
      && (Filled(a[i].totalSizeBytes) ==> b[i].totalSizeBytes == a[i].totalSizeBytes)
      && (Filled(a[i].transferredBytes) ==> b[i].transferredBytes == a[i].transferredBytes)
      && (Filled(a[i].durationSeconds) ==> b[i].durationSeconds == a[i].durationSeconds && b[i].finishedAt == a[i].finishedAt)
  }

  lemma GrowsTransitive(a: Store, b: Store, c: Store)
    requires Grows(a, b) && Grows(b, c)
    ensures Grows(a, c)
  {
    forall i | 0 <= i < |a|
      ensures c[i] == a[i].(totalSizeBytes := c[i].totalSizeBytes, transferredBytes := c[i].transferredBytes,
                            durationSeconds := c[i].durationSeconds, finishedAt := c[i].finishedAt)
    {
      assert b[i] == a[i].(totalSizeBytes := b[i].totalSizeBytes, transferredBytes := b[i].transferredBytes,
                           durationSeconds := b[i].durationSeconds, finishedAt := b[i].finishedAt);
    }
  }

  lemma GrowsReflexive(a: Store)
    ensures Grows(a, a)
  {
  }

  /** One entry. Without a start, or without a matching row, nothing changes; otherwise
      the matching row is filled and every other row stays. */
  function EnrichOne(store: Store, e: StatsEntry): (r: (bool, Store))
    ensures Grows(store, r.1)
    ensures !r.0 ==> r.1 == store
    ensures e.start.None? ==> r == (false, store)
    ensures e.start.Some? && MatchingRow(store, e.start.value).None? ==> r == (false, store)
    ensures e.start.Some? && MatchingRow(store, e.start.value).Some? ==>
              var i := MatchingRow(store, e.start.value).value;
              r == (Fill(store[i], e, e.start.value).0, Put(store, i, Fill(store[i], e, e.start.value).1))
  {
    match e.start
    case None => (false, store)
    case Some(start) =>
      match MatchingRow(store, start)
      case None => (false, store)
      case Some(i) =>
        var (changed, run) := Fill(store[i], e, start);
        var r := Put(store, i, run);
        assert !changed ==> r == store by {
          if !changed {
            assert run == store[i];
          }
        }
        (changed, r)
  }

  /** The entries in order; the count is how many changed a row. */
  function EnrichAll(store: Store, entries: seq<StatsEntry>): (r: (nat, Store))
    decreases |entries|
    ensures Grows(store, r.1)
    ensures r.0 <= |entries|
    ensures r.0 == 0 ==> r.1 == store
  {
    if |entries| == 0 then (0, store)
    else
      var (changed, s1) := EnrichOne(store, entries[0]);
      var (n, s2) := EnrichAll(s1, entries[1..]);
      GrowsTransitive(store, s1, s2);
      ((if changed then 1 else 0) + n, s2)
  }

  /** The outcome of `enrich_from_stats`: the count of updated rows and the rows as
      committed, or the `ValueError` a count that `int()` rejects raises (nothing is
      committed then). */
  datatype EnrichOutcome = Enriched(updated: nat, store: Store) | Raised

  /** `enrich_from_stats(db, path)` with the file's text (`None` when it does not exist). */
  function EnrichFromStats(store: Store, formats: seq<Parser>, file: Option<string>): (r: EnrichOutcome)
    ensures file.None? ==> r == Enriched(0, store)
    ensures file.Some? && Strip(file.value) == [] ==> r == Enriched(0, store)
    ensures r.Raised? <==> file.Some? && Strip(file.value) != [] && ScanText(formats, file.value).None?
    ensures r.Enriched? ==> Grows(store, r.store)
    ensures r.Enriched? && r.updated == 0 ==> r.store == store
  {
    match file
    case None => Enriched(0, store)
    case Some(text) =>
      if Strip(text) == [] then Enriched(0, store)
      else
        match ScanText(formats, text)
        case None => Raised
        case Some(entries) =>
          var (n, s) := EnrichAll(store, entries);
          Enriched(n, s)
  }

  // ---------------------------------------------------------------------------------
  // The window
  // ---------------------------------------------------------------------------------

  /** The window runs from 00:00 to 23:59 of the start's day, both at the start's second. */
  lemma WindowBounds(start: Instant)
    ensures WindowStart(start) == At(DayOf(start), 0, 0, Second(start))
    ensures WindowEnd(start) == At(DayOf(start), 23, 59, Second(start))
  {
    Decompose(start);
    ReplaceOfAt(DayOf(start), Hour(start), Minute(start), Second(start), 0, Some(0));
    ReplaceOfAt(DayOf(start), Hour(start), Minute(start), Second(start), 23, Some(59));
  }

  /** The importer's nightly row for a day (03:00:00) lies in the window of every entry
      that started that day. */
  lemma NightlyRowInWindow(run: BackupRun, start: Instant)
    requires run.backupType == DailyMirror && run.startedAt == At(DayOf(start), 3, 0, 0)
    ensures InWindow(run, start)
  {
    WindowBounds(start);
    Decompose(start);
  }

  /** Rows of other days are never matched. */
  lemma OtherDayOutsideWindow(run: BackupRun, start: Instant)
    requires DayOf(run.startedAt) != DayOf(start)
    ensures !InWindow(run, start)
  {
    WindowBounds(start);
    Decompose(start);
    Decompose(run.startedAt);
  }

  /** Because the seconds are kept, a row at the very start of the day falls outside the
      window of an entry whose start has a non-zero second. */
  lemma MidnightRowMissed(run: BackupRun, start: Instant)
    requires run.backupType == DailyMirror && run.startedAt == At(DayOf(start), 0, 0, 0)
    requires Second(start) != 0
    ensures !InWindow(run, start)
  {
    WindowBounds(start);
    Decompose(start);
  }

  // ---------------------------------------------------------------------------------
  // A second pass over the same entries changes nothing
  // ---------------------------------------------------------------------------------

  /** The entry's duration is not zero when it has one, so a filled duration stays filled. */
  predicate NonZeroDuration(e: StatsEntry) {
    e.start.Some? && e.end.Some? ==> e.end.value != e.start.value
  }

  /** The entry would change nothing: no start, no matching row, or every column it could
      fill already filled. */
  predicate Saturated(store: Store, e: StatsEntry) {
    e.start.Some? && MatchingRow(store, e.start.value).Some? ==>
      var run := store[MatchingRow(store, e.start.value).value];
      && (Filled(e.total) ==> Filled(run.totalSizeBytes))
      && (Filled(e.sent) ==> Filled(run.transferredBytes))
      && (e.end.Some? ==> Filled(run.durationSeconds))
  }

  lemma SaturatedNoChange(store: Store, e: StatsEntry)
    requires Saturated(store, e)
    ensures EnrichOne(store, e) == (false, store)
  {
  }

  lemma EnrichOneSaturates(store: Store, e: StatsEntry)
    requires NonZeroDuration(e)
    ensures Saturated(EnrichOne(store, e).1, e)
  {
    if e.start.Some? && MatchingRow(store, e.start.value).Some? {
      var s1 := EnrichOne(store, e).1;
      SameRowMatched(store, s1, e.start.value);
    }
  }

  /** Enrichment keeps every row's type and start, so every entry finds the same row. */
  lemma SameRowMatched(a: Store, b: Store, start: Instant)
    requires Grows(a, b)
    ensures MatchingRow(a, start) == MatchingRow(b, start)
  {
    forall i | 0 <= i < |a|
      ensures InWindow(a[i], start) == InWindow(b[i], start)
    {
      assert b[i].backupType == a[i].backupType && b[i].startedAt == a[i].startedAt;
    }
    FindFirstSame(a, b, (run: BackupRun) => InWindow(run, start));
  }

  lemma {:induction false} FindFirstSame(a: Store, b: Store, p: BackupRun -> bool)
    requires |a| == |b| && forall i :: 0 <= i < |a| ==> p(a[i]) == p(b[i])
    decreases |a|
    ensures FindFirst(a, p) == FindFirst(b, p)
  {
    if |a| > 0 {
      assert forall i :: 0 <= i < |a| - 1 ==> a[1..][i] == a[i + 1] && b[1..][i] == b[i + 1];
      FindFirstSame(a[1..], b[1..], p);
    }
  }

  lemma SaturatedStays(a: Store, b: Store, e: StatsEntry)
    requires Grows(a, b) && Saturated(a, e)
    ensures Saturated(b, e)
  {
    if e.start.Some? {
      SameRowMatched(a, b, e.start.value);
    }
  }

  /** After a pass, every entry of the pass would change nothing. */
  lemma {:induction false} EnrichAllSaturates(store: Store, entries: seq<StatsEntry>)
    requires forall k :: 0 <= k < |entries| ==> NonZeroDuration(entries[k])
    decreases |entries|
    ensures forall k :: 0 <= k < |entries| ==> Saturated(EnrichAll(store, entries).1, entries[k])
  {
    if |entries| > 0 {
      var s1 := EnrichOne(store, entries[0]).1;
      var s2 := EnrichAll(s1, entries[1..]).1;
      assert EnrichAll(store, entries).1 == s2;
      EnrichOneSaturates(store, entries[0]);
      SaturatedStays(s1, s2, entries[0]);
      assert forall k :: 1 <= k < |entries| ==> entries[k] == entries[1..][k - 1];
      EnrichAllSaturates(s1, entries[1..]);
    }
  }

  lemma {:induction false} SaturatedPass(store: Store, entries: seq<StatsEntry>)
    requires forall k :: 0 <= k < |entries| ==> Saturated(store, entries[k])
    decreases |entries|
    ensures EnrichAll(store, entries) == (0, store)
  {
    if |entries| > 0 {
      SaturatedNoChange(store, entries[0]);
      assert forall k :: 1 <= k < |entries| ==> entries[k] == entries[1..][k - 1];
      SaturatedPass(store, entries[1..]);
    }
  }

  /** Running the enrichment again over the same entries updates no row, as long as no
      entry ends at the very second it started. */
  lemma EnrichIdempotent(store: Store, entries: seq<StatsEntry>)
    requires forall k :: 0 <= k < |entries| ==> NonZeroDuration(entries[k])
    ensures var once := EnrichAll(store, entries).1;
            EnrichAll(once, entries) == (0, once)
  {
    EnrichAllSaturates(store, entries);
    SaturatedPass(EnrichAll(store, entries).1, entries);
  }

  /** An entry that ends at its start second writes a zero duration, which the next pass
      sees as empty and writes again: the count is not zero the second time. */
  lemma ZeroDurationRewritten(store: Store, e: StatsEntry)
    requires e.start.Some? && e.end == e.start
    requires MatchingRow(store, e.start.value).Some?
    requires !Filled(store[MatchingRow(store, e.start.value).value].durationSeconds)
    ensures var once := EnrichOne(store, e).1;
            EnrichOne(once, e).0 && EnrichOne(once, e).1 == once
  {
    var once := EnrichOne(store, e).1;
    SameRowMatched(store, once, e.start.value);
  }
}

=== FILE: markers.dfy ===
/** The five regular expressions the enrichment scan looks for in the main log's marker
    lines, and the leftmost-match search of Python's `re.search`.

    A pattern is a sequence of tokens: a literal, a greedy run of one character class
    (`\d+`, `[\d,]+`, `\s+`), or the lazy `.+?`. In every pattern below a run is followed
    by a token whose first character lies outside the run's class, so the greedy run
    never has to give characters back and taking the maximal run is exact. */
module Markers {
  import opened Wrappers
  import opened Text
  import opened Decimal

  datatype CharClass = Digit | DigitOrComma | Whitespace

  datatype Tok = Lit(text: string) | Run(cls: CharClass, capture: bool) | LazyAny

  type Pattern = seq<Tok>

  predicate InClass(c: char, cls: CharClass) {
    match cls
    case Digit => IsDigit(c)
    case DigitOrComma => IsDigit(c) || c == ','
    case Whitespace => IsSpace(c)
  }

  /** Number of capturing groups. */
  function Captures(pat: Pattern): nat {
    if |pat| == 0 then 0
    else
      (match pat[0]
       case Lit(_) => 0
       case Run(_, capture) => if capture then 1 else 0
       case LazyAny => 1) + Captures(pat[1..])
  }

  /** End of the maximal run of `cls` characters from `p`. */
  function RunEnd(line: string, p: nat, cls: CharClass): (e: nat)
    requires p <= |line|
    decreases |line| - p
    ensures p <= e <= |line|
    ensures forall i :: p <= i < e ==> InClass(line[i], cls)
    ensures e < |line| ==> !InClass(line[e], cls)
  {
    if p < |line| && InClass(line[p], cls) then RunEnd(line, p + 1, cls) else p
  }

  /** The match of `pat` at position `p`: where it ends and the groups it captures. */
  function MatchAt(line: string, p: nat, pat: Pattern): (r: Option<(nat, seq<string>)>)
    requires p <= |line|
    decreases |pat|, |line| + 1
    ensures r.Some? ==> p <= r.value.0 <= |line| && |r.value.1| == Captures(pat)
  {
    if |pat| == 0 then Some((p, []))
    else
      match pat[0]
      case Lit(t) =>
        if OccursAt(line, t, p) then MatchAt(line, p + |t|, pat[1..]) else None
      case LazyAny => LazyFrom(line, p, p + 1, pat[1..])
      case Run(cls, capture) =>
        var e := RunEnd(line, p, cls);
        if e == p then None
        else
          match MatchAt(line, e, pat[1..])
          case None => None
          case Some((q, groups)) => Some((q, (if capture then [line[p..e]] else []) + groups))
  }

  /** `.+?` starting at `start`, trying the group `line[start..k]` for `k` upward: the
      shortest group after which `rest` matches. `.` does not match a newline. */
  function LazyFrom(line: string, start: nat, k: nat, rest: Pattern): (r: Option<(nat, seq<string>)>)
    requires start < k
    decreases |rest| + 1, |line| + 1 - k
    ensures r.Some? ==> k <= r.value.0 <= |line| && |r.value.1| == 1 + Captures(rest)
  {
    if k > |line| || line[k - 1] == '\n' then None
    else
      match MatchAt(line, k, rest)
      case Some((q, groups)) => Some((q, [line[start..k]] + groups))
      case None => LazyFrom(line, start, k + 1, rest)
  }

  /** The leftmost position from `from` on where `pat` matches (`re.search`). */
  function FirstMatch(line: string, pat: Pattern, from: nat): (r: Option<nat>)
    decreases |line| + 1 - from
    ensures r.None? ==> forall p :: from <= p <= |line| ==> MatchAt(line, p, pat).None?
    ensures r.Some? ==> from <= r.value <= |line| && MatchAt(line, r.value, pat).Some?
    ensures r.Some? ==> forall p :: from <= p < r.value ==> MatchAt(line, p, pat).None?
  {
    if from > |line| then None
    else if MatchAt(line, from, pat).Some? then
      assert MatchAt(line, from, pat).Some?;
      Some(from)
    else FirstMatch(line, pat, from + 1)
  }

  /** `re.search(pat, line)` finds a match. */
  predicate Matches(line: string, pat: Pattern) {
    exists p :: 0 <= p <= |line| && MatchAt(line, p, pat).Some?
  }

  /** Group `g` of `re.search(pat, line)`, or `None` when there is no match. */
  function Group(line: string, pat: Pattern, g: nat): (r: Option<string>)
    ensures r.Some? ==> Matches(line, pat)
    ensures g < Captures(pat) && Matches(line, pat) ==> r.Some?
  {
    match FirstMatch(line, pat, 0)
    case None => None
    case Some(p) =>
      assert 0 <= p <= |line| && MatchAt(line, p, pat).Some?;
      var groups := MatchAt(line, p, pat).value.1;
      if g < |groups| then Some(groups[g]) else None
  }

  // ---------------------------------------------------------------------------------
  // The log's markers
  // ---------------------------------------------------------------------------------

  const StartPrefix: string := "=== Plex Backup Started: "
  const SuccessPrefix: string := "=== Plex Backup Completed Successfully: "
  const FailedPrefix: string := "=== Plex Backup FAILED with code "
  const MarkerEnd: string := " ==="

  /** `=== Plex Backup Started: (.+?) ===` */
  const StartPattern: Pattern := [Lit(StartPrefix), LazyAny, Lit(MarkerEnd)]

  /** `=== Plex Backup Completed Successfully: (.+?) ===` */
  const SuccessPattern: Pattern := [Lit(SuccessPrefix), LazyAny, Lit(MarkerEnd)]

  /** `=== Plex Backup FAILED with code (\d+): (.+?) ===` */
  const FailedPattern: Pattern := [Lit(FailedPrefix), Run(Digit, true), Lit(": "), LazyAny, Lit(MarkerEnd)]

  /** `sent ([\d,]+) bytes\s+received ([\d,]+) bytes` */
  const SentPattern: Pattern :=
    [Lit("sent "), Run(DigitOrComma, true), Lit(" bytes"), Run(Whitespace, false),
     Lit("received "), Run(DigitOrComma, true), Lit(" bytes")]

  /** `total size is ([\d,]+)\s+speedup is` */
  const TotalPattern: Pattern := [Lit("total size is "), Run(DigitOrComma, true), Run(Whitespace, false), Lit("speedup is")]

  /** What one line of the extract says: the captured text of each marker found in it. */
  datatype Marks = Marks(
    start: Option<string>,
    sent: Option<string>,
    total: Option<string>,
    success: Option<string>,
    failed: Option<string>)

  function Classify(line: string): (r: Marks)
    ensures r.start.Some? <==> Matches(line, StartPattern)
    ensures r.sent.Some? <==> Matches(line, SentPattern)
    ensures r.total.Some? <==> Matches(line, TotalPattern)
    ensures r.success.Some? <==> Matches(line, SuccessPattern)
    ensures r.failed.Some? <==> Matches(line, FailedPattern)
    ensures r.start.Some? ==> Contains(line, StartPrefix)
    ensures r.success.Some? ==> Contains(line, SuccessPrefix)
    ensures r.failed.Some? ==> Contains(line, FailedPrefix)
    ensures r.sent.Some? ==> Contains(line, "sent ")
    ensures r.total.Some? ==> Contains(line, "total size is ")
  {
    LeadingLiteral(line, StartPattern, StartPrefix);
    LeadingLiteral(line, SuccessPattern, SuccessPrefix);
    LeadingLiteral(line, FailedPattern, FailedPrefix);
    LeadingLiteral(line, SentPattern, "sent ");
    LeadingLiteral(line, TotalPattern, "total size is ");
    CapturesOfMarkers();
    Marks(
      Group(line, StartPattern, 0),
      Group(line, SentPattern, 0),
      Group(line, TotalPattern, 0),
      Group(line, SuccessPattern, 0),
      Group(line, FailedPattern, 1))
  }

  /** The number of groups of each marker pattern. */
  lemma CapturesOfMarkers()
    ensures Captures(StartPattern) == 1 && Captures(SuccessPattern) == 1 && Captures(FailedPattern) == 2
    ensures Captures(SentPattern) == 2 && Captures(TotalPattern) == 1
  {
    CapturesOfLazy(StartPrefix, MarkerEnd);
    CapturesOfLazy(SuccessPrefix, MarkerEnd);
    CapturesOfFailed();
    CapturesOfSent();
    CapturesOfTotal();
  }

  lemma CapturesOfFailed()
    ensures Captures(FailedPattern) == 2
  {
    var tail := [Lit(": "), LazyAny, Lit(MarkerEnd)];
    CapturesOfLazy(": ", MarkerEnd);
    var run := [Run(Digit, true)] + tail;
    assert run[1..] == tail;
    assert Captures(run) == 2;
    assert FailedPattern[1..] == run;
  }

  lemma CapturesOfSent()
    ensures Captures(SentPattern) == 2
  {
    var t1 := [Lit(" bytes")];
    assert t1[1..] == [];
    assert Captures(t1) == 0;
    var t2 := [Run(DigitOrComma, true)] + t1;
    assert t2[1..] == t1;
    assert Captures(t2) == 1;
    var t3 := [Lit("received ")] + t2;
    assert t3[1..] == t2;
    assert Captures(t3) == 1;
    var t4 := [Run(Whitespace, false)] + t3;
    assert t4[1..] == t3;
    assert Captures(t4) == 1;
    var t5 := [Lit(" bytes")] + t4;
    assert t5[1..] == t4;
    assert Captures(t5) == 1;
    var t6 := [Run(DigitOrComma, true)] + t5;
    assert t6[1..] == t5;
    assert Captures(t6) == 2;
    assert SentPattern[1..] == t6;
  }

  lemma CapturesOfTotal()
    ensures Captures(TotalPattern) == 1
  {
    var t1 := [Lit("speedup is")];
    assert t1[1..] == [];
    assert Captures(t1) == 0;
    var t2 := [Run(Whitespace, false)] + t1;
    assert t2[1..] == t1;
    assert Captures(t2) == 0;
    var t3 := [Run(DigitOrComma, true)] + t2;
    assert t3[1..] == t2;
    assert Captures(t3) == 1;
    assert TotalPattern[1..] == t3;
  }

  /** A literal, the lazy group, a literal: one group. */
  lemma CapturesOfLazy(a: string, b: string)
    ensures Captures([Lit(a), LazyAny, Lit(b)]) == 1
  {
    var last := [Lit(b)];
    assert last[1..] == [];
    assert Captures(last) == 0;
    var lazy := [LazyAny, Lit(b)];
    assert lazy[1..] == last;
    assert Captures(lazy) == 1;
    assert [Lit(a), LazyAny, Lit(b)][1..] == lazy;
  }

  /** A pattern that opens with a literal matches only in lines containing it. */
  lemma LeadingLiteral(line: string, pat: Pattern, t: string)
    requires |pat| > 0 && pat[0] == Lit(t)
    ensures Matches(line, pat) ==> Contains(line, t)
  {
    if p :| 0 <= p <= |line| && MatchAt(line, p, pat).Some? {
      assert OccursAt(line, t, p);
      ContainsIff(line, t);
    }
  }

  // ---------------------------------------------------------------------------------
  // The lines the backup script writes are recognised
  // ---------------------------------------------------------------------------------

  /** A literal at the current position is consumed. */
  lemma MatchLit(line: string, p: nat, t: string, rest: Pattern)
    requires p <= |line| && OccursAt(line, t, p)
    ensures MatchAt(line, p, [Lit(t)] + rest) == MatchAt(line, p + |t|, rest)
  {
    assert ([Lit(t)] + rest)[1..] == rest;
  }

  /** A run up to a character outside the class is consumed as a whole. */
  lemma MatchRun(line: string, p: nat, cls: CharClass, capture: bool, e: nat, rest: Pattern)
    requires p < e <= |line|
    requires forall i :: p <= i < e ==> InClass(line[i], cls)
    requires e < |line| ==> !InClass(line[e], cls)
    requires MatchAt(line, e, rest).Some?
    ensures var m := MatchAt(line, e, rest).value;
            MatchAt(line, p, [Run(cls, capture)] + rest) == Some((m.0, (if capture then [line[p..e]] else []) + m.1))
  {
    assert ([Run(cls, capture)] + rest)[1..] == rest;
    RunEndIs(line, p, cls, e);
  }

  lemma {:induction false} RunEndIs(line: string, p: nat, cls: CharClass, e: nat)
    requires p <= e <= |line|
    requires forall i :: p <= i < e ==> InClass(line[i], cls)
    requires e < |line| ==> !InClass(line[e], cls)
    decreases e - p
    ensures RunEnd(line, p, cls) == e
  {
    if p < e {
      RunEndIs(line, p + 1, cls, e);
    }
  }

  /** `.+?` followed by a literal stops at the literal's first occurrence. */
  lemma {:induction false} LazyToLiteral(line: string, start: nat, k: nat, t: string, e: nat)
    requires start < k <= e && e + |t| <= |line|
    requires OccursAt(line, t, e) && forall j :: k <= j < e ==> !OccursAt(line, t, j)
    requires '\n' !in line[start..e]
    decreases e - k
    ensures LazyFrom(line, start, k, [Lit(t)]) == Some((e + |t|, [line[start..e]]))
  {
    assert line[k - 1] == line[start..e][k - 1 - start];
    LitOnly(line, k, t);
    if k < e {
      LazySkips(line, start, k, [Lit(t)]);
      LazyToLiteral(line, start, k + 1, t, e);
    } else {
      LazyStops(line, start, k, [Lit(t)]);
      assert [line[start..e]] + [] == [line[start..e]];
    }
  }

  lemma LitOnly(line: string, p: nat, t: string)
    requires p <= |line|
    ensures MatchAt(line, p, [Lit(t)]) == if OccursAt(line, t, p) then Some((p + |t|, [])) else None
  {
    assert [Lit(t)][1..] == [];
  }

  lemma LazyStops(line: string, start: nat, k: nat, rest: Pattern)
    requires start < k <= |line| && line[k - 1] != '\n' && MatchAt(line, k, rest).Some?
    ensures LazyFrom(line, start, k, rest) == Some((MatchAt(line, k, rest).value.0, [line[start..k]] + MatchAt(line, k, rest).value.1))
  {
  }

  lemma LazySkips(line: string, start: nat, k: nat, rest: Pattern)
    requires start < k <= |line| && line[k - 1] != '\n' && MatchAt(line, k, rest).None?
    ensures LazyFrom(line, start, k, rest) == LazyFrom(line, start, k + 1, rest)
  {
  }

  /** A prefix of the pattern's first literal's shape at position 0 makes 0 the leftmost match. */
  lemma MatchAtZero(line: string, pat: Pattern)
    requires MatchAt(line, 0, pat).Some?
    ensures FirstMatch(line, pat, 0) == Some(0)
  {
  }

  /** The text between a marker's prefix and ` ===`, which `=` must not enter. */
  predicate MarkerText(d: string) {
    |d| > 0 && '=' !in d && '\n' !in d
  }

  /** The first ` ===` after the group is the one that closes the marker. */
  lemma MarkerEndFirst(prefix: string, d: string)
    requires MarkerText(d)
    ensures var line := prefix + d + MarkerEnd;
            var start := |prefix|;
            && OccursAt(line, MarkerEnd, start + |d|)
            && (forall j :: start + 1 <= j < start + |d| ==> !OccursAt(line, MarkerEnd, j))
            && line[start..start + |d|] == d
            && '\n' !in line[start..start + |d|]
  {
    var line := prefix + d + MarkerEnd;
    var start := |prefix|;
    assert line[start + |d|..] == MarkerEnd;
    forall j | start + 1 <= j < start + |d|
      ensures !OccursAt(line, MarkerEnd, j)
    {
      if j + 1 < start + |d| {
        assert line[j + 1] == d[j + 1 - start];
      } else {
        assert line[j + 1] == ' ';
      }
      assert line[j..j + |MarkerEnd|][1] == line[j + 1];
      assert MarkerEnd[1] == '=';
    }
  }

  /** After a marker's prefix, `(.+?) ===` captures everything up to the closing ` ===`. */
  lemma MarkerTail(prefix: string, d: string)
    requires MarkerText(d)
    ensures var line := prefix + d + MarkerEnd;
            MatchAt(line, |prefix|, [LazyAny, Lit(MarkerEnd)]) == Some((|line|, [d]))
  {
    var line := prefix + d + MarkerEnd;
    var start := |prefix|;
    MarkerEndFirst(prefix, d);
    assert [LazyAny, Lit(MarkerEnd)][1..] == [Lit(MarkerEnd)];
    LazyToLiteral(line, start, start + 1, MarkerEnd, start + |d|);
  }

  /** A marker of the form `prefix` + `d` + ` ===` captures `d`. */
  lemma MarkerGroup(prefix: string, d: string)
    requires MarkerText(d)
    ensures var line := prefix + d + MarkerEnd;
            MatchAt(line, 0, [Lit(prefix), LazyAny, Lit(MarkerEnd)]) == Some((|line|, [d]))
  {
    var line := prefix + d + MarkerEnd;
    assert OccursAt(line, prefix, 0) by {
      assert line[..|prefix|] == prefix;
    }
    MatchLit(line, 0, prefix, [LazyAny, Lit(MarkerEnd)]);
    MarkerTail(prefix, d);
  }

  /** `=== Plex Backup Started: <date> ===` is a start marker carrying the date text. */
  lemma StartLineRecognised(d: string)
    requires MarkerText(d)
    ensures Group(StartPrefix + d + MarkerEnd, StartPattern, 0) == Some(d)
  {
    MarkerGroup(StartPrefix, d);
    MatchAtZero(StartPrefix + d + MarkerEnd, StartPattern);
  }

  /** `=== Plex Backup Completed Successfully: <date> ===` carries the date text. */
  lemma SuccessLineRecognised(d: string)
    requires MarkerText(d)
    ensures Group(SuccessPrefix + d + MarkerEnd, SuccessPattern, 0) == Some(d)
  {
    MarkerGroup(SuccessPrefix, d);
    MatchAtZero(SuccessPrefix + d + MarkerEnd, SuccessPattern);
  }

  /** `=== Plex Backup FAILED with code <n>: <date> ===` carries the date text. */
  lemma FailedLineRecognised(code: nat, d: string)
    requires MarkerText(d)
    ensures Group(FailedPrefix + NatToString(code) + ": " + d + MarkerEnd, FailedPattern, 1) == Some(d)
  {
    var line := FailedPrefix + NatToString(code) + ": " + d + MarkerEnd;
    FailedMatch(code, d);
    GroupAtZero(line, FailedPattern, 1);
  }

  /** The FAILED pattern matches the whole marker line, capturing the code and the date. */
  lemma FailedMatch(code: nat, d: string)
    requires MarkerText(d)
    ensures var line := FailedPrefix + NatToString(code) + ": " + d + MarkerEnd;
            MatchAt(line, 0, FailedPattern) == Some((|line|, [NatToString(code), d]))
  {
    var digits := NatToString(code);
    CodeThenDate(FailedPrefix, digits, d);
    Assoc4(FailedPrefix, digits, ": ", d, MarkerEnd);
    assert [] + FailedPrefix == FailedPrefix;
    LitThen([], FailedPrefix, digits + ": " + d + MarkerEnd, [Run(Digit, true)] + ([Lit(": ")] + [LazyAny, Lit(MarkerEnd)]));
    FailedPatternParts();
  }

  /** After the prefix, `(\d+): (.+?) ===` captures the code and the date. */
  lemma CodeThenDate(x: string, digits: string, d: string)
    requires ClassText(digits, Digit) && MarkerText(d)
    ensures var line := x + digits + ": " + d + MarkerEnd;
            MatchAt(line, |x|, [Run(Digit, true)] + ([Lit(": ")] + [LazyAny, Lit(MarkerEnd)]))
            == Some((|line|, [digits, d]))
  {
    ColonThenDate(x + digits, d);
    Assoc3(x + digits, ": ", d, MarkerEnd);
    assert (": " + d + MarkerEnd)[0] == ':';
    RunThen(x, digits, ": " + d + MarkerEnd, Digit, true, [Lit(": ")] + [LazyAny, Lit(MarkerEnd)]);
    assert [digits] + [d] == [digits, d];
  }

  /** `: (.+?) ===` captures the date. */
  lemma ColonThenDate(x: string, d: string)
    requires MarkerText(d)
    ensures var line := x + ": " + d + MarkerEnd;
            MatchAt(line, |x|, [Lit(": ")] + [LazyAny, Lit(MarkerEnd)]) == Some((|line|, [d]))
  {
    MarkerTail(x + ": ", d);
    Assoc(x + ": ", d, MarkerEnd);
    LitThen(x, ": ", d + MarkerEnd, [LazyAny, Lit(MarkerEnd)]);
  }

  lemma FailedPatternParts()
    ensures FailedPattern == [Lit(FailedPrefix)] + ([Run(Digit, true)] + ([Lit(": ")] + [LazyAny, Lit(MarkerEnd)]))
  {
  }

  /** When the pattern matches at 0, `re.search` reports the groups of that match. */
  lemma GroupAtZero(line: string, pat: Pattern, g: nat)
    requires MatchAt(line, 0, pat).Some? && g < |MatchAt(line, 0, pat).value.1|
    ensures Group(line, pat, g) == Some(MatchAt(line, 0, pat).value.1[g])
  {
    MatchAtZero(line, pat);
  }

  /** Text made only of characters of the class. */
  predicate ClassText(s: string, cls: CharClass) {
    |s| >= 1 && forall i :: 0 <= i < |s| ==> InClass(s[i], cls)
  }

  /** `y` occurs in `x + y + z` right after `x`. */
  lemma OccursBetween(x: string, y: string, z: string)
    ensures OccursAt(x + y + z, y, |x|)
  {
    assert (x + y + z)[|x|..|x| + |y|] == y;
  }

  /** The groups `caps` put in front of those of a match, if there is one. */
  function Prepend(m: Option<(nat, seq<string>)>, caps: seq<string>): Option<(nat, seq<string>)> {
    match m
    case None => None
    case Some((q, groups)) => Some((q, caps + groups))
  }

  /** A run of the class, followed by text starting outside the class, is taken whole,
      in front of whatever the rest of the pattern does. */
  lemma RunThen(x: string, y: string, z: string, cls: CharClass, capture: bool, rest: Pattern)
    requires ClassText(y, cls) && |z| >= 1 && !InClass(z[0], cls)
    ensures MatchAt(x + y + z, |x|, [Run(cls, capture)] + rest)
            == Prepend(MatchAt(x + y + z, |x| + |y|, rest), if capture then [y] else [])
  {
    RunSpan(x, y, z, cls);
    RunThenFromSpan(x, y, z, cls, capture, rest);
  }

  /** A run token once the extent of its maximal run is known. */
  lemma RunThenFromSpan(x: string, y: string, z: string, cls: CharClass, capture: bool, rest: Pattern)
    requires |y| >= 1
    requires var line := x + y + z;
             RunEnd(line, |x|, cls) == |x| + |y| && line[|x|..|x| + |y|] == y
    ensures MatchAt(x + y + z, |x|, [Run(cls, capture)] + rest)
            == Prepend(MatchAt(x + y + z, |x| + |y|, rest), if capture then [y] else [])
  {
    MatchAtRun(x + y + z, |x|, |x| + |y|, cls, capture, rest, y);
  }

  /** A run token whose maximal run ends at `e > p` and spans `taken`: the rest from `e`,
      with `taken` in front of its groups when the run captures. */
  lemma MatchAtRun(line: string, p: nat, e: nat, cls: CharClass, capture: bool, rest: Pattern, taken: string)
    requires p < e <= |line| && RunEnd(line, p, cls) == e && line[p..e] == taken
    ensures MatchAt(line, p, [Run(cls, capture)] + rest)
            == Prepend(MatchAt(line, e, rest), if capture then [taken] else [])
  {
    assert ([Run(cls, capture)] + rest)[1..] == rest;
  }

  /** The maximal run from the end of `x` is exactly `y`. */
  lemma RunSpan(x: string, y: string, z: string, cls: CharClass)
    requires ClassText(y, cls) && |z| >= 1 && !InClass(z[0], cls)
    ensures var line := x + y + z;
            RunEnd(line, |x|, cls) == |x| + |y| && line[|x|..|x| + |y|] == y
  {
    var line := x + y + z;
    MiddleInClass(x, y, z, cls);
    assert line[|x| + |y|] == z[0];
    RunEndIs(line, |x|, cls, |x| + |y|);
    OccursBetween(x, y, z);
  }

  lemma MiddleInClass(x: string, y: string, z: string, cls: CharClass)
    requires ClassText(y, cls)
    ensures forall i :: |x| <= i < |x| + |y| ==> InClass((x + y + z)[i], cls)
  {
    forall i | |x| <= i < |x| + |y|
      ensures InClass((x + y + z)[i], cls)
    {
      assert (x + y + z)[i] == y[i - |x|];
    }
  }

  /** rsync's `sent <a> bytes<space>received <b> bytes` line carries `a`. */
  lemma SentLineRecognised(a: string, ws: string, b: string)
    requires ClassText(a, DigitOrComma) && ClassText(ws, Whitespace) && ClassText(b, DigitOrComma)
    ensures Group("sent " + a + " bytes" + ws + "received " + b + " bytes", SentPattern, 0) == Some(a)
  {
    var line := "sent " + a + " bytes" + ws + "received " + b + " bytes";
    LitCountLitSpacesLitCountLit([], "sent ", a, " bytes", ws, "received ", b, " bytes");
    assert [] + "sent " == "sent ";
    MatchAtZero(line, SentPattern);
  }

  /** The whole `sent` pattern after the text `x`. */
  lemma LitCountLitSpacesLitCountLit(x: string, s: string, a: string, t: string, ws: string, u: string, b: string, v: string)
    requires ClassText(a, DigitOrComma) && |t| >= 1 && !InClass(t[0], DigitOrComma)
    requires ClassText(ws, Whitespace) && |u| >= 1 && !IsSpace(u[0])
    requires ClassText(b, DigitOrComma) && |v| >= 1 && !InClass(v[0], DigitOrComma)
    ensures MatchAt(x + s + a + t + ws + u + b + v, |x|,
                    [Lit(s), Run(DigitOrComma, true), Lit(t), Run(Whitespace, false), Lit(u), Run(DigitOrComma, true), Lit(v)])
            == Some((|x + s + a + t + ws + u + b + v|, [a, b]))
  {
    CountLitSpacesLitCountLit(x + s, a, t, ws, u, b, v);
    Assoc6(x + s, a, t, ws, u, b, v);
    LitThen(x, s, a + t + ws + u + b + v,
            [Run(DigitOrComma, true), Lit(t), Run(Whitespace, false), Lit(u), Run(DigitOrComma, true), Lit(v)]);
    ConsOf7(Lit(s), Run(DigitOrComma, true), Lit(t), Run(Whitespace, false), Lit(u), Run(DigitOrComma, true), Lit(v));
  }

  /** A literal, then a rest that matches: the literal is consumed. */
  lemma LitThen(x: string, u: string, y: string, rest: Pattern)
    ensures MatchAt(x + u + y, |x|, [Lit(u)] + rest) == MatchAt(x + u + y, |x| + |u|, rest)
  {
    OccursBetween(x, u, y);
    MatchLit(x + u + y, |x|, u, rest);
  }

  /** A display is its head in front of the display of its tail. */
  lemma ConsOf2<T>(a: T, b: T)
    ensures [a, b] == [a] + [b]
  {
  }

  lemma ConsOf3<T>(a: T, b: T, c: T)
    ensures [a, b, c] == [a] + [b, c]
  {
  }

  lemma ConsOf4<T>(a: T, b: T, c: T, d: T)
    ensures [a, b, c, d] == [a] + [b, c, d]
  {
  }

  lemma ConsOf5<T>(a: T, b: T, c: T, d: T, e: T)
    ensures [a, b, c, d, e] == [a] + [b, c, d, e]
  {
  }

  lemma ConsOf6<T>(a: T, b: T, c: T, d: T, e: T, f: T)
    ensures [a, b, c, d, e, f] == [a] + [b, c, d, e, f]
  {
  }

  lemma ConsOf7<T>(a: T, b: T, c: T, d: T, e: T, f: T, g: T)
    ensures [a, b, c, d, e, f, g] == [a] + [b, c, d, e, f, g]
  {
  }

  /** Regroupings of a concatenation. */
  lemma Assoc(p: string, q: string, r: string)
    ensures p + q + r == p + (q + r)
  {
  }

  lemma Assoc3(p: string, q: string, r: string, w: string)
    ensures p + q + r + w == p + (q + r + w)
  {
  }

  lemma Assoc4(p: string, q: string, r: string, w: string, y: string)
    ensures p + q + r + w + y == p + (q + r + w + y)
  {
  }

  lemma Assoc5(p: string, q: string, r: string, w: string, y: string, z: string)
    ensures p + q + r + w + y + z == p + (q + r + w + y + z)
  {
  }

  lemma Assoc6(p: string, q: string, r: string, w: string, y: string, z: string, o: string)
    ensures p + q + r + w + y + z + o == p + (q + r + w + y + z + o)
  {
  }

  /** A literal that ends the line is matched up to the end. */
  lemma LitAtEnd(y: string, v: string)
    ensures MatchAt(y + v, |y|, [Lit(v)]) == Some((|y + v|, []))
  {
    assert (y + v)[|y|..|y| + |v|] == v;
    LitOnly(y + v, |y|, v);
  }

  /** A count closed by a literal outside the count's class: the count is captured. */
  lemma CountThenLit(x: string, b: string, v: string)
    requires ClassText(b, DigitOrComma) && |v| >= 1 && !InClass(v[0], DigitOrComma)
    ensures MatchAt(x + b + v, |x|, [Run(DigitOrComma, true), Lit(v)]) == Some((|x + b + v|, [b]))
  {
    LitAtEnd(x + b, v);
    RunThen(x, b, v, DigitOrComma, true, [Lit(v)]);
    assert [Run(DigitOrComma, true), Lit(v)] == [Run(DigitOrComma, true)] + [Lit(v)];
    assert [b] + [] == [b];
  }

  /** A literal, a count and a closing literal. */
  lemma LitCountLit(x: string, u: string, b: string, v: string)
    requires ClassText(b, DigitOrComma) && |v| >= 1 && !InClass(v[0], DigitOrComma)
    ensures MatchAt(x + u + b + v, |x|, [Lit(u), Run(DigitOrComma, true), Lit(v)])
            == Some((|x + u + b + v|, [b]))
  {
    CountThenLit(x + u, b, v);
    Assoc(x + u, b, v);
    LitThen(x, u, b + v, [Run(DigitOrComma, true), Lit(v)]);
    ConsOf3(Lit(u), Run(DigitOrComma, true), Lit(v));
  }

  /** Whitespace, then a literal not starting with whitespace, a count and a closing literal. */
  lemma SpacesLitCountLit(x: string, ws: string, u: string, b: string, v: string)
    requires ClassText(ws, Whitespace) && |u| >= 1 && !IsSpace(u[0])
    requires ClassText(b, DigitOrComma) && |v| >= 1 && !InClass(v[0], DigitOrComma)
    ensures MatchAt(x + ws + u + b + v, |x|, [Run(Whitespace, false), Lit(u), Run(DigitOrComma, true), Lit(v)])
            == Some((|x + ws + u + b + v|, [b]))
  {
    LitCountLit(x + ws, u, b, v);
    Assoc3(x + ws, u, b, v);
    assert (u + b + v)[0] == u[0];
    RunThen(x, ws, u + b + v, Whitespace, false, [Lit(u), Run(DigitOrComma, true), Lit(v)]);
    ConsOf4(Run(Whitespace, false), Lit(u), Run(DigitOrComma, true), Lit(v));
    assert [] + [b] == [b];
  }

  /** A literal, whitespace, a literal, a count and a closing literal. */
  lemma LitSpacesLitCountLit(x: string, t: string, ws: string, u: string, b: string, v: string)
    requires ClassText(ws, Whitespace) && |u| >= 1 && !IsSpace(u[0])
    requires ClassText(b, DigitOrComma) && |v| >= 1 && !InClass(v[0], DigitOrComma)
    ensures MatchAt(x + t + ws + u + b + v, |x|,
                    [Lit(t), Run(Whitespace, false), Lit(u), Run(DigitOrComma, true), Lit(v)])
            == Some((|x + t + ws + u + b + v|, [b]))
  {
    SpacesLitCountLit(x + t, ws, u, b, v);
    Assoc4(x + t, ws, u, b, v);
    LitThen(x, t, ws + u + b + v, [Run(Whitespace, false), Lit(u), Run(DigitOrComma, true), Lit(v)]);
    ConsOf5(Lit(t), Run(Whitespace, false), Lit(u), Run(DigitOrComma, true), Lit(v));
  }

  /** Two counts, each closed by a literal, with whitespace and a literal between them: both
      counts are captured. */
  lemma CountLitSpacesLitCountLit(x: string, a: string, t: string, ws: string, u: string, b: string, v: string)
    requires ClassText(a, DigitOrComma) && |t| >= 1 && !InClass(t[0], DigitOrComma)
    requires ClassText(ws, Whitespace) && |u| >= 1 && !IsSpace(u[0])
    requires ClassText(b, DigitOrComma) && |v| >= 1 && !InClass(v[0], DigitOrComma)
    ensures MatchAt(x + a + t + ws + u + b + v, |x|,
                    [Run(DigitOrComma, true), Lit(t), Run(Whitespace, false), Lit(u), Run(DigitOrComma, true), Lit(v)])
            == Some((|x + a + t + ws + u + b + v|, [a, b]))
  {
    var rest: Pattern := [Lit(t), Run(Whitespace, false), Lit(u), Run(DigitOrComma, true), Lit(v)];
    LitSpacesLitCountLit(x + a, t, ws, u, b, v);
    Assoc5(x + a, t, ws, u, b, v);
    assert (t + ws + u + b + v)[0] == t[0];
    RunThen(x, a, t + ws + u + b + v, DigitOrComma, true, rest);
    ConsOf6(Run(DigitOrComma, true), Lit(t), Run(Whitespace, false), Lit(u), Run(DigitOrComma, true), Lit(v));
    assert [a] + [b] == [a, b];
  }

  /** rsync's `total size is <a><space>speedup is` line carries `a`. */
  lemma TotalLineRecognised(a: string, ws: string, tail: string)
    requires ClassText(a, DigitOrComma) && ClassText(ws, Whitespace)
    ensures Group("total size is " + a + ws + "speedup is" + tail, TotalPattern, 0) == Some(a)
  {
    var line := "total size is " + a + ws + "speedup is" + tail;
    LitCountSpacesLit([], "total size is ", a, ws, "speedup is", tail);
    assert [] + "total size is " == "total size is ";
    MatchAtZero(line, TotalPattern);
  }

  /** The whole `total size` pattern after the text `x`. */
  lemma LitCountSpacesLit(x: string, s: string, a: string, ws: string, v: string, tail: string)
    requires ClassText(a, DigitOrComma) && ClassText(ws, Whitespace) && |v| >= 1 && !IsSpace(v[0])
    ensures MatchAt(x + s + a + ws + v + tail, |x|, [Lit(s), Run(DigitOrComma, true), Run(Whitespace, false), Lit(v)])
            == Some((|x + s + a + ws + v|, [a]))
  {
    CountSpacesLit(x + s, a, ws, v, tail);
    Assoc4(x + s, a, ws, v, tail);
    LitThen(x, s, a + ws + v + tail, [Run(DigitOrComma, true), Run(Whitespace, false), Lit(v)]);
    ConsOf4(Lit(s), Run(DigitOrComma, true), Run(Whitespace, false), Lit(v));
  }

  /** A count, whitespace and a literal not starting with whitespace: the count is captured
      and the match ends after the literal. */
  lemma CountSpacesLit(x: string, a: string, ws: string, v: string, tail: string)
    requires ClassText(a, DigitOrComma) && ClassText(ws, Whitespace) && |v| >= 1 && !IsSpace(v[0])
    ensures MatchAt(x + a + ws + v + tail, |x|, [Run(DigitOrComma, true), Run(Whitespace, false), Lit(v)])
            == Some((|x + a + ws + v|, [a]))
  {
    SpacesThenLit(x + a, ws, v, tail);
    Assoc3(x + a, ws, v, tail);
    assert (ws + v + tail)[0] == ws[0];
    RunThen(x, a, ws + v + tail, DigitOrComma, true, [Run(Whitespace, false), Lit(v)]);
    ConsOf3(Run(DigitOrComma, true), Run(Whitespace, false), Lit(v));
    assert [a] + [] == [a];
  }

  /** Whitespace then a literal not starting with whitespace: the match ends after the
      literal and captures nothing. */
  lemma SpacesThenLit(x: string, ws: string, v: string, tail: string)
    requires ClassText(ws, Whitespace) && |v| >= 1 && !IsSpace(v[0])
    ensures MatchAt(x + ws + v + tail, |x|, [Run(Whitespace, false), Lit(v)]) == Some((|x + ws + v|, []))
  {
    LitBefore(x + ws, v, tail);
    Assoc(x + ws, v, tail);
    assert (v + tail)[0] == v[0];
    RunThen(x, ws, v + tail, Whitespace, false, [Lit(v)]);
    ConsOf2(Run(Whitespace, false), Lit(v));
  }

  /** A literal followed by any text is matched up to its end. */
  lemma LitBefore(y: string, v: string, tail: string)
    ensures MatchAt(y + v + tail, |y|, [Lit(v)]) == Some((|y + v|, []))
  {
    assert (y + v + tail)[|y|..|y| + |v|] == v;
    LitOnly(y + v + tail, |y|, v);
  }
}

=== FILE: reconciler.dfy ===
/** The two drivers of log reconciliation. `parse_full_log` runs at startup: it imports the
    tracking file and enriches from the stats extract left by an earlier extraction.
    `parse_incremental` runs on every poll: it imports the tracking file and, only when that
    added rows, extracts the marker lines afresh and enriches from them.

    The filesystem is a map from path to file content; the extraction subprocess is an
    oracle: the content it wrote, or `None` when it failed. */
module Reconcile {
  import opened Wrappers
  import opened Text
  import opened Calendar
  import opened BackupModel
  import opened RecordStore
  import opened TrackingImport
  import opened StatsScan
  import opened Enrich

  type Files = map<string, string>

  const LogName := "plex-backup.log"
  const TrackingName := "plex-backup-tracking.log"

  /** The default `backup_log_path`, `/var/log/plex-backup.log`. */
  const DefaultLogDir := "/var/log/"
  const DefaultLogPath := DefaultLogDir + LogName

  /** `Path(p).read_text()` guarded by `exists()`: `None` for a missing file. */
  function Read(files: Files, path: string): (r: Option<string>)
    ensures r.Some? <==> path in files
    ensures r.Some? ==> r.value == files[path]
  {
    if path in files then Some(files[path]) else None
  }

  /** The tracking file's path: every `plex-backup.log` in the log path becomes
      `plex-backup-tracking.log`. A log path without that name is its own tracking path. */
  function TrackingPath(logPath: string): (r: string)
    ensures !Contains(logPath, LogName) ==> r == logPath
  {
    ReplaceAll(logPath, LogName, TrackingName)
  }

  /** How a driver ends: it returns the import count, or it propagates the `ValueError` of
      enrichment. The store is what is committed either way: on an error only the import's
      own commit has happened. */
  datatype DriverOutcome = Returned(count: nat, store: Store) | Aborted(store: Store)

  /** Enrichment after an import, with the error path. */
  function EnrichAfter(imported: (nat, Store), formats: seq<Parser>, stats: Option<string>): (r: DriverOutcome)
    ensures r.Returned? <==> EnrichFromStats(imported.1, formats, stats).Enriched?
    ensures r.Returned? ==> r.count == imported.0 && r.store == EnrichFromStats(imported.1, formats, stats).store
    ensures r.Aborted? ==> r.store == imported.1
  {
    match EnrichFromStats(imported.1, formats, stats)
    case Raised => Aborted(imported.1)
    case Enriched(_, s) => Returned(imported.0, s)
  }

  /** `parse_full_log`: import, then always enrich from the stats file at `statsPath`;
      nothing is extracted. */
  function ParseFullLog(store: Store, formats: seq<Parser>, files: Files, logPath: string, statsPath: string)
    : (r: DriverOutcome)
    ensures var imported := ImportFromTrackingFile(store, Read(files, TrackingPath(logPath)));
            && (r.Returned? <==> EnrichFromStats(imported.1, formats, Read(files, statsPath)).Enriched?)
            && (r.Returned? ==> r.count == imported.0 && Grows(imported.1, r.store))
            && (r.Aborted? ==> r.store == imported.1)
            && |r.store| == |store| + imported.0
  {
    var imported := ImportFromTrackingFile(store, Read(files, TrackingPath(logPath)));
    EnrichAfter(imported, formats, Read(files, statsPath))
  }

  /** `parse_incremental`: import, and only when rows were added run the extraction
      (`extracted`) and enrich from what it wrote. */
  function ParseIncremental(store: Store, formats: seq<Parser>, files: Files, logPath: string, extracted: Option<string>)
    : (r: DriverOutcome)
    ensures var imported := ImportFromTrackingFile(store, Read(files, TrackingPath(logPath)));
            && (imported.0 == 0 ==> r == Returned(0, store))
            && (imported.0 > 0 && extracted.None? ==> r == Returned(imported.0, imported.1))
            && (imported.0 > 0 && extracted.Some? ==> r == EnrichAfter(imported, formats, extracted))
  {
    var imported := ImportFromTrackingFile(store, Read(files, TrackingPath(logPath)));
    if imported.0 == 0 then Returned(0, store)
    else if extracted.None? then Returned(imported.0, imported.1)
    else EnrichAfter(imported, formats, extracted)
  }

  // ---------------------------------------------------------------------------------
  // Properties
  // ---------------------------------------------------------------------------------

  /** Whatever the driver, a normal return reports exactly the number of rows the import
      added, and the committed store keeps every row that was there before. */
  lemma DriversReportImportCount(store: Store, formats: seq<Parser>, files: Files, logPath: string,
                                 statsPath: string, extracted: Option<string>)
    ensures var imported := ImportFromTrackingFile(store, Read(files, TrackingPath(logPath)));
            var full := ParseFullLog(store, formats, files, logPath, statsPath);
            var poll := ParseIncremental(store, formats, files, logPath, extracted);
            && (full.Returned? ==> full.count == imported.0 && Grows(imported.1, full.store))
            && (poll.Returned? ==> poll.count == imported.0 && Grows(imported.1, poll.store))
            && |full.store| == |store| + imported.0 && |poll.store| == |store| + imported.0
  {
    var imported := ImportFromTrackingFile(store, Read(files, TrackingPath(logPath)));
    var e := EnrichFromStats(imported.1, formats, Read(files, statsPath));
    GrowsReflexive(imported.1);
    if extracted.Some? {
      var e' := EnrichFromStats(imported.1, formats, extracted);
    }
  }

  /** A poll that imports nothing neither extracts nor enriches: its result does not depend
      on what an extraction would have produced, and the store is left as it was. */
  lemma QuietPollSkipsExtraction(store: Store, formats: seq<Parser>, files: Files, logPath: string,
                                 x: Option<string>, y: Option<string>)
    requires ImportFromTrackingFile(store, Read(files, TrackingPath(logPath))).0 == 0
    ensures ParseIncremental(store, formats, files, logPath, x) == ParseIncremental(store, formats, files, logPath, y)
    ensures ParseIncremental(store, formats, files, logPath, x) == Returned(0, store)
  {
  }

  /** Enrichment leaves every row's type and start alone, so rows the import stored stay
      found by the importer's lookup. */
  lemma CoveredAfterGrowth(a: Store, b: Store, entries: seq<Option<Entry>>)
    requires Covered(a, entries) && Grows(a, b)
    ensures Covered(b, entries)
  {
    forall i | 0 <= i < |entries| && entries[i].Some?
      ensures HasRun(b, DailyMirror, entries[i].value.startedAt)
    {
      var t := entries[i].value.startedAt;
      var k :| 0 <= k < |a| && a[k].backupType == DailyMirror && a[k].startedAt == t;
      assert b[k].backupType == a[k].backupType && b[k].startedAt == a[k].startedAt;
    }
  }

  /** Once the startup import has run, a later poll over the same tracking file adds nothing,
      reports 0 and never extracts, whether startup enrichment succeeded or failed. */
  lemma PollAfterStartupIsQuiet(store: Store, formats: seq<Parser>, files: Files, logPath: string,
                                statsPath: string, extracted: Option<string>)
    ensures var after := ParseFullLog(store, formats, files, logPath, statsPath).store;
            ParseIncremental(after, formats, files, logPath, extracted) == Returned(0, after)
  {
    var file := Read(files, TrackingPath(logPath));
    var imported := ImportFromTrackingFile(store, file);
    var after := ParseFullLog(store, formats, files, logPath, statsPath).store;
    DriversReportImportCount(store, formats, files, logPath, statsPath, extracted);
    if file.Some? {
      var entries := ParseLines(FileLines(file.value));
      ImportCovers(store, entries);
      assert Grows(imported.1, after) by {
        if ParseFullLog(store, formats, files, logPath, statsPath).Aborted? {
          GrowsReflexive(imported.1);
        }
      }
      CoveredAfterGrowth(imported.1, after, entries);
      ImportWhenCovered(after, entries);
      assert ImportFromTrackingFile(after, file).0 == 0;
    }
  }

  /** `plex-backup.log` ends in its only `g`. An occurrence starting inside `dir` lies either
      wholly in `dir`, which has none, or runs into the file name; then its final `g` falls
      on one of the name's first fourteen characters, none of which is a `g`. */
  lemma LogNameOnlyAtEnd(dir: string, j: int)
    requires !Contains(dir, LogName) && 0 <= j < |dir|
    ensures !OccursAt(dir + LogName, LogName, j)
  {
    var s := dir + LogName;
    if j + |LogName| <= |dir| {
      ContainsIff(dir, LogName);
      assert !OccursAt(dir, LogName, j);
      assert s[j..j + |LogName|] == dir[j..j + |LogName|];
    } else if j + |LogName| <= |s| {
      var k := j + 14 - |dir|;
      assert s[j + 14] == LogName[k];
      assert 'g' !in LogName[..14] && LogName[k] == LogName[..14][k];
      assert s[j..j + |LogName|][14] == s[j + 14];
    }
  }

  /** A log file named `plex-backup.log` in a directory whose path does not itself contain
      that name has its tracking file next to it, named `plex-backup-tracking.log`. */
  lemma TrackingPathInDirectory(dir: string)
    requires !Contains(dir, LogName)
    ensures TrackingPath(dir + LogName) == dir + TrackingName
  {
    var s := dir + LogName;
    assert OccursAt(s, LogName, |dir|) by { assert s[|dir|..] == LogName; }
    forall j | 0 <= j < |dir| ensures !OccursAt(s, LogName, j) {
      LogNameOnlyAtEnd(dir, j);
    }
    var f := Find(s, LogName);
    assert f == Some(|dir|);
    assert s[..|dir|] == dir;
    assert s[|dir| + |LogName|..] == [];
    assert ReplaceAll([], LogName, TrackingName) == [];
  }

  /** With the default log path the tracking file is `/var/log/plex-backup-tracking.log`. */
  lemma DefaultTrackingPath()
    ensures TrackingPath(DefaultLogPath) == DefaultLogDir + TrackingName
  {
    MissingCharNoOccurrence(DefaultLogDir, LogName, 'x');
    TrackingPathInDirectory(DefaultLogDir);
  }

  /** A directory whose own path contains an `x`, such as `/var/log/plex/`, still has its
      tracking file next to the log. */
  lemma PlexDirectoryTrackingPath()
    ensures TrackingPath("/var/log/plex/" + LogName) == "/var/log/plex/" + TrackingName
  {
    MissingCharNoOccurrence("/var/log/plex/", LogName, 'b');
    TrackingPathInDirectory("/var/log/plex/");
  }
}

=== FILE: record_store.dfy ===
/** The `backup_runs` table as the services see it: an ordered sequence of rows. A query's
    `.first()` is the earliest matching row in that order, and a stored row gets the next
    row id (one more than the largest id present). */
module RecordStore {
  import opened Wrappers
  import opened Calendar
  import opened BackupModel

  type Store = seq<BackupRun>

  /** The id the next stored row receives. */
  function NextId(store: Store): (id: nat)
    ensures forall i :: 0 <= i < |store| ==> store[i].id < id
    ensures id >= 1
  {
    if |store| == 0 then 1
    else
      var rest := NextId(store[..|store| - 1]);
      var last := store[|store| - 1].id;
      assert forall i :: 0 <= i < |store| - 1 ==> store[i] == store[..|store| - 1][i];
      if last < rest then rest else last + 1
  }

  /** `db.add(run)` followed by a flush: the row is appended with a fresh id. */
  function Add(store: Store, run: BackupRun): (r: Store)
    ensures |r| == |store| + 1 && r[..|store|] == store
    ensures r[|store|] == run.(id := NextId(store))
    ensures forall i :: 0 <= i < |store| ==> r[|store|].id != store[i].id
  {
    store + [run.(id := NextId(store))]
  }

  /** Rows added one after another, in order. */
  function AddAll(store: Store, runs: seq<BackupRun>): (r: Store)
    decreases |runs|
    ensures |r| == |store| + |runs| && r[..|store|] == store
    ensures forall k :: 0 <= k < |runs| ==> r[|store| + k] == runs[k].(id := r[|store| + k].id)
  {
    if |runs| == 0 then store
    else
      var r := AddAll(Add(store, runs[0]), runs[1..]);
      assert r[..|store|] == r[..|store| + 1][..|store|];
      forall k | 1 <= k < |runs|
        ensures r[|store| + k] == runs[k].(id := r[|store| + k].id)
      {
        assert runs[1..][k - 1] == runs[k];
      }
      r
  }

  /** Index of the first row satisfying `p` (`query.filter(p).first()`). */
  function FindFirst(store: Store, p: BackupRun -> bool): (r: Option<nat>)
    ensures r.None? <==> forall i :: 0 <= i < |store| ==> !p(store[i])
    ensures r.Some? ==> r.value < |store| && p(store[r.value])
    ensures r.Some? ==> forall i :: 0 <= i < r.value ==> !p(store[i])
  {
    if |store| == 0 then None
    else if p(store[0]) then Some(0)
    else
      match FindFirst(store[1..], p)
      case None => None
      case Some(j) => Some(j + 1)
  }

  /** A row of type `ty` starting at `t` exists: the importer's duplicate test. */
  predicate HasRun(store: Store, ty: BackupType, t: Instant) {
    exists i :: 0 <= i < |store| && store[i].backupType == ty && store[i].startedAt == t
  }

  /** The importer's lookup `filter(started_at == t, backup_type == ty).first()` finds a row
      exactly when such a row exists. */
  function FindRun(store: Store, ty: BackupType, t: Instant): (r: Option<nat>)
    ensures r.Some? <==> HasRun(store, ty, t)
    ensures r.Some? ==> r.value < |store| && store[r.value].backupType == ty && store[r.value].startedAt == t
  {
    FindFirst(store, (run: BackupRun) => run.backupType == ty && run.startedAt == t)
  }

  /** `query.filter(p).order_by(started_at.desc()).first()`: a row satisfying `p` with the
      latest start. The database leaves the order among equal starts open; the model takes
      the first such row in order. */
  function LatestWhere(store: Store, p: BackupRun -> bool): (r: Option<nat>)
    ensures r.None? <==> forall i :: 0 <= i < |store| ==> !p(store[i])
    ensures r.Some? ==> r.value < |store| && p(store[r.value])
    ensures r.Some? ==> forall i :: 0 <= i < |store| && p(store[i]) ==> store[i].startedAt <= store[r.value].startedAt
    ensures r.Some? ==> forall i :: 0 <= i < r.value && p(store[i]) ==> store[i].startedAt < store[r.value].startedAt
  {
    if |store| == 0 then None
    else
      var front := store[..|store| - 1];
      var last := store[|store| - 1];
      assert forall i :: 0 <= i < |store| - 1 ==> store[i] == front[i];
      match LatestWhere(front, p)
      case None => if p(last) then Some(|store| - 1) else None
      case Some(j) => if p(last) && last.startedAt > front[j].startedAt then Some(|store| - 1) else Some(j)
  }

  /** Row `i` replaced by `run`; every other row stays. */
  function Put(store: Store, i: nat, run: BackupRun): (r: Store)
    requires i < |store|
    ensures |r| == |store| && r[i] == run
    ensures forall j :: 0 <= j < |store| && j != i ==> r[j] == store[j]
  {
    store[i := run]
  }

  /** Adding rows keeps every row already there findable. */
  lemma HasRunAfterAddAll(store: Store, runs: seq<BackupRun>, ty: BackupType, t: Instant)
    requires HasRun(store, ty, t)
    ensures HasRun(AddAll(store, runs), ty, t)
  {
    var i :| 0 <= i < |store| && store[i].backupType == ty && store[i].startedAt == t;
    var r := AddAll(store, runs);
    assert r[i] == r[..|store|][i];
  }

  /** An added row is findable by its type and start afterwards. */
  lemma HasRunOfAdded(store: Store, runs: seq<BackupRun>, k: nat)
    requires k < |runs|
    ensures HasRun(AddAll(store, runs), runs[k].backupType, runs[k].startedAt)
  {
    var r := AddAll(store, runs);
    assert r[|store| + k].backupType == runs[k].backupType;
  }
}

=== FILE: stats_scan.dfy ===
/** The first half of `enrich_from_stats`: one pass over the extract's lines that keeps
    at most one open entry (`current`) and emits an entry at every success or failure
    marker. */
module StatsScan {
  import opened Wrappers
  import opened Text
  import opened Decimal
  import opened Calendar
  import opened BackupModel
  import opened Markers

  /** The open entry: the start time (absent when the start marker's date text parsed
      under no format) and the last sent and total counts read since. */
  datatype Acc = Acc(start: Option<Instant>, sent: Option<int>, total: Option<int>)

  /** The entry a closing marker emits. One emitted from an empty dictionary (a failure
      marker on the line that already closed an entry) has no start. */
  datatype StatsEntry = StatsEntry(
    start: Option<Instant>,
    sent: Option<int>,
    total: Option<int>,
    end: Option<Instant>,
    status: Status)

  /** The scan's state: the open entry (`None` is the empty dictionary) and what has been
      emitted so far. */
  datatype ScanState = ScanState(current: Option<Acc>, entries: seq<StatsEntry>)

  const Empty: Acc := Acc(None, None, None)

  /** A count marker's effect on the value kept so far: kept without a marker, replaced by
      `_parse_comma_int` of the text with one, and `None` when `int()` raises. */
  function Count(text: Option<string>, kept: Option<int>): (r: Option<Option<int>>)
    ensures text.None? ==> r == Some(kept)
    ensures text.Some? ==> (r.None? <==> ParseCommaInt(text.value).None?)
    ensures text.Some? && r.Some? ==> r.value == ParseCommaInt(text.value)
  {
    match text
    case None => Some(kept)
    case Some(t) =>
      match ParseCommaInt(t)
      case None => None
      case Some(n) => Some(Some(n))
  }

  function Close(acc: Acc, end: Option<Instant>, status: Status): StatsEntry {
    StatsEntry(acc.start, acc.sent, acc.total, end, status)
  }

  /** One line. A start marker opens a fresh entry, discarding any open one, whether or
      not its date parsed; without an open entry every other marker is ignored; otherwise
      the counts are read, then a success marker and then a failure marker each emit the
      dictionary as it stands and empty it. `None` when a count does not parse. */
  function Step(formats: seq<Parser>, current: Option<Acc>, m: Marks): (r: Option<(Option<Acc>, seq<StatsEntry>)>)
    ensures m.start.Some? ==> r == Some((Some(Acc(ParseDate(formats, m.start.value), None, None)), []))
    ensures m.start.None? && current.None? ==> r == Some((None, []))
    ensures r.Some? ==> |r.value.1| <= 2
    ensures m.start.None? && r.Some? && (m.success.Some? || m.failed.Some?) ==> r.value.0.None?
  {
    if m.start.Some? then Some((Some(Acc(ParseDate(formats, m.start.value), None, None)), []))
    else if current.None? then Some((None, []))
    else
      var acc := current.value;
      match Count(m.sent, acc.sent)
      case None => None
      case Some(sent) =>
        match Count(m.total, acc.total)
        case None => None
        case Some(total) =>
          var open := Acc(acc.start, sent, total);
          var afterSuccess: Option<Acc> := if m.success.Some? then None else Some(open);
          var emitted := if m.success.Some? then [Close(open, ParseDate(formats, m.success.value), Success)] else [];
          if m.failed.Some? then
            var dict := if afterSuccess.Some? then afterSuccess.value else Empty;
            Some((None, emitted + [Close(dict, ParseDate(formats, m.failed.value), Failure)]))
          else Some((afterSuccess, emitted))
  }

  /** What one line does to the scan's state. */
  type Stepper = (Option<Acc>, Marks) -> Option<(Option<Acc>, seq<StatsEntry>)>

  /** The lines from state `current` on, one `step` each: the final state, or `None` once
      a step fails. */
  function RunWith(step: Stepper, current: Option<Acc>, lines: seq<Marks>): (r: Option<ScanState>)
    decreases |lines|
  {
    if |lines| == 0 then Some(ScanState(current, []))
    else
      match step(current, lines[0])
      case None => None
      case Some((next, emitted)) =>
        match RunWith(step, next, lines[1..])
        case None => None
        case Some(rest) => Some(ScanState(rest.current, emitted + rest.entries))
  }

  /** A scan that continues `first` over `b`. */
  function Continue(step: Stepper, first: Option<ScanState>, b: seq<Marks>): Option<ScanState> {
    match first
    case None => None
    case Some(f) =>
      match RunWith(step, f.current, b)
      case None => None
      case Some(second) => Some(ScanState(second.current, f.entries + second.entries))
  }

  function StepOf(formats: seq<Parser>): Stepper {
    (c: Option<Acc>, m: Marks) => Step(formats, c, m)
  }

  /** The scan of the log's extract: `Step` on every line. */
  function Run(formats: seq<Parser>, current: Option<Acc>, lines: seq<Marks>): Option<ScanState> {
    RunWith(StepOf(formats), current, lines)
  }

  /** The entries of the extract `text`: its lines, each classified by the five markers,
      scanned from the empty dictionary. An entry still open at the end is dropped. */
  function ScanText(formats: seq<Parser>, text: string): (r: Option<seq<StatsEntry>>)
    ensures r.Some? ==> |r.value| <= 2 * |SplitLines(text)|
    ensures (forall i :: 0 <= i < |SplitLines(text)| ==> !Contains(SplitLines(text)[i], StartPrefix)) ==> r == Some([])
  {
    var lines := SplitLines(text);
    var marks := seq(|lines|, i requires 0 <= i < |lines| => Classify(lines[i]));
    RunEmitsAtMostTwoPerLine(formats, None, marks);
    UnstartedSkipped(formats, marks);
    match Run(formats, None, marks)
    case None => None
    case Some(st) => Some(st.entries)
  }

  /** Every line emits at most two entries. */
  lemma {:induction false} RunEmitsAtMostTwoPerLine(formats: seq<Parser>, current: Option<Acc>, lines: seq<Marks>)
    decreases |lines|
    ensures Run(formats, current, lines).Some? ==> |Run(formats, current, lines).value.entries| <= 2 * |lines|
  {
    if |lines| > 0 {
      StepOfIs(formats, current, lines[0]);
      match Step(formats, current, lines[0])
      case None =>
      case Some((next, emitted)) =>
        RunEmitsAtMostTwoPerLine(formats, next, lines[1..]);
    }
  }

  /** Lines none of which opens an entry are skipped from the empty dictionary. */
  lemma UnstartedSkipped(formats: seq<Parser>, lines: seq<Marks>)
    ensures (forall i :: 0 <= i < |lines| ==> NoStart(lines[i])) ==> Run(formats, None, lines) == Some(ScanState(None, []))
  {
    if forall i :: 0 <= i < |lines| ==> NoStart(lines[i]) {
      ClosedSkips(formats, lines);
    }
  }

  // ---------------------------------------------------------------------------------
  // Properties of the scan
  // ---------------------------------------------------------------------------------

  /** Scanning two stretches of lines is scanning the first, then the second from where
      the first left off. */
  lemma {:induction false} RunAppend(step: Stepper, current: Option<Acc>, a: seq<Marks>, b: seq<Marks>)
    decreases |a|
    ensures RunWith(step, current, a + b) == Continue(step, RunWith(step, current, a), b)
  {
    if |a| == 0 {
      assert a + b == b;
      match RunWith(step, current, b)
      case None =>
      case Some(second) =>
        assert [] + second.entries == second.entries;
    } else {
      assert (a + b)[0] == a[0];
      assert (a + b)[1..] == a[1..] + b;
      match step(current, a[0])
      case None =>
      case Some((next, emitted)) =>
        RunAppend(step, next, a[1..], b);
        match RunWith(step, next, a[1..])
        case None =>
        case Some(first) =>
          match RunWith(step, first.current, b)
          case None =>
          case Some(second) =>
            assert emitted + (first.entries + second.entries) == (emitted + first.entries) + second.entries;
    }
  }

  /** One line, then the rest. */
  lemma RunCons(step: Stepper, current: Option<Acc>, lines: seq<Marks>, next: Option<Acc>, emitted: seq<StatsEntry>)
    requires |lines| > 0 && step(current, lines[0]) == Some((next, emitted))
    ensures RunWith(step, current, lines) == Continue(step, Some(ScanState(next, emitted)), lines[1..])
  {
  }

  /** A single line. */
  lemma RunOne(step: Stepper, current: Option<Acc>, m: Marks, next: Option<Acc>, emitted: seq<StatsEntry>)
    requires step(current, m) == Some((next, emitted))
    ensures RunWith(step, current, [m]) == Some(ScanState(next, emitted))
  {
    assert [m][1..] == [];
    assert emitted + [] == emitted;
  }

  /** A line without a start marker. */
  predicate NoStart(m: Marks) {
    m.start.None?
  }

  /** With no entry open, lines without a start marker are skipped whatever else they
      carry, counts that would not parse included. */
  lemma {:induction false} ClosedSkips(formats: seq<Parser>, lines: seq<Marks>)
    requires forall i :: 0 <= i < |lines| ==> NoStart(lines[i])
    decreases |lines|
    ensures Run(formats, None, lines) == Some(ScanState(None, []))
  {
    if |lines| > 0 {
      assert NoStart(lines[0]);
      assert StepOf(formats)(None, lines[0]) == Some((None, []));
      RunCons(StepOf(formats), None, lines, None, []);
      ClosedSkips(formats, lines[1..]);
      var none: seq<StatsEntry> := [];
      assert none + none == none;
    }
  }

  /** A line carrying only counts, if anything. */
  predicate CountsOnly(m: Marks) {
    m.start.None? && m.success.None? && m.failed.None?
  }

  /** Every count marker in the lines parses. */
  predicate CountsParse(lines: seq<Marks>) {
    forall i :: 0 <= i < |lines| ==>
      (lines[i].sent.Some? ==> ParseCommaInt(lines[i].sent.value).Some?)
      && (lines[i].total.Some? ==> ParseCommaInt(lines[i].total.value).Some?)
  }

  /** The last present text in a sequence. */
  function LastOf(xs: seq<Option<string>>): (r: Option<string>)
    ensures r.None? <==> forall i :: 0 <= i < |xs| ==> xs[i].None?
    ensures r.Some? ==> exists i :: 0 <= i < |xs| && xs[i] == r && forall j :: i < j < |xs| ==> xs[j].None?
  {
    if |xs| == 0 then None
    else
      var rest := LastOf(xs[1..]);
      if rest.Some? then
        ghost var i :| 0 <= i < |xs[1..]| && xs[1..][i] == rest && forall j :: i < j < |xs[1..]| ==> xs[1..][j].None?;
        assert xs[i + 1] == rest && forall j :: i + 1 < j < |xs| ==> xs[j] == xs[1..][j - 1];
        rest
      else
        assert forall j :: 0 < j < |xs| ==> xs[j] == xs[1..][j - 1];
        xs[0]
  }

  /** The value a count field holds after the lines: the last count marker among them,
      parsed, or what it held before when there is none. */
  function Latest(kept: Option<int>, xs: seq<Option<string>>): Option<int> {
    match LastOf(xs)
    case None => kept
    case Some(t) => ParseCommaInt(t)
  }

  function Sents(lines: seq<Marks>): seq<Option<string>> {
    seq(|lines|, i requires 0 <= i < |lines| => lines[i].sent)
  }

  function Totals(lines: seq<Marks>): seq<Option<string>> {
    seq(|lines|, i requires 0 <= i < |lines| => lines[i].total)
  }

  /** A count field after one marker-or-not, then the rest. */
  lemma LatestCons(kept: Option<int>, xs: seq<Option<string>>)
    requires |xs| > 0
    ensures Latest(kept, xs) == Latest(if xs[0].Some? then ParseCommaInt(xs[0].value) else kept, xs[1..])
  {
  }

  /** The count field a line leaves behind. */
  function After(text: Option<string>, kept: Option<int>): Option<int> {
    if text.Some? then ParseCommaInt(text.value) else kept
  }

  /** The scan's stepper applies `Step`. */
  lemma StepOfIs(formats: seq<Parser>, c: Option<Acc>, m: Marks)
    ensures StepOf(formats)(c, m) == Step(formats, c, m)
  {
  }

  /** A count-only line whose counts parse replaces each count it carries. */
  lemma StepCounts(formats: seq<Parser>, acc: Acc, m: Marks)
    requires CountsOnly(m)
    requires m.sent.Some? ==> ParseCommaInt(m.sent.value).Some?
    requires m.total.Some? ==> ParseCommaInt(m.total.value).Some?
    ensures Step(formats, Some(acc), m) == Some((Some(Acc(acc.start, After(m.sent, acc.sent), After(m.total, acc.total))), []))
  {
    assert Count(m.sent, acc.sent) == Some(After(m.sent, acc.sent));
    assert Count(m.total, acc.total) == Some(After(m.total, acc.total));
  }

  /** Inside an open entry, lines carrying only counts emit nothing and leave each count
      at the last value given for it (a Sunday's second rsync run overrides the first). */
  lemma {:induction false} CountsKeepLast(formats: seq<Parser>, acc: Acc, lines: seq<Marks>)
    requires forall i :: 0 <= i < |lines| ==> CountsOnly(lines[i])
    requires CountsParse(lines)
    decreases |lines|
    ensures Run(formats, Some(acc), lines)
         == Some(ScanState(Some(Acc(acc.start, Latest(acc.sent, Sents(lines)), Latest(acc.total, Totals(lines)))), []))
  {
    if |lines| > 0 {
      var m := lines[0];
      var next := Acc(acc.start, After(m.sent, acc.sent), After(m.total, acc.total));
      StepCounts(formats, acc, m);
      StepOfIs(formats, Some(acc), m);
      RunCons(StepOf(formats), Some(acc), lines, Some(next), []);
      CountsTail(lines);
      CountsKeepLast(formats, next, lines[1..]);
      var none: seq<StatsEntry> := [];
      assert none + none == none;
      LatestCons(acc.sent, Sents(lines));
      LatestCons(acc.total, Totals(lines));
    }
  }

  /** The tail of count-only, parsing lines is count-only and parses, and its counts are
      the tail of the counts. */
  lemma CountsTail(lines: seq<Marks>)
    requires |lines| > 0
    requires forall i :: 0 <= i < |lines| ==> CountsOnly(lines[i])
    requires CountsParse(lines)
    ensures forall i :: 0 <= i < |lines| - 1 ==> CountsOnly(lines[1..][i])
    ensures CountsParse(lines[1..])
    ensures Sents(lines)[1..] == Sents(lines[1..]) && Totals(lines)[1..] == Totals(lines[1..])
  {
    TailIndex(lines);
    CountsParseTail(lines);
    SentsTail(lines);
  }

  lemma TailIndex(lines: seq<Marks>)
    requires |lines| > 0
    ensures forall i :: 0 <= i < |lines| - 1 ==> lines[1..][i] == lines[i + 1]
  {
  }

  lemma CountsParseTail(lines: seq<Marks>)
    requires |lines| > 0 && CountsParse(lines)
    ensures CountsParse(lines[1..])
  {
    forall i | 0 <= i < |lines| - 1
      ensures (lines[1..][i].sent.Some? ==> ParseCommaInt(lines[1..][i].sent.value).Some?)
              && (lines[1..][i].total.Some? ==> ParseCommaInt(lines[1..][i].total.value).Some?)
    {
      assert lines[1..][i] == lines[i + 1];
    }
  }

  lemma SentsTail(lines: seq<Marks>)
    requires |lines| > 0
    ensures Sents(lines)[1..] == Sents(lines[1..]) && Totals(lines)[1..] == Totals(lines[1..])
  {
  }

  /** A run that opens an entry, keeps it open over `middle` emitting nothing, and closes
      it with one entry emits exactly that entry. */
  lemma BlockWith(step: Stepper, current: Option<Acc>, opening: Marks, middle: seq<Marks>, closing: Marks,
                  acc: Acc, acc2: Acc, entry: StatsEntry)
    requires step(current, opening) == Some((Some(acc), []))
    requires RunWith(step, Some(acc), middle) == Some(ScanState(Some(acc2), []))
    requires step(Some(acc2), closing) == Some((None, [entry]))
    ensures RunWith(step, current, [opening] + middle + [closing]) == Some(ScanState(None, [entry]))
  {
    RunAppend(step, current, [opening], middle + [closing]);
    assert [opening] + middle + [closing] == [opening] + (middle + [closing]);
    RunOne(step, current, opening, Some(acc), []);
    RunAppend(step, Some(acc), middle, [closing]);
    RunOne(step, Some(acc2), closing, None, [entry]);
    var none: seq<StatsEntry> := [];
    assert none + [entry] == [entry];
  }

  /** A line with only a success marker closes the open entry as a success. */
  lemma StepClosesSuccess(formats: seq<Parser>, acc: Acc, endText: string)
    ensures Step(formats, Some(acc), Marks(None, None, None, Some(endText), None))
         == Some((None, [Close(acc, ParseDate(formats, endText), Success)]))
  {
    assert Acc(acc.start, acc.sent, acc.total) == acc;
  }

  /** A line with only a failure marker closes the open entry as a failure. */
  lemma StepClosesFailure(formats: seq<Parser>, acc: Acc, endText: string)
    ensures Step(formats, Some(acc), Marks(None, None, None, None, Some(endText)))
         == Some((None, [Close(acc, ParseDate(formats, endText), Failure)]))
  {
    assert Acc(acc.start, acc.sent, acc.total) == acc;
    var none: seq<StatsEntry> := [];
    assert none + [Close(acc, ParseDate(formats, endText), Failure)] == [Close(acc, ParseDate(formats, endText), Failure)];
  }

  /** A start marker, count-only lines, and a line with only a success marker: exactly one
      entry, carrying the parsed start, the last counts and the parsed end. */
  lemma SuccessBlock(formats: seq<Parser>, current: Option<Acc>, startText: string, middle: seq<Marks>, endText: string)
    requires forall i :: 0 <= i < |middle| ==> CountsOnly(middle[i])
    requires CountsParse(middle)
    ensures var lines := [Marks(Some(startText), None, None, None, None)] + middle + [Marks(None, None, None, Some(endText), None)];
            Run(formats, current, lines)
            == Some(ScanState(None, [StatsEntry(ParseDate(formats, startText), Latest(None, Sents(middle)),
                                                Latest(None, Totals(middle)), ParseDate(formats, endText), Success)]))
  {
    var opening := Marks(Some(startText), None, None, None, None);
    var closing := Marks(None, None, None, Some(endText), None);
    var acc := Acc(ParseDate(formats, startText), None, None);
    var acc2 := Acc(acc.start, Latest(None, Sents(middle)), Latest(None, Totals(middle)));
    StepOfIs(formats, current, opening);
    CountsKeepLast(formats, acc, middle);
    StepClosesSuccess(formats, acc2, endText);
    StepOfIs(formats, Some(acc2), closing);
    BlockWith(StepOf(formats), current, opening, middle, closing, acc, acc2, Close(acc2, ParseDate(formats, endText), Success));
  }

  /** The same block closed by a failure marker emits one failed entry. */
  lemma FailureBlock(formats: seq<Parser>, current: Option<Acc>, startText: string, middle: seq<Marks>, endText: string)
    requires forall i :: 0 <= i < |middle| ==> CountsOnly(middle[i])
    requires CountsParse(middle)
    ensures var lines := [Marks(Some(startText), None, None, None, None)] + middle + [Marks(None, None, None, None, Some(endText))];
            Run(formats, current, lines)
            == Some(ScanState(None, [StatsEntry(ParseDate(formats, startText), Latest(None, Sents(middle)),
                                                Latest(None, Totals(middle)), ParseDate(formats, endText), Failure)]))
  {
    var opening := Marks(Some(startText), None, None, None, None);
    var closing := Marks(None, None, None, None, Some(endText));
    var acc := Acc(ParseDate(formats, startText), None, None);
    var acc2 := Acc(acc.start, Latest(None, Sents(middle)), Latest(None, Totals(middle)));
    StepOfIs(formats, current, opening);
    CountsKeepLast(formats, acc, middle);
    StepClosesFailure(formats, acc2, endText);
    StepOfIs(formats, Some(acc2), closing);
    BlockWith(StepOf(formats), current, opening, middle, closing, acc, acc2, Close(acc2, ParseDate(formats, endText), Failure));
  }

  /** A start marker inside an open entry discards it: nothing of it is ever emitted. */
  lemma RestartDiscards(formats: seq<Parser>, acc: Acc, startText: string, rest: seq<Marks>)
    ensures Run(formats, Some(acc), [Marks(Some(startText), None, None, None, None)] + rest)
         == Run(formats, None, [Marks(Some(startText), None, None, None, None)] + rest)
  {
    var opening := Marks(Some(startText), None, None, None, None);
    RunAppend(StepOf(formats), Some(acc), [opening], rest);
    RunAppend(StepOf(formats), None, [opening], rest);
  }

  /** An entry still open when the lines run out is never emitted: appending a start
      marker and count lines to the extract adds no entry. */
  lemma OpenAtEndDropped(formats: seq<Parser>, lines: seq<Marks>, startText: string, middle: seq<Marks>)
    requires forall i :: 0 <= i < |middle| ==> CountsOnly(middle[i])
    requires CountsParse(middle)
    requires Run(formats, None, lines).Some?
    ensures var tail := [Marks(Some(startText), None, None, None, None)] + middle;
            Run(formats, None, lines + tail).Some?
            && Run(formats, None, lines + tail).value.entries == Run(formats, None, lines).value.entries
  {
    var opening := Marks(Some(startText), None, None, None, None);
    var tail := [opening] + middle;
    var first := Run(formats, None, lines).value;
    RunAppend(StepOf(formats), None, lines, tail);
    RunAppend(StepOf(formats), first.current, [opening], middle);
    var acc := Acc(ParseDate(formats, startText), None, None);
    RunOne(StepOf(formats), first.current, opening, Some(acc), []);
    CountsKeepLast(formats, acc, middle);
    assert first.entries + [] == first.entries;
  }

  /** A count that `int()` rejects inside an open entry aborts the whole scan. */
  lemma BadCountRaises(formats: seq<Parser>, acc: Acc, m: Marks, rest: seq<Marks>)
    requires m.start.None?
    requires (m.sent.Some? && ParseCommaInt(m.sent.value).None?) || (m.total.Some? && ParseCommaInt(m.total.value).None?)
    ensures Run(formats, Some(acc), [m] + rest).None?
  {
    StepOfIs(formats, Some(acc), m);
    RunFails(StepOf(formats), Some(acc), m, rest);
  }

  /** A failing line ends the scan with a failure. */
  lemma RunFails(step: Stepper, current: Option<Acc>, m: Marks, rest: seq<Marks>)
    requires step(current, m).None?
    ensures RunWith(step, current, [m] + rest).None?
  {
    assert ([m] + rest)[0] == m;
  }

  /** A line carrying both closing markers emits the open entry as a success and then an
      entry with no start for the failure. */
  lemma SuccessThenFailureOnOneLine(formats: seq<Parser>, acc: Acc, endText: string, failText: string)
    ensures Step(formats, Some(acc), Marks(None, None, None, Some(endText), Some(failText)))
         == Some((None, [Close(acc, ParseDate(formats, endText), Success),
                         StatsEntry(None, None, None, ParseDate(formats, failText), Failure)]))
  {
    var closed := Close(acc, ParseDate(formats, endText), Success);
    assert Acc(acc.start, acc.sent, acc.total) == acc;
    assert [closed] + [Close(Empty, ParseDate(formats, failText), Failure)]
        == [closed, StatsEntry(None, None, None, ParseDate(formats, failText), Failure)];
  }
}

=== FILE: supervisor.dfy ===
/** The manual-backup supervisor: one process slot, the time of the last accepted trigger,
    and the `backup_runs` store. `can_trigger_backup`, `trigger_backup` and
    `check_running_backup` are transitions of that state.

    The clock is the parameter `now`; `time.time()` is `now` counted from the Unix epoch.
    The child process is seen only through its state: none, still alive, or exited with a
    return code and the output it printed. */
module Supervisor {
  import opened Wrappers
  import opened Decimal
  import opened Calendar
  import opened BackupModel
  import opened RecordStore

  /** `_running_process`: `None`, a process whose `poll()` is `None`, or one that exited. */
  datatype Proc = Idle | Alive | Exited(code: int, output: string)

  /** The module globals and the store. `lastTrigger` is `_last_trigger_time` in Unix
      seconds; it starts at 0. */
  datatype State = State(proc: Proc, lastTrigger: int, store: Store)

  /** `time.time()` at `now`. */
  function UnixTime(now: Instant): int {
    now - UnixEpoch
  }

  const RunningMessage := "A backup is already running"
  const CooldownPrefix := "Cooldown active. Try again in "
  const ScriptMissingPrefix := "Backup script not found: "
  const ExitCodePrefix := "Script exited with code "

  /** The state after start-up: no process and a last trigger at the epoch. */
  function Start(store: Store): (s: State)
    ensures s.proc.Idle? && s.store == store
  {
    State(Idle, 0, store)
  }

  /** `can_trigger_backup`: a live process refuses first; then a trigger less than
      `cooldown` seconds after the last one refuses with the seconds still to wait;
      otherwise the trigger is allowed. */
  function CanTrigger(s: State, now: Instant, cooldown: int): (r: (bool, string))
    ensures s.proc.Alive? ==> r == (false, RunningMessage)
    ensures !s.proc.Alive? ==> (r.0 <==> UnixTime(now) - s.lastTrigger >= cooldown)
    ensures r.0 ==> r.1 == ""
    ensures !s.proc.Alive? && !r.0 ==>
              exists wait: int :: wait > 0 && r.1 == CooldownPrefix + IntToString(wait) + "s"
                && UnixTime(now) + wait == s.lastTrigger + cooldown
  {
    if s.proc.Alive? then (false, RunningMessage)
    else
      var elapsed := UnixTime(now) - s.lastTrigger;
      if elapsed < cooldown then (false, CooldownPrefix + IntToString(cooldown - elapsed) + "s")
      else (true, "")
  }

  /** What `Popen` did: started the script, or raised `OSError` with this message. */
  datatype Spawn = Spawned | SpawnFailed(message: string)

  /** `trigger_backup` returns the stored row or a message. */
  datatype TriggerResult = Started(run: BackupRun) | Message(text: string)

  /** The script run: the one given, or the configured default. */
  function ScriptOf(scriptPath: Option<string>, defaultScript: string): string {
    if scriptPath.Some? then scriptPath.value else defaultScript
  }

  /** The row a manual trigger stores before it spawns. */
  function ManualRun(now: Instant): (run: BackupRun)
    ensures run.backupType == Manual && run.status == Running && run.triggeredBy == ByUser
    ensures run.startedAt == now && run.finishedAt.None? && run.errorMessage.None?
  {
    NewRun(Manual, Running, now, ByUser)
  }

  /** The row after `Popen` raised: a failure, finished now, with the error's message. */
  function SpawnFailure(run: BackupRun, message: string, now: Instant): (r: BackupRun)
    ensures r == run.(status := Failure, errorMessage := Some(message), finishedAt := Some(now))
  {
    run.(status := Failure, errorMessage := Some(message), finishedAt := Some(now))
  }

  /** `trigger_backup`. A refusal or a missing script returns a message and changes nothing.
      Otherwise one `manual`/`running` row is stored; if the spawn succeeds the slot holds
      the live process, the last trigger is now, and the row is returned; if it fails the
      row becomes a failure and the slot and last trigger stay as they were. */
  function Trigger(s: State, now: Instant, cooldown: int, scriptPath: Option<string>, defaultScript: string,
                   existing: set<string>, spawn: Spawn): (r: (TriggerResult, State))
    ensures !CanTrigger(s, now, cooldown).0 ==> r == (Message(CanTrigger(s, now, cooldown).1), s)
    ensures CanTrigger(s, now, cooldown).0 && ScriptOf(scriptPath, defaultScript) !in existing ==>
              r == (Message(ScriptMissingPrefix + ScriptOf(scriptPath, defaultScript)), s)
    ensures r.1 != s ==> |r.1.store| == |s.store| + 1 && r.1.store[..|s.store|] == s.store
    ensures r.1 != s ==>
              && r.1.store[|s.store|].backupType == Manual && r.1.store[|s.store|].triggeredBy == ByUser
              && r.1.store[|s.store|].startedAt == now
    ensures r.1 != s && spawn.Spawned? ==>
              && r.0 == Started(r.1.store[|s.store|]) && r.1.store[|s.store|].status == Running
              && r.1.proc == Alive && r.1.lastTrigger == UnixTime(now)
    ensures r.1 != s && spawn.SpawnFailed? ==>
              && r.0 == Message(spawn.message) && r.1.store[|s.store|].status == Failure
              && r.1.store[|s.store|].errorMessage == Some(spawn.message)
              && r.1.store[|s.store|].finishedAt == Some(now)
              && r.1.proc == s.proc && r.1.lastTrigger == s.lastTrigger
  {
    var (can, reason) := CanTrigger(s, now, cooldown);
    if !can then (Message(reason), s)
    else
      var script := ScriptOf(scriptPath, defaultScript);
      if script !in existing then (Message(ScriptMissingPrefix + script), s)
      else
        var stored := Add(s.store, ManualRun(now));
        var run := stored[|s.store|];
        match spawn
        case Spawned => (Started(run), State(Alive, UnixTime(now), stored))
        case SpawnFailed(message) =>
          (Message(message), s.(store := stored[|s.store| := SpawnFailure(run, message, now)]))
  }

  /** The rows `check_running_backup` looks for. */
  predicate RunningManual(run: BackupRun) {
    run.status == Running && run.triggeredBy == ByUser
  }

  /** The row after its process exited with `code`, having printed `output`. */
  function Reconciled(run: BackupRun, now: Instant, code: int, output: string): (r: BackupRun)
    ensures r.finishedAt == Some(now) && r.rawLog == Some(output)
    ensures r.durationSeconds == Some(now - run.startedAt)
    ensures r.status == Success <==> code == 0
    ensures code != 0 ==> r.status == Failure && r.errorMessage == Some(ExitCodePrefix + IntToString(code))
    ensures code == 0 ==> r.errorMessage == run.errorMessage
    ensures r.(finishedAt := run.finishedAt, rawLog := run.rawLog, durationSeconds := run.durationSeconds,
               status := run.status, errorMessage := run.errorMessage) == run
  {
    var done := run.(finishedAt := Some(now), rawLog := Some(output), durationSeconds := Some(now - run.startedAt));
    if code == 0 then done.(status := Success)
    else done.(status := Failure, errorMessage := Some(ExitCodePrefix + IntToString(code)))
  }

  /** `check_running_backup`. Nothing happens unless the process has exited; then the slot
      is cleared and the latest running manual row, if there is one, is reconciled. */
  function CheckRunning(s: State, now: Instant): (r: State)
    ensures !s.proc.Exited? ==> r == s
    ensures s.proc.Exited? ==> r.proc == Idle && r.lastTrigger == s.lastTrigger && |r.store| == |s.store|
    ensures s.proc.Exited? && (forall i :: 0 <= i < |s.store| ==> !RunningManual(s.store[i])) ==> r.store == s.store
    ensures s.proc.Exited? && LatestWhere(s.store, RunningManual).Some? ==>
              var k := LatestWhere(s.store, RunningManual).value;
              r.store == s.store[k := Reconciled(s.store[k], now, s.proc.code, s.proc.output)]
  {
    match s.proc
    case Idle => s
    case Alive => s
    case Exited(code, output) =>
      match LatestWhere(s.store, RunningManual)
      case None => s.(proc := Idle)
      case Some(k) => State(Idle, s.lastTrigger, s.store[k := Reconciled(s.store[k], now, code, output)])
  }

  /** `check_running_backup` as the source runs it. The slot is cleared before the query.
      Every running manual row was stored by `trigger_backup` with a timezone-aware start,
      but the `started_at` column has no timezone, so the poller's own session reads it back
      naive and `finished_at - started_at` raises `TypeError`. The poller logs the exception
      and closes the session, which drops the uncommitted changes. The second component says
      whether the exception was raised. */
  function CheckRunningAsWritten(s: State, now: Instant): (r: (State, bool))
    ensures r.0.store == s.store && r.0.lastTrigger == s.lastTrigger
    ensures r.0.proc == (if s.proc.Exited? then Idle else s.proc)
    ensures r.1 <==> s.proc.Exited? && exists i :: 0 <= i < |s.store| && RunningManual(s.store[i])
  {
    if !s.proc.Exited? then (s, false)
    else (s.(proc := Idle), LatestWhere(s.store, RunningManual).Some?)
  }

  // ---------------------------------------------------------------------------------
  // Properties
  // ---------------------------------------------------------------------------------

  /** The live-process check comes first: while the script runs, a trigger is refused as
      running however long ago the last trigger was. */
  lemma AliveRefusesBeforeCooldown(s: State, now: Instant, cooldown: int)
    requires s.proc.Alive? && UnixTime(now) - s.lastTrigger >= cooldown
    ensures CanTrigger(s, now, cooldown) == (false, RunningMessage)
    ensures CanTrigger(s.(proc := Idle), now, cooldown) == (true, "")
  {
  }

  /** An exited process that was not reconciled yet does not block: only the cooldown counts. */
  lemma ExitedDoesNotBlock(s: State, now: Instant, cooldown: int, code: int, output: string)
    ensures CanTrigger(s.(proc := Exited(code, output)), now, cooldown) == CanTrigger(s.(proc := Idle), now, cooldown)
  {
  }

  /** The cooldown boundary: exactly `cooldown` seconds after the last trigger is allowed,
      one second earlier is refused with one second to wait. */
  lemma CooldownBoundary(s: State, now: Instant, cooldown: int)
    requires !s.proc.Alive? && UnixTime(now) == s.lastTrigger + cooldown
    ensures CanTrigger(s, now, cooldown) == (true, "")
    ensures CanTrigger(s, now - 1, cooldown) == (false, CooldownPrefix + "1s")
  {
    assert IntToString(1) == "1";
    assert CooldownPrefix + IntToString(1) + "s" == CooldownPrefix + "1s";
  }

  /** The seconds the cooldown message names read back with `int()`, and lie between 1 and
      the cooldown when the clock has not gone back. */
  lemma CooldownWaitReadsBack(s: State, now: Instant, cooldown: int)
    requires !s.proc.Alive? && s.lastTrigger <= UnixTime(now) < s.lastTrigger + cooldown
    ensures var wait := s.lastTrigger + cooldown - UnixTime(now);
            && 1 <= wait <= cooldown
            && CanTrigger(s, now, cooldown) == (false, CooldownPrefix + IntToString(wait) + "s")
            && PyInt(IntToString(wait)) == Some(wait)
  {
    PyIntOfIntToString(s.lastTrigger + cooldown - UnixTime(now));
  }

  /** A refused trigger, or one whose script is missing, changes nothing. */
  lemma RejectedTriggerChangesNothing(s: State, now: Instant, cooldown: int, scriptPath: Option<string>,
                                      defaultScript: string, existing: set<string>, spawn: Spawn)
    requires !CanTrigger(s, now, cooldown).0 || ScriptOf(scriptPath, defaultScript) !in existing
    ensures Trigger(s, now, cooldown, scriptPath, defaultScript, existing, spawn).1 == s
    ensures Trigger(s, now, cooldown, scriptPath, defaultScript, existing, spawn).0.Message?
  {
  }

  /** An accepted trigger stores exactly one row, whatever the spawn does. */
  lemma AcceptedTriggerStoresOne(s: State, now: Instant, cooldown: int, scriptPath: Option<string>,
                                 defaultScript: string, existing: set<string>, spawn: Spawn)
    requires CanTrigger(s, now, cooldown).0 && ScriptOf(scriptPath, defaultScript) in existing
    ensures var after := Trigger(s, now, cooldown, scriptPath, defaultScript, existing, spawn).1;
            |after.store| == |s.store| + 1 && after.store[..|s.store|] == s.store
            && after.store[|s.store|].backupType == Manual && after.store[|s.store|].startedAt == now
  {
    var after := Trigger(s, now, cooldown, scriptPath, defaultScript, existing, spawn).1;
    assert after.store != s.store;
  }

  /** Right after a successful trigger a second one is refused, as running. */
  lemma SecondTriggerRefused(s: State, now: Instant, later: Instant, cooldown: int, scriptPath: Option<string>,
                             defaultScript: string, existing: set<string>, spawn: Spawn)
    requires CanTrigger(s, now, cooldown).0 && ScriptOf(scriptPath, defaultScript) in existing
    ensures var r := Trigger(s, now, cooldown, scriptPath, defaultScript, existing, Spawned);
            Trigger(r.1, later, cooldown, scriptPath, defaultScript, existing, spawn) == (Message(RunningMessage), r.1)
  {
    var r := Trigger(s, now, cooldown, scriptPath, defaultScript, existing, Spawned);
    assert r.1.store != s.store;
  }

  /** Reconciliation happens once: a second check after the slot was cleared changes nothing. */
  lemma CheckRunningOnce(s: State, now: Instant, later: Instant)
    ensures CheckRunning(CheckRunning(s, now), later) == CheckRunning(s, now)
  {
  }

  /** An exit with no running manual row (an orphaned process) only clears the slot. */
  lemma OrphanExitClearsSlot(s: State, now: Instant, code: int, output: string)
    requires forall i :: 0 <= i < |s.store| ==> !RunningManual(s.store[i])
    ensures CheckRunning(s.(proc := Exited(code, output)), now) == s.(proc := Idle)
  {
  }

  /** A whole manual run: accepted, spawned, exited with `code` and reconciled. When no
      older running manual row started at the same time or later, the row the trigger
      stored is the one reconciled: it ends now, carries the output and the duration, and
      succeeded exactly when the code is 0. No other row changes. */
  lemma ManualRunLifecycle(s: State, now: Instant, cooldown: int, scriptPath: Option<string>, defaultScript: string,
                           existing: set<string>, done: Instant, code: int, output: string)
    requires CanTrigger(s, now, cooldown).0 && ScriptOf(scriptPath, defaultScript) in existing
    requires forall i :: 0 <= i < |s.store| && RunningManual(s.store[i]) ==> s.store[i].startedAt < now
    ensures var started := Trigger(s, now, cooldown, scriptPath, defaultScript, existing, Spawned).1;
            var after := CheckRunning(started.(proc := Exited(code, output)), done);
            && after.proc == Idle
            && |after.store| == |s.store| + 1 && after.store[..|s.store|] == s.store
            && after.store[|s.store|].finishedAt == Some(done)
            && after.store[|s.store|].durationSeconds == Some(done - now)
            && after.store[|s.store|].rawLog == Some(output)
            && (after.store[|s.store|].status == Success <==> code == 0)
  {
    var started := Trigger(s, now, cooldown, scriptPath, defaultScript, existing, Spawned).1;
    assert started.store != s.store;
    var n := |s.store|;
    var exited := started.(proc := Exited(code, output));
    assert RunningManual(started.store[n]);
    var k := LatestWhere(started.store, RunningManual);
    assert k.Some?;
    assert k.value == n;
    var after := CheckRunning(exited, done);
    assert after.store[..n] == s.store;
  }

  /** The same manual run under the check as written: the exit raises, the slot is
      cleared, and the row the trigger stored stays `running` with no finish time. With the
      slot idle no later check looks at it again, so it stays `running` for good. */
  lemma ManualRunStaysRunningAsWritten(s: State, now: Instant, cooldown: int, scriptPath: Option<string>,
                                       defaultScript: string, existing: set<string>, done: Instant,
                                       later: Instant, code: int, output: string)
    requires CanTrigger(s, now, cooldown).0 && ScriptOf(scriptPath, defaultScript) in existing
    ensures var started := Trigger(s, now, cooldown, scriptPath, defaultScript, existing, Spawned).1;
            var after := CheckRunningAsWritten(started.(proc := Exited(code, output)), done);
            && after.1 && after.0.proc == Idle
            && |after.0.store| == |s.store| + 1
            && after.0.store[|s.store|].status == Running
            && after.0.store[|s.store|].finishedAt.None?
            && CheckRunningAsWritten(after.0, later) == (after.0, false)
  {
    var started := Trigger(s, now, cooldown, scriptPath, defaultScript, existing, Spawned).1;
    assert started.store != s.store;
    assert RunningManual(started.store[|s.store|]);
  }
}

=== FILE: text.dfy ===
/** Python `str` operations the backup dashboard relies on, stated over `seq<char>`:
    `strip`, `splitlines`, `split`, `join`, `replace`, `in`, `lower` and `rsplit(":", 1)`. */
module Text {
  import opened Wrappers

  /** `str.isspace()` for one character: the Unicode whitespace set CPython uses for
      `strip()`, `split()` without a separator and the regex class `\s`. */
  predicate IsSpace(c: char) {
    || c == ' ' || c == '\t' || c == '\n' || c == '\U{000B}' || c == '\U{000C}' || c == '\r'
    || ('\U{001C}' <= c <= '\U{001F}')
    || c == '\U{0085}' || c == '\U{00A0}' || c == '\U{1680}'
    || ('\U{2000}' <= c <= '\U{200A}')
    || c == '\U{2028}' || c == '\U{2029}' || c == '\U{202F}' || c == '\U{205F}' || c == '\U{3000}'
  }

  /** The line boundaries recognised by `str.splitlines()`. */
  predicate IsLineBreak(c: char) {
    || c == '\n' || c == '\r' || c == '\U{000B}' || c == '\U{000C}'
    || c == '\U{001C}' || c == '\U{001D}' || c == '\U{001E}'
    || c == '\U{0085}' || c == '\U{2028}' || c == '\U{2029}'
  }

  predicate NoSpace(s: string) {
    forall i :: 0 <= i < |s| ==> !IsSpace(s[i])
  }

  /** Leading whitespace removed (`str.lstrip()`). */
  function TrimStart(s: string): (r: string)
    ensures |r| <= |s| && r == s[|s| - |r|..]
    ensures forall i :: 0 <= i < |s| - |r| ==> IsSpace(s[i])
    ensures r == [] || !IsSpace(r[0])
  {
    if |s| > 0 && IsSpace(s[0]) then
      var r := TrimStart(s[1..]);
      TrimStartStep(s, r);
      r
    else s
  }

  /** A leading space more keeps the trimmed text a suffix after spaces only. */
  lemma TrimStartStep(s: string, r: string)
    requires |s| > 0 && IsSpace(s[0])
    requires |r| <= |s[1..]| && r == s[1..][|s[1..]| - |r|..]
    requires forall i :: 0 <= i < |s[1..]| - |r| ==> IsSpace(s[1..][i])
    ensures r == s[|s| - |r|..]
    ensures forall i :: 0 <= i < |s| - |r| ==> IsSpace(s[i])
  {
    assert s[1..][|s[1..]| - |r|..] == s[|s| - |r|..];
    forall i | 0 < i < |s| - |r|
      ensures IsSpace(s[i])
    {
      assert s[i] == s[1..][i - 1];
    }
  }

  /** Trailing whitespace removed (`str.rstrip()`). */
  function TrimEnd(s: string): (r: string)
    ensures |r| <= |s| && r == s[..|r|]
    ensures forall i :: |r| <= i < |s| ==> IsSpace(s[i])
    ensures r == [] || !IsSpace(r[|r| - 1])
  {
    if |s| > 0 && IsSpace(s[|s| - 1]) then TrimEnd(s[..|s| - 1]) else s
  }

  /** `str.strip()`. */
  function Strip(s: string): (r: string)
    ensures r == [] || (!IsSpace(r[0]) && !IsSpace(r[|r| - 1]))
    ensures |r| <= |s|
  {
    TrimEnd(TrimStart(s))
  }

  lemma StripOfNoSpace(s: string)
    requires NoSpace(s)
    ensures Strip(s) == s
  {
  }

  /** True iff `sub` occurs in `s` starting at index `i`. */
  predicate OccursAt(s: string, sub: string, i: int) {
    0 <= i && i + |sub| <= |s| && s[i..i + |sub|] == sub
  }

  /** The first index at or after `from` where `sub` occurs (`str.find(sub, from)`). */
  function FindFrom(s: string, sub: string, from: nat): (r: Option<nat>)
    decreases |s| - from
    ensures r.Some? ==> from <= r.value && OccursAt(s, sub, r.value)
    ensures r.Some? ==> forall j :: from <= j < r.value ==> !OccursAt(s, sub, j)
    ensures r.None? ==> forall j :: from <= j ==> !OccursAt(s, sub, j)
  {
    if from + |sub| > |s| then None
    else if s[from..from + |sub|] == sub then Some(from)
    else FindFrom(s, sub, from + 1)
  }

  function Find(s: string, sub: string): Option<nat> {
    FindFrom(s, sub, 0)
  }

  /** Python's `sub in s`. */
  predicate Contains(s: string, sub: string) {
    Find(s, sub).Some?
  }

  lemma ContainsIff(s: string, sub: string)
    ensures Contains(s, sub) <==> exists i :: OccursAt(s, sub, i)
  {
    if Contains(s, sub) {
      assert OccursAt(s, sub, Find(s, sub).value);
    }
  }

  /** A character `sub` needs but `s` lacks rules out every occurrence. */
  lemma MissingCharNoOccurrence(s: string, sub: string, c: char)
    requires c in sub && c !in s
    ensures !Contains(s, sub)
  {
  }

  /** A one-character separator is first found where it first appears. */
  lemma FindSeparator(a: string, sep: char, b: string)
    requires sep !in a
    ensures Find(a + [sep] + b, [sep]) == Some(|a|)
  {
    var s := a + [sep] + b;
    assert OccursAt(s, [sep], |a|);
    forall j | 0 <= j < |a|
      ensures !OccursAt(s, [sep], j)
    {
      assert s[j] == a[j];
    }
  }

  predicate StartsWith(s: string, prefix: string) {
    |prefix| <= |s| && s[..|prefix|] == prefix
  }

  /** `str.split(sep)` for a non-empty separator. */
  function Split(s: string, sep: string): (r: seq<string>)
    requires |sep| > 0
    decreases |s|
    ensures |r| >= 1
    ensures forall k :: 0 <= k < |r| ==> !Contains(r[k], sep)
  {
    match Find(s, sep)
    case None => [s]
    case Some(i) =>
      var head := s[..i];
      assert !Contains(head, sep) by {
        if Contains(head, sep) {
          var j := Find(head, sep).value;
          assert s[j..j + |sep|] == head[j..j + |sep|];
          assert OccursAt(s, sep, j);
        }
      }
      [head] + Split(s[i + |sep|..], sep)
  }

  /** Splitting at the first separator peels off the text before it. */
  lemma SplitAtSeparator(a: string, sep: char, b: string)
    requires sep !in a
    ensures Split(a + [sep] + b, [sep]) == [a] + Split(b, [sep])
  {
    FindSeparator(a, sep, b);
    var s := a + [sep] + b;
    assert s[..|a|] == a && s[|a| + 1..] == b;
  }

  /** A text without the separator splits into itself alone. */
  lemma SplitWithoutSeparator(a: string, sep: char)
    requires sep !in a
    ensures Split(a, [sep]) == [a]
  {
    MissingCharNoOccurrence(a, [sep], sep);
  }

  /** `sep.join(parts)`. */
  function Join(sep: string, parts: seq<string>): (r: string)
    decreases |parts|
  {
    if |parts| == 0 then ""
    else if |parts| == 1 then parts[0]
    else parts[0] + sep + Join(sep, parts[1..])
  }

  /** Joining the pieces of a split with the same separator gives the string back. */
  lemma {:induction false} JoinSplit(s: string, sep: string)
    requires |sep| > 0
    decreases |s|
    ensures Join(sep, Split(s, sep)) == s
  {
    match Find(s, sep)
    case None =>
    case Some(i) =>
      JoinSplit(s[i + |sep|..], sep);
      JoinSplitStep(s, sep, i);
  }

  /** One step of `JoinSplit`: the piece before the first separator, the separator, and the
      join of the rest. */
  lemma JoinSplitStep(s: string, sep: string, i: nat)
    requires |sep| > 0 && Find(s, sep) == Some(i)
    requires Join(sep, Split(s[i + |sep|..], sep)) == s[i + |sep|..]
    ensures Join(sep, Split(s, sep)) == s
  {
    var rest := s[i + |sep|..];
    var parts := Split(s, sep);
    assert parts[1..] == Split(rest, sep);
    assert s[i..i + |sep|] == sep;
    assert s == s[..i] + sep + rest;
  }

  /** Python's `s.replace(pat, repl)`: every non-overlapping occurrence, left to right;
      an empty `pat` inserts `repl` before every character and at the end. */
  function ReplaceAll(s: string, pat: string, repl: string): (r: string)
    decreases |s|
    ensures !Contains(s, pat) && |pat| > 0 ==> r == s
  {
    if |pat| == 0 then
      if |s| == 0 then repl else repl + [s[0]] + ReplaceAll(s[1..], pat, repl)
    else
      match Find(s, pat)
      case None => s
      case Some(i) => s[..i] + repl + ReplaceAll(s[i + |pat|..], pat, repl)
  }

  /** Reference definition of replacement: split on `pat`, join with `repl`. */
  lemma {:induction false} ReplaceIsSplitJoin(s: string, pat: string, repl: string)
    requires |pat| > 0
    decreases |s|
    ensures ReplaceAll(s, pat, repl) == Join(repl, Split(s, pat))
  {
    match Find(s, pat)
    case None =>
    case Some(i) =>
      ReplaceIsSplitJoin(s[i + |pat|..], pat, repl);
      ReplaceStep(s, pat, repl, i);
  }

  /** One occurrence more: the replacement and the join agree on the head. */
  lemma ReplaceStep(s: string, pat: string, repl: string, i: nat)
    requires |pat| > 0 && Find(s, pat) == Some(i)
    requires ReplaceAll(s[i + |pat|..], pat, repl) == Join(repl, Split(s[i + |pat|..], pat))
    ensures ReplaceAll(s, pat, repl) == Join(repl, Split(s, pat))
  {
    SplitOfFind(s, pat);
    ReplaceOfFind(s, pat, repl);
    JoinCons(repl, s[..i], Split(s[i + |pat|..], pat));
  }

  lemma SplitOfFind(s: string, pat: string)
    requires |pat| > 0 && Find(s, pat).Some?
    ensures var i := Find(s, pat).value;
            Split(s, pat) == [s[..i]] + Split(s[i + |pat|..], pat)
  {
  }

  lemma ReplaceOfFind(s: string, pat: string, repl: string)
    requires |pat| > 0 && Find(s, pat).Some?
    ensures var i := Find(s, pat).value;
            ReplaceAll(s, pat, repl) == s[..i] + repl + ReplaceAll(s[i + |pat|..], pat, repl)
  {
  }

  /** Joining a head in front of at least one more part. */
  lemma JoinCons(sep: string, head: string, tail: seq<string>)
    requires |tail| >= 1
    ensures Join(sep, [head] + tail) == head + sep + Join(sep, tail)
  {
    assert ([head] + tail)[1..] == tail;
  }

  /** Replacing a non-empty text by itself changes nothing. */
  lemma ReplaceWithItself(s: string, pat: string)
    requires |pat| > 0
    ensures ReplaceAll(s, pat, pat) == s
  {
    ReplaceIsSplitJoin(s, pat, pat);
    JoinSplit(s, pat);
  }

  /** Index of the last occurrence of `c`, if any. */
  function LastIndexOf(s: string, c: char): (r: Option<nat>)
    ensures r.Some? <==> c in s
    ensures r.Some? ==> r.value < |s| && s[r.value] == c && c !in s[r.value + 1..]
  {
    if |s| == 0 then None
    else if s[|s| - 1] == c then Some(|s| - 1)
    else
      var r := LastIndexOf(s[..|s| - 1], c);
      assert s == s[..|s| - 1] + [s[|s| - 1]];
      assert r.Some? ==> s[r.value + 1..] == s[..|s| - 1][r.value + 1..] + [s[|s| - 1]];
      r
  }

  /** `s.rsplit(c, 1)` when `c` occurs in `s`: the text before and after the last `c`. */
  function RSplitOnce(s: string, c: char): (r: (string, string))
    requires c in s
    ensures s == r.0 + [c] + r.1 && c !in r.1
  {
    var i := LastIndexOf(s, c).value;
    assert s == s[..i] + [c] + s[i + 1..];
    (s[..i], s[i + 1..])
  }

  /** The last `c` is the one with no `c` after it. */
  lemma {:induction false} LastIndexOfBefore(a: string, c: char, b: string)
    requires c !in b
    decreases |b|
    ensures LastIndexOf(a + [c] + b, c) == Some(|a|)
  {
    if |b| > 0 {
      var s := a + [c] + b;
      assert s[..|s| - 1] == a + [c] + b[..|b| - 1];
      assert s[|s| - 1] == b[|b| - 1];
      LastIndexOfBefore(a, c, b[..|b| - 1]);
    }
  }

  /** Splitting at the last `c` undoes putting `c` between `a` and a `c`-free `b`. */
  lemma RSplitOnceOf(a: string, c: char, b: string)
    requires c !in b
    ensures RSplitOnce(a + [c] + b, c) == (a, b)
  {
    var s := a + [c] + b;
    LastIndexOfBefore(a, c, b);
    assert s[..|a|] == a && s[|a| + 1..] == b;
  }

  /** Index of the first line boundary, or `|s|` when there is none. */
  function LineEnd(s: string): (i: nat)
    ensures i <= |s| && (i < |s| ==> IsLineBreak(s[i]))
    ensures forall j :: 0 <= j < i ==> !IsLineBreak(s[j])
  {
    if |s| == 0 || IsLineBreak(s[0]) then 0 else 1 + LineEnd(s[1..])
  }

  /** Every line boundary is whitespace, so a text without whitespace is one line. */
  lemma {:induction false} LineEndOfNoSpace(s: string)
    requires NoSpace(s)
    decreases |s|
    ensures LineEnd(s) == |s|
  {
    if |s| > 0 {
      assert NoSpace(s[1..]) by {
        assert forall i :: 0 <= i < |s| - 1 ==> s[1..][i] == s[i + 1];
      }
      LineEndOfNoSpace(s[1..]);
    }
  }

  /** A non-empty text without whitespace strips to itself and is a single line. */
  lemma SingleWordText(s: string)
    requires NoSpace(s) && s != []
    ensures Strip(s) == s && SplitLines(s) == [s]
  {
    StripOfNoSpace(s);
    LineEndOfNoSpace(s);
  }

  /** `str.splitlines()`: a boundary ends a line, `\r\n` counts as one boundary, and no
      empty line follows a final boundary. */
  function SplitLines(s: string): (r: seq<string>)
    decreases |s|
    ensures forall k, j :: 0 <= k < |r| && 0 <= j < |r[k]| ==> !IsLineBreak(r[k][j])
    ensures s == [] <==> r == []
  {
    if |s| == 0 then []
    else
      var i := LineEnd(s);
      if i == |s| then [s]
      else
        [s[..i]] + SplitLines(s[i + BreakWidth(s, i)..])
  }

  /** The width of the line boundary at `i`: `\r\n` is one boundary of two characters. */
  function BreakWidth(s: string, i: nat): (w: nat)
    requires i < |s|
    ensures 1 <= w <= 2 && i + w <= |s|
  {
    if s[i] == '\r' && i + 1 < |s| && s[i + 1] == '\n' then 2 else 1
  }

  /** Index of the first whitespace character, or `|s|`. */
  function WordEnd(s: string): (i: nat)
    ensures i <= |s| && (i < |s| ==> IsSpace(s[i]))
    ensures NoSpace(s[..i])
  {
    if |s| == 0 || IsSpace(s[0]) then 0 else 1 + WordEnd(s[1..])
  }

  /** A word followed by whitespace or by the end of the text ends where the word does. */
  lemma {:induction false} WordEndOf(a: string, b: string)
    requires NoSpace(a) && (|b| == 0 || IsSpace(b[0]))
    decreases |a|
    ensures WordEnd(a + b) == |a|
  {
    if |a| > 0 {
      assert (a + b)[1..] == a[1..] + b;
      WordEndOf(a[1..], b);
    }
  }

  /** `str.split(None, maxsplit)`: whitespace runs separate words, at most `maxsplit` splits,
      and the remainder (leading whitespace dropped) is the last piece. */
  function SplitWs(s: string, maxsplit: nat): (r: seq<string>)
    decreases |s|
    ensures |r| <= maxsplit + 1
    ensures WordPieces(r)
  {
    var t := TrimStart(s);
    if |t| == 0 then []
    else if maxsplit == 0 then [t]
    else
      var k := WordEnd(t);
      var rest := SplitWs(t[k..], maxsplit - 1);
      WordPiecesCons(t, k, rest);
      [t[..k]] + rest
  }

  /** The pieces of a whitespace split: none empty or starting with whitespace, and all but
      the last free of whitespace. */
  predicate WordPieces(r: seq<string>) {
    && (forall k :: 0 <= k < |r| ==> |r[k]| > 0 && !IsSpace(r[k][0]))
    && (forall k :: 0 <= k < |r| - 1 ==> NoSpace(r[k]))
  }

  /** A word peeled off the front of a text keeps the pieces well formed. */
  lemma WordPiecesCons(t: string, k: nat, rest: seq<string>)
    requires |t| > 0 && !IsSpace(t[0]) && k == WordEnd(t) && WordPieces(rest)
    ensures WordPieces([t[..k]] + rest)
  {
    assert t[..k][0] == t[0];
    WordPiecesConsWord(t[..k], rest);
  }

  lemma WordPiecesConsWord(w: string, rest: seq<string>)
    requires |w| > 0 && !IsSpace(w[0]) && NoSpace(w) && WordPieces(rest)
    ensures WordPieces([w] + rest)
  {
    var r := [w] + rest;
    assert forall j :: 0 < j < |r| ==> r[j] == rest[j - 1];
  }

  /** `c.lower()` restricted to what can matter when looking for an ASCII key: ASCII upper
      case and the KELVIN SIGN (which lower-cases to `k`). Every other character's lower
      case is non-ASCII (or, for U+0130, an `i` followed by U+0307), so leaving them as they
      are gives the same answer for every ASCII key that does not end in `i`. */
  function LowerChar(c: char): char {
    if 'A' <= c <= 'Z' then (c as int + 32) as char
    else if c == '\U{212A}' then 'k'
    else c
  }

  function Lower(s: string): (r: string)
    ensures |r| == |s| && forall i :: 0 <= i < |s| ==> r[i] == LowerChar(s[i])
  {
    seq(|s|, i requires 0 <= i < |s| => LowerChar(s[i]))
  }
  /** A text that neither starts nor ends with whitespace strips to itself. */
  lemma StripOfTrimmed(s: string)
    requires |s| > 0 && !IsSpace(s[0]) && !IsSpace(s[|s| - 1])
    ensures Strip(s) == s
  {
    assert TrimStart(s) == s;
  }

  /** `Strip(s)` is a piece of `s`, found at index `a`. */
  lemma StripInfix(s: string) returns (a: nat)
    ensures OccursAt(s, Strip(s), a)
  {
    var t := TrimStart(s);
    var r := TrimEnd(t);
    assert r == Strip(s);
    a := |s| - |t|;
    assert t == s[a..];
    assert r == t[..|r|];
    assert s[a..][..|r|] == s[a..a + |r|];
  }

  /** A piece of a piece is a piece. */
  lemma OccursWithin(s: string, a: string, i: int, b: string, j: int)
    requires OccursAt(s, a, i) && OccursAt(a, b, j)
    ensures OccursAt(s, b, i + j)
  {
    forall t | 0 <= t < |b|
      ensures s[i + j + t] == b[t]
    {
      assert a[j + t] == b[t];
      assert s[i + (j + t)] == a[j + t];
    }
    assert s[i + j..i + j + |b|] == b;
  }

  /** One step of `splitlines()`: the first line, then the lines of what follows its
      boundary; both are pieces of the text. */
  lemma SplitLinesStep(s: string) returns (head: string, rest: string, at: nat)
    requires LineEnd(s) < |s|
    ensures SplitLines(s) == [head] + SplitLines(rest) && |rest| < |s|
    ensures OccursAt(s, head, 0) && OccursAt(s, rest, at)
  {
    var i := LineEnd(s);
    var w := BreakWidth(s, i);
    head, rest, at := s[..i], s[i + w..], i + w;
    PrefixOccurs(s, i);
    SuffixOccurs(s, i + w);
  }

  lemma PrefixOccurs(s: string, k: nat)
    requires k <= |s|
    ensures OccursAt(s, s[..k], 0)
  {
    assert s[0..0 + k] == s[..k];
  }

  lemma SuffixOccurs(s: string, k: nat)
    requires k <= |s|
    ensures OccursAt(s, s[k..], k)
  {
    assert s[k..k + |s[k..]|] == s[k..];
  }

  /** Every line `splitlines()` returns is a piece of the text, found at index `at`. */
  lemma {:induction false} SplitLinesInfix(s: string, k: nat) returns (at: nat)
    requires k < |SplitLines(s)|
    decreases |s|
    ensures OccursAt(s, SplitLines(s)[k], at)
  {
    if LineEnd(s) == |s| {
      assert SplitLines(s) == [s];
      at := 0;
      assert s[0..|s|] == s;
    } else {
      var head, rest, r := SplitLinesStep(s);
      if k == 0 {
        at := 0;
      } else {
        var j := SplitLinesInfix(rest, k - 1);
        LaterLineInfix(s, head, rest, r, k, j);
        at := r + j;
      }
    }
  }

  /** A line after the first is found in the text where it is found in the rest. */
  lemma LaterLineInfix(s: string, head: string, rest: string, r: nat, k: nat, j: nat)
    requires SplitLines(s) == [head] + SplitLines(rest) && OccursAt(s, rest, r)
    requires 0 < k < |SplitLines(s)|
    requires OccursAt(rest, SplitLines(rest)[k - 1], j)
    ensures OccursAt(s, SplitLines(s)[k], r + j)
  {
    assert SplitLines(s)[k] == SplitLines(rest)[k - 1];
    OccursWithin(s, rest, r, SplitLines(rest)[k - 1], j);
  }

  /** `split()` on a text starting with whitespace ignores that whitespace. */
  lemma SplitWsSpace(rest: string, n: nat)
    ensures SplitWs(" " + rest, n) == SplitWs(rest, n)
  {
    assert (" " + rest)[1..] == rest;
    assert TrimStart(" " + rest) == TrimStart(rest);
  }

  /** `split(None, n)` with `n > 0` peels a word followed by a space off the front. */
  lemma SplitWsPrefixed(s: string, w: string, rest: string, n: nat)
    requires |w| > 0 && NoSpace(w) && s == w + " " + rest && n > 0
    ensures SplitWs(s, n) == [w] + SplitWs(rest, n - 1)
  {
    assert TrimStart(s) == s;
    assert s == w + (" " + rest);
    WordEndOf(w, " " + rest);
    assert s[..|w|] == w && s[|w|..] == " " + rest;
    SplitWsSpace(rest, n - 1);
  }

  /** `split(None, n + 1)` peels a word followed by a space off the front. */
  lemma SplitWsWord(w: string, rest: string, n: nat)
    requires |w| > 0 && NoSpace(w)
    ensures SplitWs(w + " " + rest, n + 1) == [w] + SplitWs(rest, n)
  {
    SplitWsPrefixed(w + " " + rest, w, rest, n + 1);
  }

  /** With no splits left, `split(None, 0)` keeps a text that does not start with
      whitespace whole. */
  lemma SplitWsLast(s: string)
    requires |s| > 0 && !IsSpace(s[0])
    ensures SplitWs(s, 0) == [s]
  {
  }

  /** Splitting a join on a one-character separator that no part contains gives the parts. */
  lemma {:induction false} SplitJoin(parts: seq<string>, c: char)
    requires |parts| >= 1 && forall k :: 0 <= k < |parts| ==> c !in parts[k]
    decreases |parts|
    ensures Split(Join([c], parts), [c]) == parts
  {
    if |parts| == 1 {
      SplitWithoutSeparator(parts[0], c);
    } else {
      var tail := parts[1..];
      assert forall k :: 0 <= k < |tail| ==> tail[k] == parts[k + 1];
      SplitJoin(tail, c);
      SplitAtSeparator(parts[0], c, Join([c], tail));
      assert Join([c], parts) == parts[0] + [c] + Join([c], tail);
      assert parts == [parts[0]] + tail;
    }
  }

  /** The last piece of a split is the text after the last separator. */
  lemma {:induction false} SplitLastOf(a: string, c: char, b: string)
    requires c !in b
    decreases |a|
    ensures var parts := Split(a + [c] + b, [c]); parts[|parts| - 1] == b
  {
    var s := a + [c] + b;
    assert OccursAt(s, [c], |a|);
    var i := Find(s, [c]).value;
    assert s[i] == c;
    if i == |a| {
      assert s[..i] == a && s[i + 1..] == b;
      SplitWithoutSeparator(b, c);
    } else {
      assert i < |a|;
      var a' := a[i + 1..];
      assert s[i + 1..] == a' + [c] + b;
      SplitLastOf(a', c, b);
    }
  }
}

=== FILE: tracking_import.dfy ===
/** `import_from_tracking_file`: the lightweight tracking file holds one `YYYY-MM-DD:result`
    line per nightly backup. Every readable line becomes a `daily_mirror` row at 03:00 unless
    one is already stored for that instant; a successful Sunday backup also brings a weekly
    snapshot row (03:30) and a cleanup row (04:00).

    The database session does not flush before queries, so every duplicate test looks at the
    rows stored before the import began, never at rows the same import has added. */
module TrackingImport {
  import opened Wrappers
  import opened Text
  import opened Calendar
  import opened BackupModel
  import opened RecordStore

  /** What one accepted line says: the backup's start and its status. */
  datatype Entry = Entry(startedAt: Instant, status: Status)

  /** 03:00:00 of a date, when the nightly backup starts. */
  function NightlyStart(day: Instant): (t: Instant)
    ensures DayOf(t) == DayOf(day) && Hour(t) == 3 && Minute(t) == 0 && Second(t) == 0
  {
    Replace(day, Some(3), Some(0), Some(0))
  }

  /** The text before and after the last `:` of a stripped line; `None` for a blank line
      or a line without `:`. */
  function SplitTrackingLine(line: string): (r: Option<(string, string)>)
    ensures r.None? <==> Strip(line) == [] || ':' !in Strip(line)
    ensures r.Some? ==> Strip(line) == r.value.0 + [':'] + r.value.1 && ':' !in r.value.1
  {
    var l := Strip(line);
    if l == [] || ':' !in l then None else Some(RSplitOnce(l, ':'))
  }

  /** The entry for a date text and a result text: `None` when the date does not parse;
      only the word `success` (whitespace around it ignored) counts as success. */
  function ReadEntry(dateText: string, result: string): (r: Option<Entry>)
    ensures r.None? <==> ParseIsoDate(Strip(dateText)).None?
    ensures r.Some? ==> r.value.startedAt == NightlyStart(ParseIsoDate(Strip(dateText)).value)
    ensures r.Some? ==> (r.value.status == Success <==> Strip(result) == "success")
  {
    match ParseIsoDate(Strip(dateText))
    case None => None
    case Some(day) => Some(Entry(NightlyStart(day), if Strip(result) == "success" then Success else Failure))
  }

  /** One line of the file. A blank line, a line without `:`, and a line whose text before
      the last `:` is not a `%Y-%m-%d` date are skipped (`None`). */
  function ParseTrackingLine(line: string): (r: Option<Entry>)
    ensures Strip(line) == [] || ':' !in Strip(line) ==> r.None?
    ensures r.Some? ==> Hour(r.value.startedAt) == 3 && Minute(r.value.startedAt) == 0 && Second(r.value.startedAt) == 0
    ensures r.Some? ==> var (dateText, result) := RSplitOnce(Strip(line), ':');
                        && ParseIsoDate(Strip(dateText)).Some?
                        && DayOf(r.value.startedAt) == DayOf(ParseIsoDate(Strip(dateText)).value)
                        && (r.value.status == Success <==> Strip(result) == "success")
  {
    match SplitTrackingLine(line)
    case None => None
    case Some((dateText, result)) => ReadEntry(dateText, result)
  }

  /** The weekly snapshot a successful Sunday brings, at 03:30 of the backup's day. */
  function SnapshotRow(t: Instant): BackupRun {
    NewRun(Snapshot, Success, Replace(t, Some(3), Some(30), None), ByCron)
  }

  /** The cleanup a successful Sunday brings, at 04:00 of the backup's day. */
  function CleanupRow(t: Instant): BackupRun {
    NewRun(Cleanup, Success, Replace(t, Some(4), Some(0), None), ByCron)
  }

  /** The rows one accepted line adds, given the rows stored before the import. The
      snapshot and the cleanup are each looked up on their own, the snapshot at the
      backup's 03:00 start and the cleanup at 04:00, and each is added when its lookup
      misses. */
  function LineRuns(base: Store, e: Entry): (r: seq<BackupRun>)
    ensures r == [] <==> HasRun(base, DailyMirror, e.startedAt)
    ensures |r| <= 3
    ensures r != [] ==> r[0] == NewRun(DailyMirror, e.status, e.startedAt, ByCron)
    ensures |r| > 1 ==> Weekday(e.startedAt) == Sunday && e.status == Success
    ensures forall k :: 1 <= k < |r| ==> r[k].status == Success && r[k].triggeredBy == ByCron
    ensures !HasRun(base, DailyMirror, e.startedAt) && Weekday(e.startedAt) == Sunday && e.status == Success ==>
              var snap := !HasRun(base, Snapshot, e.startedAt);
              var clean := !HasRun(base, Cleanup, Replace(e.startedAt, Some(4), None, None));
              && |r| == 1 + (if snap then 1 else 0) + (if clean then 1 else 0)
              && (snap ==> r[1] == SnapshotRow(e.startedAt))
              && (clean ==> r[|r| - 1] == CleanupRow(e.startedAt))
              && (snap <==> exists k :: 1 <= k < |r| && r[k].backupType == Snapshot)
              && (clean <==> exists k :: 1 <= k < |r| && r[k].backupType == Cleanup)
  {
    var t := e.startedAt;
    if FindRun(base, DailyMirror, t).Some? then []
    else
      var daily := NewRun(DailyMirror, e.status, t, ByCron);
      if Weekday(t) == Sunday && e.status == Success then
        var snapshot := if FindRun(base, Snapshot, t).Some? then [] else [SnapshotRow(t)];
        var cleanup := if FindRun(base, Cleanup, Replace(t, Some(4), None, None)).Some? then [] else [CleanupRow(t)];
        [daily] + snapshot + cleanup
      else [daily]
  }

  /** The rows a line adds: none for a skipped line. */
  function EntryRuns(base: Store, entry: Option<Entry>): (r: seq<BackupRun>)
    ensures entry.None? ==> r == []
    ensures entry.Some? ==> r == LineRuns(base, entry.value)
  {
    match entry
    case None => []
    case Some(e) => LineRuns(base, e)
  }

  /** The rows a sequence of lines adds, in file order, each judged against `base`. */
  function ImportEntries(base: Store, entries: seq<Option<Entry>>): (r: seq<BackupRun>)
    decreases |entries|
    ensures |r| <= 3 * |entries|
  {
    if |entries| == 0 then [] else EntryRuns(base, entries[0]) + ImportEntries(base, entries[1..])
  }

  /** Every line read. */
  function ParseLines(lines: seq<string>): (r: seq<Option<Entry>>)
    ensures |r| == |lines| && forall i :: 0 <= i < |lines| ==> r[i] == ParseTrackingLine(lines[i])
  {
    seq(|lines|, i requires 0 <= i < |lines| => ParseTrackingLine(lines[i]))
  }

  /** `read_text().strip().splitlines()`. */
  function FileLines(text: string): seq<string> {
    SplitLines(Strip(text))
  }

  /** `import_from_tracking_file`: the number of rows added and the store afterwards; a
      missing file (`None`) adds nothing. The store only grows: the rows before stay as they
      were, and the count is the number of rows after them. */
  function ImportFromTrackingFile(store: Store, file: Option<string>): (r: (nat, Store))
    ensures |r.1| == |store| + r.0 && r.1[..|store|] == store
    ensures file.None? ==> r == (0, store)
    ensures file.Some? ==> r.1 == AddAll(store, ImportEntries(store, ParseLines(FileLines(file.value))))
  {
    match file
    case None => (0, store)
    case Some(text) =>
      var added := ImportEntries(store, ParseLines(FileLines(text)));
      (|added|, AddAll(store, added))
  }

  // ---------------------------------------------------------------------------------
  // Properties
  // ---------------------------------------------------------------------------------

  /** The 03:00 instant of a date, as `strptime` then `replace(hour=3)` produce it. */
  lemma NightlyStartOfDate(y: int, m: int, d: int)
    requires ValidDate(y, m, d)
    ensures NightlyStart(Midnight(y, m, d)) == At(DayNumber(y, m, d), 3, 0, 0)
  {
    var t := NightlyStart(Midnight(y, m, d));
    MidnightIsStartOfDay(y, m, d);
    Decompose(t);
  }

  /** A line made of a date text without whitespace, `:` and a result word without
      whitespace or `:` is read as that date at 03:00 with the word's status. */
  lemma ParseTrackingLineOfParts(date: string, word: string, day: Instant)
    requires NoSpace(date) && NoSpace(word) && ':' !in word
    requires ParseIsoDate(date) == Some(day)
    ensures ParseTrackingLine(date + ":" + word)
         == Some(Entry(NightlyStart(day), if word == "success" then Success else Failure))
  {
    var line := date + [':'] + word;
    assert line == date + ":" + word;
    assert SplitTrackingLine(line) == Some((date, word)) by {
      assert NoSpace(line);
      StripOfNoSpace(line);
      assert line[|date|] == ':';
      RSplitOnceOf(date, ':', word);
    }
    assert ReadEntry(date, word) == Some(Entry(NightlyStart(day), if word == "success" then Success else Failure)) by {
      StripOfNoSpace(date);
      StripOfNoSpace(word);
    }
  }

  /** Round trip: the line the backup script writes, `YYYY-MM-DD:` and a result word,
      reads back as that date at 03:00 with status success exactly for the word `success`. */
  lemma ParseTrackingLineOfFormat(y: int, m: int, d: int, word: string)
    requires ValidDate(y, m, d) && ':' !in word && NoSpace(word)
    ensures ParseTrackingLine(FormatIsoDate(y, m, d) + ":" + word)
         == Some(Entry(At(DayNumber(y, m, d), 3, 0, 0), if word == "success" then Success else Failure))
  {
    var date := FormatIsoDate(y, m, d);
    assert NoSpace(date) by {
      assert date == Pad4(y) + "-" + Pad2(m) + "-" + Pad2(d);
    }
    ParseIsoDateOfFormat(y, m, d);
    ParseTrackingLineOfParts(date, word, Midnight(y, m, d));
    NightlyStartOfDate(y, m, d);
  }

  /** The accepted lines all have a `daily_mirror` row in `store`. */
  predicate Covered(store: Store, entries: seq<Option<Entry>>) {
    forall i :: 0 <= i < |entries| && entries[i].Some? ==> HasRun(store, DailyMirror, entries[i].value.startedAt)
  }

  /** Lines whose dates are all stored already add nothing. */
  lemma {:induction false} ImportWhenCovered(store: Store, entries: seq<Option<Entry>>)
    requires Covered(store, entries)
    decreases |entries|
    ensures ImportEntries(store, entries) == []
  {
    if |entries| > 0 {
      assert forall i :: 1 <= i < |entries| ==> entries[1..][i - 1] == entries[i];
      ImportWhenCovered(store, entries[1..]);
    }
  }

  /** Each row a line adds sits at some position `k` of the rows the whole import adds. */
  lemma EntryRunsInImport(base: Store, entries: seq<Option<Entry>>, i: nat, j: nat) returns (k: nat)
    requires i < |entries| && j < |EntryRuns(base, entries[i])|
    ensures k < |ImportEntries(base, entries)| && ImportEntries(base, entries)[k] == EntryRuns(base, entries[i])[j]
  {
    ImportIsConcat(base, entries);
    k := ConcatIndex(RunsByLine(base, entries), i, j);
  }

  /** The pieces of a sequence of sequences, joined in order. */
  function Concat<T>(xs: seq<seq<T>>): seq<T>
    decreases |xs|
  {
    if |xs| == 0 then [] else xs[0] + Concat(xs[1..])
  }

  /** Element `j` of piece `i` sits at some position `k` of the joined pieces. */
  lemma {:induction false} ConcatIndex<T>(xs: seq<seq<T>>, i: nat, j: nat) returns (k: nat)
    requires i < |xs| && j < |xs[i]|
    decreases |xs|
    ensures k < |Concat(xs)| && Concat(xs)[k] == xs[i][j]
  {
    if i == 0 {
      k := j;
    } else {
      assert xs[1..][i - 1] == xs[i];
      var k' := ConcatIndex(xs[1..], i - 1, j);
      k := |xs[0]| + k';
    }
  }

  /** The rows each line adds, line by line. */
  function RunsByLine(base: Store, entries: seq<Option<Entry>>): (r: seq<seq<BackupRun>>)
    ensures |r| == |entries|
  {
    seq(|entries|, n requires 0 <= n < |entries| => EntryRuns(base, entries[n]))
  }

  /** The import adds the rows of each line, one line after another. */
  lemma {:induction false} ImportIsConcat(base: Store, entries: seq<Option<Entry>>)
    decreases |entries|
    ensures ImportEntries(base, entries) == Concat(RunsByLine(base, entries))
  {
    if |entries| > 0 {
      ImportIsConcat(base, entries[1..]);
      assert RunsByLine(base, entries)[1..] == RunsByLine(base, entries[1..]);
    }
  }

  /** After an import every accepted line has its `daily_mirror` row stored. */
  lemma ImportCovers(store: Store, entries: seq<Option<Entry>>)
    ensures Covered(AddAll(store, ImportEntries(store, entries)), entries)
  {
    var added := ImportEntries(store, entries);
    forall i | 0 <= i < |entries| && entries[i].Some?
      ensures HasRun(AddAll(store, added), DailyMirror, entries[i].value.startedAt)
    {
      var t := entries[i].value.startedAt;
      if HasRun(store, DailyMirror, t) {
        HasRunAfterAddAll(store, added, DailyMirror, t);
      } else {
        var k := EntryRunsInImport(store, entries, i, 0);
        HasRunOfAdded(store, added, k);
      }
    }
  }

  /** Importing the same file again adds nothing and reports 0. */
  lemma ImportIdempotent(store: Store, text: string)
    ensures var (_, after) := ImportFromTrackingFile(store, Some(text));
            ImportFromTrackingFile(after, Some(text)) == (0, after)
  {
    var entries := ParseLines(FileLines(text));
    ImportCovers(store, entries);
    var after := ImportFromTrackingFile(store, Some(text)).1;
    ImportWhenCovered(after, entries);
  }

  /** A successful Sunday backup with nothing stored for its day adds three rows: the
      `daily_mirror` at 03:00, the snapshot at 03:30 and the cleanup at 04:00. */
  lemma SundaySuccessAddsThree(base: Store, day: int)
    requires day % 7 == Sunday
    requires !HasRun(base, DailyMirror, At(day, 3, 0, 0))
    requires !HasRun(base, Snapshot, At(day, 3, 0, 0))
    requires !HasRun(base, Cleanup, At(day, 4, 0, 0))
    ensures LineRuns(base, Entry(At(day, 3, 0, 0), Success))
              == [NewRun(DailyMirror, Success, At(day, 3, 0, 0), ByCron),
                  NewRun(Snapshot, Success, At(day, 3, 30, 0), ByCron),
                  NewRun(Cleanup, Success, At(day, 4, 0, 0), ByCron)]
  {
    ReplaceOfAt(day, 3, 0, 0, 3, Some(30));
    ReplaceOfAt(day, 3, 0, 0, 4, None);
    ReplaceOfAt(day, 3, 0, 0, 4, Some(0));
  }

  /** The cleanup has its own lookup: with a cleanup already stored at 04:00, a successful
      Sunday whose other two rows are missing adds only the `daily_mirror` row and the
      snapshot. */
  lemma StoredCleanupNotAddedAgain(base: Store, day: int)
    requires day % 7 == Sunday
    requires !HasRun(base, DailyMirror, At(day, 3, 0, 0))
    requires !HasRun(base, Snapshot, At(day, 3, 0, 0))
    requires HasRun(base, Cleanup, At(day, 4, 0, 0))
    ensures LineRuns(base, Entry(At(day, 3, 0, 0), Success))
              == [NewRun(DailyMirror, Success, At(day, 3, 0, 0), ByCron),
                  NewRun(Snapshot, Success, At(day, 3, 30, 0), ByCron)]
  {
    ReplaceOfAt(day, 3, 0, 0, 3, Some(30));
    ReplaceOfAt(day, 3, 0, 0, 4, None);
  }

  /** A file of one line without whitespace that reads as `e` adds the rows of `e`. */
  lemma ImportOneLine(base: Store, line: string, e: Entry)
    requires NoSpace(line) && line != [] && ParseTrackingLine(line) == Some(e)
    ensures ImportFromTrackingFile(base, Some(line)) == (|LineRuns(base, e)|, AddAll(base, LineRuns(base, e)))
  {
    SingleLineFile(line);
    ImportFileOfEntries(base, line, [Some(e)]);
    ImportOneEntry(base, e);
  }

  /** A file of one word is one line. */
  lemma SingleLineFile(line: string)
    requires NoSpace(line) && line != []
    ensures ParseLines(FileLines(line)) == [ParseTrackingLine(line)]
  {
    SingleWordText(line);
    assert FileLines(line) == [line];
  }

  /** The import of a file is the import of its lines' entries. */
  lemma ImportFileOfEntries(base: Store, text: string, entries: seq<Option<Entry>>)
    requires ParseLines(FileLines(text)) == entries
    ensures ImportFromTrackingFile(base, Some(text))
         == (|ImportEntries(base, entries)|, AddAll(base, ImportEntries(base, entries)))
  {
  }

  /** A file with one accepted line adds that line's rows. */
  lemma ImportOneEntry(base: Store, e: Entry)
    ensures ImportEntries(base, [Some(e)]) == LineRuns(base, e)
  {
    assert [Some(e)][1..] == [];
    assert ImportEntries(base, [Some(e)]) == LineRuns(base, e) + [];
  }

  /** The line the backup script writes for a date has no whitespace. */
  lemma TrackingLineNoSpace(y: int, m: int, d: int, word: string)
    requires ValidDate(y, m, d) && NoSpace(word)
    ensures NoSpace(FormatIsoDate(y, m, d) + ":" + word)
  {
    var date := FormatIsoDate(y, m, d);
    assert date == Pad4(y) + "-" + Pad2(m) + "-" + Pad2(d);
  }

  /** A tracking file holding the one line `YYYY-MM-DD:success` for a Sunday with nothing
      stored for it imports three rows. */
  lemma ImportSundaySuccessLine(base: Store, y: int, m: int, d: int)
    requires ValidDate(y, m, d) && DayNumber(y, m, d) % 7 == Sunday
    requires var day := DayNumber(y, m, d);
             && !HasRun(base, DailyMirror, At(day, 3, 0, 0))
             && !HasRun(base, Snapshot, At(day, 3, 0, 0))
             && !HasRun(base, Cleanup, At(day, 4, 0, 0))
    ensures ImportFromTrackingFile(base, Some(FormatIsoDate(y, m, d) + ":" + "success")).0 == 3
  {
    var day := DayNumber(y, m, d);
    var e := Entry(At(day, 3, 0, 0), Success);
    ParseTrackingLineOfFormat(y, m, d, "success");
    TrackingLineNoSpace(y, m, d, "success");
    ImportOneLine(base, FormatIsoDate(y, m, d) + ":" + "success", e);
    SundaySuccessAddsThree(base, day);
  }

  /** A file with one failed day that is not yet stored imports exactly one row. */
  lemma ImportFailedLine(base: Store, y: int, m: int, d: int)
    requires ValidDate(y, m, d) && !HasRun(base, DailyMirror, At(DayNumber(y, m, d), 3, 0, 0))
    ensures ImportFromTrackingFile(base, Some(FormatIsoDate(y, m, d) + ":" + "failed")).1
            == Add(base, NewRun(DailyMirror, Failure, At(DayNumber(y, m, d), 3, 0, 0), ByCron))
  {
    var e := Entry(At(DayNumber(y, m, d), 3, 0, 0), Failure);
    ParseTrackingLineOfFormat(y, m, d, "failed");
    TrackingLineNoSpace(y, m, d, "failed");
    ImportOneLine(base, FormatIsoDate(y, m, d) + ":" + "failed", e);
    assert LineRuns(base, e) == [NewRun(DailyMirror, Failure, e.startedAt, ByCron)];
    assert [NewRun(DailyMirror, Failure, e.startedAt, ByCron)][1..] == [];
  }

  /** A failed backup, or any backup on a day other than Sunday, adds only its own row. */
  lemma OrdinaryLineAddsOne(base: Store, e: Entry)
    requires Weekday(e.startedAt) != Sunday || e.status == Failure
    requires !HasRun(base, DailyMirror, e.startedAt)
    ensures LineRuns(base, e) == [NewRun(DailyMirror, e.status, e.startedAt, ByCron)]
  {
  }

  /** On a Sunday whose `daily_mirror` row and 03:00 snapshot are both missing, the second
      row a successful line adds is a snapshot at 03:30. */
  lemma SundaySnapshotRow(base: Store, day: int)
    requires day % 7 == Sunday
    requires !HasRun(base, DailyMirror, At(day, 3, 0, 0)) && !HasRun(base, Snapshot, At(day, 3, 0, 0))
    ensures var added := LineRuns(base, Entry(At(day, 3, 0, 0), Success));
            |added| >= 2 && added[1] == NewRun(Snapshot, Success, At(day, 3, 30, 0), ByCron)
  {
    ReplaceOfAt(day, 3, 0, 0, 3, Some(30));
  }

  /** Two different rows of type `ty` start at `t`. */
  predicate HasTwoRuns(store: Store, ty: BackupType, t: Instant) {
    exists i, j :: 0 <= i < j < |store| && store[i].backupType == ty && store[j].backupType == ty
                   && store[i].startedAt == t && store[j].startedAt == t
  }

  /** The snapshot test looks for a snapshot at 03:00 while snapshots are stored at 03:30.
      With the day's `daily_mirror` row gone but its snapshot still stored, importing the
      line again stores a second snapshot at the same instant. */
  lemma SnapshotProbeMissesStoredSnapshot(base: Store, day: int)
    requires day % 7 == Sunday
    requires !HasRun(base, DailyMirror, At(day, 3, 0, 0)) && !HasRun(base, Snapshot, At(day, 3, 0, 0))
    requires HasRun(base, Snapshot, At(day, 3, 30, 0))
    ensures HasTwoRuns(AddAll(base, LineRuns(base, Entry(At(day, 3, 0, 0), Success))), Snapshot, At(day, 3, 30, 0))
  {
    var added := LineRuns(base, Entry(At(day, 3, 0, 0), Success));
    SundaySnapshotRow(base, day);
    var after := AddAll(base, added);
    var i :| 0 <= i < |base| && base[i].backupType == Snapshot && base[i].startedAt == At(day, 3, 30, 0);
    assert after[i] == base[i];
    var j := |base| + 1;
    assert after[j] == added[1].(id := after[j].id);
    assert after[i].backupType == Snapshot && after[i].startedAt == At(day, 3, 30, 0);
    assert after[j].backupType == Snapshot && after[j].startedAt == At(day, 3, 30, 0);
  }

  /** A date repeated within one file is not caught: both copies add their rows, because
      the duplicate test sees only rows stored before the import. */
  lemma RepeatedLineAddedTwice(base: Store, e: Entry)
    requires !HasRun(base, DailyMirror, e.startedAt)
    ensures ImportEntries(base, [Some(e), Some(e)]) == LineRuns(base, e) + LineRuns(base, e)
    ensures |ImportEntries(base, [Some(e), Some(e)])| >= 2
  {
    assert [Some(e), Some(e)][1..] == [Some(e)];
    assert [Some(e)][1..] == [];
  }
}

=== FILE: wrappers.dfy ===
/** Failure-compatible result types shared by the whole model. */
module Wrappers {

  /** Python's `Optional[T]`: either `None` or a value. */
  datatype Option<+T> = None | Some(value: T) {
    /** Returns the value, or `default` when there is none. */
    function GetOr(default: T): T {
      match this
      case Some(v) => v
      case None => default
    }
  }
}
